=== FILE: README.md ===
# ResQFood in Dafny

ResQFood is a food-rescue marketplace. Restaurants and housing societies
list surplus food, NGOs request it, and an admin watches the figures. This
project models the client's core logic and proves properties about it:

- **Application shell and state.** The screen each view shows, the food
  grid's per-view filters (`App`), and the shared application state
  (`AppContext`). The state covers role-based donation and request
  refreshes over a table, the in-place list updates after each backend
  call, notification read flags and the admin statistics.
- **Donations.** The donation form with its freshness score
  (`AddFoodForm`) and the food card's buttons (`FoodCard`).
- **Dashboards.** The per-role dashboard cards (`DashboardCards`) and the
  recent-activity feed (`RecentActivity`).
- **The chat assistant.**
  - The rule-based response engine `DynamicChatBot` (`ChatBotResponses`).
  - The `useDynamicChatBot` hook (`UseChatBot`) and its provider
    (`ChatBotProvider`).
  - The settings panel (`ChatBotSettings`).
  - The older stand-alone widget (`LegacyChatBot`).
  - The ticket centre (`ChatSupport`) and the live-agent chat
    (`LiveSupport`).
- **The security toolkit.** The password generator and strength meter
  (`PasswordTools`), the Caesar cipher (`CryptoTools`) and the scored
  security audit (`SecurityAudit`).

Shared pieces sit in two modules. `Domain` holds the entities: profiles,
donations, requests and notifications. `Common` holds the helpers: options,
filtering, subsequences, counting, and the text functions the source calls
(`toLowerCase`, `includes`, `trim`, `parseInt`).

Components whose state the source updates in place are classes: the
application state, the form, the chat sessions and the panels. Their
methods state the whole new state. Pure computations are functions, each
with lemmas tying it to a partner: an inverse, an invariant it keeps, or
an independent definition.

Everything the browser or backend decides becomes a parameter of the
operation:

- the clock, the value of `Date.now()`;
- `Math.random()` draws;
- whether a backend call succeeded, and the table a query runs over;
- timers, each of which becomes a separate method that the caller invokes
  when the timer fires.

## Model

| member | source | states |
|---|---|---|
| AddFoodForm.ExpiryPenalty | src/components/Food/AddFoodForm.tsx:68 | the expiry adjustment is never negative, is zero from four hours on, and adds two points per hour below four |
| AddFoodForm.FreshnessAsWritten | src/components/Food/AddFoodForm.tsx:66-70 | calculateFreshness as written: at least 70 and at least the base, equal to the base for a base of 70 or more and an expiry of four hours or more, four above it for two hours |
| AddFoodForm.FreshnessOverHundred | src/components/Food/AddFoodForm.tsx:67-69 | a base of 99 (a draw the random call can give) with a two-hour expiry scores 103, over a percentage |
| AddFoodForm.Freshness | src/components/Food/AddFoodForm.tsx:66-70 | the corrected score lies in 70..100, never exceeds the written one, and equals it whenever the written one is at most 100 |
| AddFoodForm.FreshnessOfDraw | src/components/Food/AddFoodForm.tsx:67-69 | for every base from 80 to 99: four hours or more keep the base, two hours add four up to 100, and no score falls below 80 |
| AddFoodForm.NonEmpty | src/components/Food/AddFoodForm.tsx:92 | `value \|\| undefined`: absent exactly for the empty text, and the text can be read back from the field |
| AddFoodForm.NonEmptyList | src/components/Food/AddFoodForm.tsx:98-99 | a list field is absent exactly when the list is empty, and the list can be read back |
| AddFoodForm.DraftOf | src/components/Food/AddFoodForm.tsx:79-99 | the row sent is an available donation owned by the user under both owner columns, expiring the chosen hours after now, with every form field recoverable from it; its freshness is the written score, at least 70 and at least the base, equal to the corrected score whenever it is at most 100 |
| AddFoodForm.AddFoodFormState.constructor | src/components/Food/AddFoodForm.tsx:38-52 | the form starts empty (meals, servings, four hours), not submitting, without the success banner |
| AddFoodForm.AddFoodFormState.HandleSubmit | src/components/Food/AddFoodForm.tsx:72-124 | without a user or profile nothing is sent and nothing changes; otherwise the row built from the old form is sent, submission ends, and only a successful add shows the banner and resets the form |
| AddFoodForm.AddFoodFormState.HideSuccess | src/components/Food/AddFoodForm.tsx:117 | the timer hides the banner and leaves the form alone |
| App.FilteredDonations | src/App.tsx:126-137 | each grid view keeps, in list order, exactly the viewer's own donations, exactly the available donations of others, or every donation; any other view shows nothing |
| App.OwnAndAvailableDisjoint | src/App.tsx:128-131 | no donation is listed both under the viewer's own and under the food available to them |
| App.OwnAndAvailableCount | src/App.tsx:128-131 | together the two filtered views never list more donations than there are |
| App.AvailableViewIsRequestable | src/App.tsx:130-131 | for an NGO, the available-food view lists exactly the donations whose card offers the request button |
| App.Title | src/App.tsx:141-148 | the default title is shown exactly for a view that is not a grid view |
| App.TitleIdentifiesView | src/App.tsx:141-148 | the three grid views have three different titles |
| App.ItemLabel | src/App.tsx:155 | the count label is singular exactly for one item |
| App.QuickActionsFor | src/App.tsx:51-81 | restaurants and societies get the donor buttons, NGOs the NGO buttons, anyone else none |
| App.Render | src/App.tsx:17-107 | loading shows the loading screen and only then; no user shows the landing page; the admin dashboard appears exactly for an admin on the dashboard view; a grid view shows the grid of that view; an unknown view shows the coming-soon screen |
| App.DonorQuickActionsWork | src/App.tsx:51-65 | both donor quick actions lead to a screen renderContent has a case for |
| App.NgoMyRequestsIsComingSoon | src/App.tsx:74-78 | the NGO's second quick action opens a view renderContent has no case for, so it shows the coming-soon screen |
| AppContext.QueryDonations | src/lib/supabase.ts:177-198 | the query returns rows of the table only, each passing the status and donor filters, and misses none that passes |
| AppContext.DonationFilterFor | src/context/AppContext.tsx:126-134 | restaurants and societies filter by their own id, NGOs by status available, an admin or a missing profile not at all |
| AppContext.RefreshedDonationsByRole | src/context/AppContext.tsx:128-137 | after a refresh a donor holds only its own rows, an NGO only available rows, an admin the whole table |
| AppContext.QueryRequests | src/lib/supabase.ts:254-270 | with an NGO id only that NGO's requests come back; without one (or with an empty one) the whole table |
| AppContext.OnDonations | src/context/AppContext.tsx:180-181 | the requests kept are exactly the table's requests on one of the given donation ids |
| AppContext.RequestsAsWritten | src/context/AppContext.tsx:165-196 | refreshRequests as written: every request shown comes from the table |
| AppContext.DonorWithoutDonationsSeesAll | src/context/AppContext.tsx:174-190 | a restaurant with no donations falls through to the unfiltered query and sees a request on a donation that is not its own |
| AppContext.Requests | src/context/AppContext.tsx:165-196 | corrected refresh: rows come from the table, an NGO sees only its own requests, an admin the whole table |
| AppContext.DonorSeesOwnRequestsOnly | src/context/AppContext.tsx:174-182 | under the corrected refresh every request a donor sees is on one of its own donations, with or without donations |
| AppContext.AsWrittenAgreesOtherwise | src/context/AppContext.tsx:165-196 | the written and corrected refreshes agree for everyone except a donor without donations |
| AppContext.ReplaceById | src/context/AppContext.tsx:153-157 | for donations (line 155) and requests (line 208): the list keeps its length; rows with the id become the returned row and every other row stays |
| AppContext.ReplaceKeepsIds | src/context/AppContext.tsx:153-157 | an update that returns a row under the same id leaves the list of ids, in order, unchanged |
| AppContext.RemoveDonation | src/context/AppContext.tsx:161 | exactly the rows with the id disappear, the others keep their order, and the length drops by the number of rows with that id |
| AppContext.AddThenRemove | src/context/AppContext.tsx:145-162 | removing a freshly added donation whose id is new gives back the list before the add |
| AppContext.QueryNotifications | src/lib/supabase.ts:318-323 | the user's notifications, all of them and nobody else's |
| AppContext.MarkRead | src/context/AppContext.tsx:227-230 | only notifications with the id become read, and the unread count never rises |
| AppContext.MarkAllRead | src/context/AppContext.tsx:232-236 | every notification becomes read and none is left unread |
| AppContext.TypeCountsAddUp | src/context/AppContext.tsx:260-263 | the per-type counts over the six food types add up to the number of donations |
| AppContext.TallyStep | src/context/AppContext.tsx:260-262 | counting one more donation keeps the tally equal to the per-type counts, keys exactly for the types that occur |
| AppContext.AppState.constructor | src/context/AppContext.tsx:101-115 | the lists start empty and the analytics at zero |
| AppContext.AppState.RefreshDonations | src/context/AppContext.tsx:121-143 | without a user, or when the query fails, the list stays; otherwise it is the role's query over the table; nothing else changes |
| AppContext.AppState.AddDonation | src/context/AppContext.tsx:145-151 | the created row goes first, before the old list |
| AppContext.AppState.UpdateDonation | src/context/AppContext.tsx:153-157 | the list becomes the old list with the rows of that id replaced |
| AppContext.AppState.RemoveDonationById | src/context/AppContext.tsx:159-162 | the list loses exactly the rows with the id |
| AppContext.AppState.RefreshRequests | src/context/AppContext.tsx:165-196 | without a user or profile, or when a query fails, the requests stay; otherwise they are the written refresh's requests, the whole table for a donor without donations |
| AppContext.AppState.AddRequest | src/context/AppContext.tsx:198-204 | the created request goes first |
| AppContext.AppState.UpdateRequest | src/context/AppContext.tsx:206-210 | the requests with the id are replaced by the returned row |
| AppContext.AppState.RefreshNotifications | src/context/AppContext.tsx:213-225 | without a user, or when the query fails, the notifications stay; otherwise they are the user's notifications from the table |
| AppContext.AppState.MarkAsRead | src/context/AppContext.tsx:227-230 | the notification with the id becomes read and the unread count never goes up |
| AppContext.AppState.MarkAllAsRead | src/context/AppContext.tsx:232-236 | without a user nothing changes; otherwise nothing is left unread |
| AppContext.AppState.RefreshAnalytics | src/context/AppContext.tsx:239-246 | the analytics become the figures fetched, or stay when the call fails; the lists stay |
| AppContext.AppState.GetAdminStats | src/context/AppContext.tsx:249-277 | the figures copy the analytics, totalServed is the sum of the quantities, the role counts are zero, and the per-type map has a key exactly for each type that occurs, holding its count |
| ChatSupport.NewTicket | src/components/Chat/ChatSupport.tsx:140-149 | a new ticket is open, unassigned, promised within two hours, and carries the form's subject, priority, category and description |
| ChatSupport.AssignAll | src/components/Chat/ChatSupport.tsx:161-167 | the list keeps its length; tickets with the id go in progress with the named agent, the others stay |
| ChatSupport.CreateThenAssign | src/components/Chat/ChatSupport.tsx:137-168 | creating a ticket with a fresh id and then running the auto-assignment changes only that ticket, which ends in progress with Sarah Johnson |
| ChatSupport.FilteredTickets | src/components/Chat/ChatSupport.tsx:190-195 | the tickets shown, in list order, are exactly those whose subject or last message contains the search ignoring case and whose category is the selected one, any when none is selected |
| ChatSupport.ShowAllByDefault | src/components/Chat/ChatSupport.tsx:190-195 | an empty search with no category selected shows every ticket |
| ChatSupport.SearchIgnoresCase | src/components/Chat/ChatSupport.tsx:191-192 | a search text and its lower-case form show the same tickets |
| ChatSupport.SupportCenter.constructor | src/components/Chat/ChatSupport.tsx:40-49 | no tickets, no category or search, the form closed and blank |
| ChatSupport.SupportCenter.CreateTicket | src/components/Chat/ChatSupport.tsx:137-158 | the ticket built from the old form goes first, the form closes and resets, the filters stay |
| ChatSupport.SupportCenter.AutoAssign | src/components/Chat/ChatSupport.tsx:161-167 | the timer assigns every ticket with the id and changes nothing else |
| ChatSupport.SupportCenter.Shown | src/components/Chat/ChatSupport.tsx:190-195 | the shown list is an in-order selection of the tickets, all of them when no filter is set |
| ChatSupport.SupportCenter.ConnectToAgent | src/components/Chat/ChatSupport.tsx:287-289 | the stub always fails with its fixed message |
| ChatBotProvider.NewSession | src/components/Chat/ChatBotProvider.tsx:82-92 | a new session is active, empty, owned by the placeholder user, and has the requested type, category and priority |
| ChatBotProvider.EndAll | src/components/Chat/ChatBotProvider.tsx:101-107 | the list keeps its length; sessions with the id are resolved and stamped, the others stay |
| ChatBotProvider.AppendAll | src/components/Chat/ChatBotProvider.tsx:121-131 | the list keeps its length; sessions with the id get the message appended, the others stay |
| ChatBotProvider.ResolvedSessionAcceptsMessages | src/components/Chat/ChatBotProvider.tsx:100-145 | neither endSession nor addMessage looks at the status: an ended session still takes a message and stays resolved |
| ChatBotProvider.ChatBotProvider.constructor | src/components/Chat/ChatBotProvider.tsx:55-59 | enabled, closed, no unread messages, no sessions, no current session |
| ChatBotProvider.ChatBotProvider.ToggleChatBot | src/components/Chat/ChatBotProvider.tsx:61-66 | the window flips; opening it clears the unread count, closing it keeps the count |
| ChatBotProvider.ChatBotProvider.OpenChatBot | src/components/Chat/ChatBotProvider.tsx:68-71 | the window is open and the unread count zero |
| ChatBotProvider.ChatBotProvider.CloseChatBot | src/components/Chat/ChatBotProvider.tsx:73-75 | the window is closed and the unread count kept |
| ChatBotProvider.ChatBotProvider.SetUnreadCount | src/components/Chat/ChatBotProvider.tsx:57 | the counter takes the given value; nothing else changes |
| ChatBotProvider.ChatBotProvider.CreateSession | src/components/Chat/ChatBotProvider.tsx:77-98 | the new session goes first, the list grows by one, it becomes current, and every session still belongs to the placeholder user with the current one in the list |
| ChatBotProvider.ChatBotProvider.EndSession | src/components/Chat/ChatBotProvider.tsx:100-112 | every session with the id is resolved, the current one is dropped exactly when it has the id, and the current session stays one of the list's |
| ChatBotProvider.ChatBotProvider.AddMessage | src/components/Chat/ChatBotProvider.tsx:114-145 | the stamped message is appended to each session with the id and to the current one when it has the id; the unread count rises by one exactly when the window is closed and the sender is not the user |
| ChatBotProvider.ChatBotProvider.SessionHistory | src/components/Chat/ChatBotProvider.tsx:147-149 | only the given user's sessions; since every session belongs to the placeholder user, that user gets all of them and anyone else none |
| ChatBotResponses.Merge | src/utils/chatBotResponses.ts:502-504 | no contract of its own; MergeKeepsUnsupplied and MergeIdempotent state the spread overlay |
| ChatBotResponses.MergeKeepsUnsupplied | src/utils/chatBotResponses.ts:502-504 | a context update takes every field the patch supplies and keeps every field it leaves out |
| ChatBotResponses.MergeIdempotent | src/utils/chatBotResponses.ts:502-504 | applying the same update twice is applying it once, and an empty update changes nothing |
| ChatBotResponses.FirstMatch | src/utils/chatBotResponses.ts:60-66 | no contract of its own; FirstMatchIsEarliest, FirstMatchNone and FirstMatchSound state first match wins, in key order |
| ChatBotResponses.FirstMatchIsEarliest | src/utils/chatBotResponses.ts:60-66 | when row i is the first row with a keyword in the message, its label is the answer (first match wins, in key order) |
| ChatBotResponses.FirstMatchNone | src/utils/chatBotResponses.ts:60-66 | with no matching row the fallback label is the answer |
| ChatBotResponses.FirstMatchSound | src/utils/chatBotResponses.ts:60-66 | the answer is the fallback or the label of a row that matches |
| ChatBotResponses.FindFirstMatch | src/utils/chatBotResponses.ts:60-66 | the search loop returns the first-match label of the table |
| ChatBotResponses.AnalyzeIntent | src/utils/chatBotResponses.ts:47-67 | the intent is the first-match label of the intent table, `general` when nothing matches |
| ChatBotResponses.IntentOf | src/utils/chatBotResponses.ts:47-67 | no contract of its own; AnalyzeIntent is proved equal to it, and EmergencyIntentIsUrgent and EmergencyRow state the emergency row |
| ChatBotResponses.CategorizeMessage | src/utils/chatBotResponses.ts:81-99 | the category is the first-match label of the category table, `general_inquiry` when nothing matches |
| ChatBotResponses.CategoryOf | src/utils/chatBotResponses.ts:81-99 | no contract of its own; CategorizeMessage is proved equal to it |
| ChatBotResponses.DetectUrgency | src/utils/chatBotResponses.ts:69-79 | urgent exactly when an urgent keyword occurs; high exactly when none does but a high one does; low exactly when only a low one does; medium otherwise |
| ChatBotResponses.EmergencyIntentIsUrgent | src/utils/chatBotResponses.ts:55-70 | a message classified as the emergency intent is always of urgent urgency |
| ChatBotResponses.EmergencyRow | src/utils/chatBotResponses.ts:55-70 | the emergency intent's keywords are the first five urgent keywords, in order |
| ChatBotResponses.RespondIgnoresCase | src/utils/chatBotResponses.ts:35-44 | two messages equal after lower-casing get the same answer |
| ChatBotResponses.BuildResponse | src/utils/chatBotResponses.ts:101-122 | no contract of its own; BuildResponseEmergency and BuildResponseByRole state the emergency-then-role dispatch |
| ChatBotResponses.BuildResponseEmergency | src/utils/chatBotResponses.ts:101-122 | the emergency answer comes exactly for urgent urgency or the emergency intent, and only it sets a priority or `requiresHuman` |
| ChatBotResponses.Respond | src/utils/chatBotResponses.ts:35-44 | no contract of its own; RespondIgnoresCase, RespondEmergency and RespondByRole state the answer for a raw message |
| ChatBotResponses.RespondEmergency | src/utils/chatBotResponses.ts:35-44 | the emergency answer comes exactly when the normalised message holds an urgent keyword; it alone carries priority urgent and `requiresHuman`, and its first of three actions calls the emergency line |
| ChatBotResponses.BuildResponseByRole | src/utils/chatBotResponses.ts:108-339 | outside an emergency, donors, NGOs and admins get their role's template chosen by intent, and a visitor the general one echoing the message; every figure a template quotes is the user's own figure when the statistics carry it, and 0 when the statistics or that figure are missing |
| ChatBotResponses.RespondByRole | src/utils/chatBotResponses.ts:35-122 | the same role dispatch for any message with no urgent keyword, quoting each known figure as it is and each unknown one as 0 |
| ChatBotResponses.MissingStatsShowZero | src/utils/chatBotResponses.ts:127-140 | with no statistics in the context, or statistics without a single figure, every figure an answer shows is 0 |
| ChatBotResponses.DynamicChatBot.constructor | src/utils/chatBotResponses.ts:31-33 | the assistant starts with the given context |
| ChatBotResponses.DynamicChatBot.GenerateResponse | src/utils/chatBotResponses.ts:35-45 | the answer is the one for the context and message, and it asks for a human exactly when the normalised message holds an urgent keyword |
| ChatBotResponses.DynamicChatBot.UpdateContext | src/utils/chatBotResponses.ts:502-504 | the context becomes the old one overlaid with the patch |
| ChatBotResponses.DynamicChatBot.ContextualSuggestions | src/utils/chatBotResponses.ts:506-545 | four starter questions for a visitor, five for every role |
| ChatBotSettings.Initial | src/components/Chat/ChatBotSettings.tsx:28-36 | the first settings are the defaults except that `enabled` follows the provider |
| ChatBotSettings.Apply | src/components/Chat/ChatBotSettings.tsx:41 | each field is the supplied one when the update has it and the old one otherwise |
| ChatBotSettings.ApplyLaws | src/components/Chat/ChatBotSettings.tsx:40-48 | an empty update changes nothing and repeating an update changes nothing more |
| ChatBotSettings.Flip | src/components/Chat/ChatBotSettings.tsx:51-56 | no contract of its own; FlipOnlyItsSwitch and FlipTwice state that a toggle flips exactly its own switch |
| ChatBotSettings.FlipOnlyItsSwitch | src/components/Chat/ChatBotSettings.tsx:51-56 | a toggle inverts its own switch and keeps every other switch, the language and the theme |
| ChatBotSettings.FlipTwice | src/components/Chat/ChatBotSettings.tsx:51-56 | toggling the same switch twice restores the settings |
| ChatBotSettings.SettingsPanel.constructor | src/components/Chat/ChatBotSettings.tsx:28-37 | initial settings, no banner, nothing stored |
| ChatBotSettings.SettingsPanel.UpdateSettings | src/components/Chat/ChatBotSettings.tsx:40-48 | the settings become the merged ones, the merged ones are what is stored, and the banner shows |
| ChatBotSettings.SettingsPanel.HandleToggle | src/components/Chat/ChatBotSettings.tsx:51-56 | the switch flips and is stored; the provider's window flips exactly for the `enabled` switch, opening it clears the unread count, and its sessions are untouched |
| ChatBotSettings.SettingsPanel.HandleLanguageChange | src/components/Chat/ChatBotSettings.tsx:59-61 | only the language changes, and the result is stored |
| ChatBotSettings.SettingsPanel.HandleSave | src/components/Chat/ChatBotSettings.tsx:64-68 | the settings stay as they are and are what is stored |
| ChatBotSettings.SettingsPanel.HandleReset | src/components/Chat/ChatBotSettings.tsx:71-86 | every field and the stored copy go back to the defaults |
| ChatBotSettings.SettingsPanel.HideSaved | src/components/Chat/ChatBotSettings.tsx:47 | the banner hides and nothing else changes |
| CryptoTools.Shift | project/src/components/CryptoTools.tsx:52-60 | the shift is never zero; it is the parsed key whenever that is a non-zero number, and 1 when the key parses to NaN or 0 |
| CryptoTools.JsRem26 | project/src/components/CryptoTools.tsx:55-63 | JavaScript's `% 26`: below 26 in size, equal to the floor remainder for a non-negative dividend, never positive for a negative one, and congruent to the dividend modulo 26, which together fix its value |
| CryptoTools.EncryptAsWritten | project/src/components/CryptoTools.tsx:51-57 | the text keeps its length and each character is replaced by the written per-letter callback |
| CryptoTools.DecryptAsWritten | project/src/components/CryptoTools.tsx:59-65 | the text keeps its length and each character is replaced by the written per-letter callback |
| CryptoTools.ShiftOfMinusOne | project/src/components/CryptoTools.tsx:52 | the key "-1" gives the shift -1 |
| CryptoTools.ShiftOfFiftyTwo | project/src/components/CryptoTools.tsx:52 | the key "52" gives the shift 52 |
| CryptoTools.OneCharacter | project/src/components/CryptoTools.tsx:51-65 | a one-character text maps to its callback's single character |
| CryptoTools.NegativeKeyLeavesAlphabet | project/src/components/CryptoTools.tsx:55-63 | with key "-1", 'a' encrypts to a backtick, and decrypting that does not give 'a' back |
| CryptoTools.NegativeShiftOfA | project/src/components/CryptoTools.tsx:55-63 | shift -1 sends 'a' below the alphabet and decryption leaves that character alone |
| CryptoTools.LargeKeyBreaksRoundTrip | project/src/components/CryptoTools.tsx:55-63 | with key "52", 'b' encrypts to itself but decrypts to 'H' |
| CryptoTools.LargeShiftOfB | project/src/components/CryptoTools.tsx:55-63 | the written callbacks at shift 52 on 'b' |
| CryptoTools.ShiftChar | project/src/components/CryptoTools.tsx:53-56 | corrected per-letter shift, modulo 26 where the source uses JavaScript's remainder: non-letters unchanged; a letter stays a letter of its own case, moved `shift` places round its alphabet |
| CryptoTools.DecryptChar | project/src/components/CryptoTools.tsx:61-64 | corrected per-letter decryption: shifting the character by the negated shift |
| CryptoTools.Encrypt | project/src/components/CryptoTools.tsx:51-57 | corrected encryption: the text keeps its length and each character is shifted round its alphabet by the key's shift |
| CryptoTools.Decrypt | project/src/components/CryptoTools.tsx:59-65 | corrected decryption: the text keeps its length and each character is shifted back round its alphabet by the key's shift |
| CryptoTools.ShiftCharBack | project/src/components/CryptoTools.tsx:53-64 | shifting forward then back by the same amount restores any character |
| CryptoTools.ModShift | project/src/components/CryptoTools.tsx:55-63 | adding a multiple of 26 does not change a letter offset modulo 26 |
| CryptoTools.RoundTrip | project/src/components/CryptoTools.tsx:51-65 | decryption undoes encryption under the same key, for every text and key |
| CryptoTools.AsWrittenAgreesInRange | project/src/components/CryptoTools.tsx:51-65 | for shifts 1 to 26 the written cipher equals the corrected one, both ways |
| CryptoTools.AsWrittenRoundTripInRange | project/src/components/CryptoTools.tsx:51-65 | for shifts 1 to 26 the written cipher round-trips |
| CryptoTools.CaesarPanel.constructor | project/src/components/CryptoTools.tsx:8-13 | every input, key and result is empty |
| CryptoTools.CaesarPanel.PerformEncrypt | project/src/components/CryptoTools.tsx:67-71 | with text and key filled in the result is the encryption as written, JavaScript's remainder included; otherwise the old result stays; no input and no decryption field changes |
| CryptoTools.CaesarPanel.PerformDecrypt | project/src/components/CryptoTools.tsx:73-77 | with text and key filled in the result is the decryption as written, JavaScript's remainder included; otherwise the old result stays; no input and no encryption field changes |
| DashboardCards.DonorStatsOf | src/components/Dashboard/DashboardCards.tsx:21-36 | the total is the donor's donation count, the active and completed figures count its available and collected donations, together never more than the total, and the served figure adds up the quantities of the collected donations |
| DashboardCards.NgoStatsOf | src/components/Dashboard/DashboardCards.tsx:38-53 | available food counts every available donation in the marketplace; the pending, accepted and collected figures count the NGO's requests in each of those states, together never more than its requests; the served figure adds each collected request's donation quantity |
| DashboardCards.GetStats | src/components/Dashboard/DashboardCards.tsx:17-67 | no figures exactly without a user or profile; otherwise the donor, NGO or admin figures of the profile's role, computed over that user's own rows |
| DashboardCards.GetCards | src/components/Dashboard/DashboardCards.tsx:71-185 | four cards for every role, none without a profile; each card has its title and shows its figure from the statistics of the role, a figure the statistics lack shows as 0, and the donors' freshness card carries no figure |
| DashboardCards.DonorCards | src/components/Dashboard/DashboardCards.tsx:73-104 | no contract of its own; GetCards states each donor card's title and figure, and DonorServedIsOwnCollected the served card |
| DashboardCards.AdminPeopleFedIsRequestCount | src/components/Dashboard/DashboardCards.tsx:55-62 | an admin's "People Fed" card shows the number of requests |
| DashboardCards.DonorServedIsOwnCollected | src/components/Dashboard/DashboardCards.tsx:23-95 | a donor's "People Served" card adds the quantities of that donor's own collected donations only |
| DashboardCards.NgoCardsCountRequests | src/components/Dashboard/DashboardCards.tsx:38-134 | an NGO's first three cards count the available donations of the marketplace and its own pending and accepted requests; "Accepted Today" counts every accepted request |
| Domain.RoleNamed | src/types/index.ts:6 | a text is read as a role exactly when it is the name of one of the four roles |
| FoodCard.CanRequest | src/components/Food/FoodCard.tsx:27-28 | only an NGO can request, only an available donation it does not own, and any NGO can request any available donation when signed out of the auth user |
| FoodCard.CardActions | src/components/Food/FoodCard.tsx:166-215 | no buttons when actions are hidden; otherwise the request button exactly when the viewer can request, the details button exactly for an NGO that cannot, edit and delete exactly for the owner of an available donation, the admin icon exactly for an admin; never both request and edit |
| FoodCard.NeverOwnerAndRequester | src/components/Food/FoodCard.tsx:27-28 | no viewer may both request a donation and own it |
| FoodCard.FreshnessColor | src/components/Food/FoodCard.tsx:45-50 | green from 90, yellow from 80, orange from 70, red below, each band exactly |
| FoodCard.FreshnessColorMonotone | src/components/Food/FoodCard.tsx:45-50 | a higher score never gets a colour lower on the scale |
| FoodCard.TimeRemaining | src/components/Food/FoodCard.tsx:52-61 | expired exactly at no whole minute left; minutes below an hour; hours below a day, each the whole hours left; days otherwise, the whole days left |
| FoodCard.TimeRemainingMonotone | src/components/Food/FoodCard.tsx:52-61 | a later expiry never shows a shorter label |
| FoodCard.RequestFor | src/components/Food/FoodCard.tsx:63-82 | nothing without a user and a profile; otherwise a pending request by the user for the donation's whole quantity, signed with the profile name |
| FoodCard.RequestIsForSomeoneElsesFood | src/components/Food/FoodCard.tsx:27-82 | a request made through the button is pending and never by the donation's own donor |
| LegacyChatBot.LastMatch | src/components/Chat/ChatBot.tsx:98-103 | no contract of its own; LastMatchIsLatest, LastMatchNone and LastMatchStep state last match wins |
| LegacyChatBot.LastMatchIsLatest | src/components/Chat/ChatBot.tsx:98-103 | when rule i is the last rule with a keyword in the message, its category wins, whatever matched before it |
| LegacyChatBot.LastMatchNone | src/components/Chat/ChatBot.tsx:98-103 | with no matching rule the category stays `general` |
| LegacyChatBot.PairContained | src/components/Chat/ChatBot.tsx:99-109 | a two-keyword check matches exactly when one of its two keywords occurs |
| LegacyChatBot.TakeAll | src/components/Chat/ChatBot.tsx:98-103 | the prefix of all the rules is the rule list |
| LegacyChatBot.LastMatchStep | src/components/Chat/ChatBot.tsx:98-103 | one more check overrides the category exactly when it matches |
| LegacyChatBot.TopicTable | src/components/Chat/ChatBot.tsx:99-103 | the five category checks with their two keywords each, in order |
| LegacyChatBot.TopicStep | src/components/Chat/ChatBot.tsx:99-103 | the k-th category check extends the last-match result by one rule |
| LegacyChatBot.AnalyzeUserIntent | src/components/Chat/ChatBot.tsx:90-112 | the emergency flag is set exactly when an emergency keyword occurs; the category is the last matching rule's; the priority is the one the overrides settle on |
| LegacyChatBot.TopicOf | src/components/Chat/ChatBot.tsx:98-103 | the five reassignments leave the category of the last matching rule, `general` when none matches |
| LegacyChatBot.PriorityOf | src/components/Chat/ChatBot.tsx:106-109 | no contract of its own; PriorityOverrides and UrgentOnlyFromEmergency state the override order |
| LegacyChatBot.PriorityOverrides | src/components/Chat/ChatBot.tsx:106-109 | the later overrides win: low over high over urgent over medium |
| LegacyChatBot.EmergencyCanBeLowPriority | src/components/Chat/ChatBot.tsx:94-109 | "help, no rush" is an emergency with priority low |
| LegacyChatBot.UrgentOnlyFromEmergency | src/components/Chat/ChatBot.tsx:106-109 | priority urgent comes only with the emergency flag |
| LegacyChatBot.UserFigures | src/components/Chat/ChatBot.tsx:258-282 | donor figures exactly for a restaurant or society, NGO figures exactly for an NGO, none otherwise; a donor's total is its own row count, its active count its own available rows, its served figure the quantity summed over its own collected rows; an NGO's figures are the available count over all rows with no requests and nothing served |
| LegacyChatBot.ContextualReply | src/components/Chat/ChatBot.tsx:114-256 | no contract of its own; ReplyPrecedence states the order of the replies, and UserFigures the figures they carry |
| LegacyChatBot.ReplyPrecedence | src/components/Chat/ChatBot.tsx:114-256 | the emergency reply comes exactly for an emergency keyword; the donor and NGO replies carry that role's figures; how-it-works needs both words; the generic reply echoes the message and never shows its high-priority line |
| LegacyChatBot.Subject | src/components/Chat/ChatBot.tsx:290 | a message of at most 50 characters is its own subject; a longer one is cut to 50 and gets "..." |
| LegacyChatBot.NewTicket | src/components/Chat/ChatBot.tsx:284-303 | an open ticket with no messages, the message's subject, priority and category, and `anonymous` as owner without a user |
| LegacyChatBot.ChatWidget.constructor | src/components/Chat/ChatBot.tsx:47-52 | no messages, empty input, not typing, no ticket, chat mode, not connected |
| LegacyChatBot.ChatWidget.CreateSupportTicket | src/components/Chat/ChatBot.tsx:284-303 | the new ticket becomes current and the widget switches to ticket mode; the messages stay |
| LegacyChatBot.ChatWidget.HandOver | src/components/Chat/ChatBot.tsx:307-324 | a system notice from the bot carrying the current ticket's priority, or medium without a ticket |
| LegacyChatBot.ChatWidget.ConnectToLiveSupport | src/components/Chat/ChatBot.tsx:305-327 | the widget is connected and exactly one notice is appended |
| LegacyChatBot.ChatWidget.AgentJoins | src/components/Chat/ChatBot.tsx:329-340 | one greeting from support is appended, naming the ticket's subject or "your inquiry" |
| LegacyChatBot.ChatWidget.HandleSendMessage | src/components/Chat/ChatBot.tsx:343-373 | blank text changes nothing; otherwise the text is appended, the input cleared, the typing indicator shown, and a ticket opened exactly for an emergency with no ticket open, unless the text asks for a person |
| LegacyChatBot.ChatWidget.HandOverAfterDelay | src/components/Chat/ChatBot.tsx:359-362 | typing stops, the widget is connected and the notice appended |
| LegacyChatBot.ChatWidget.ReplyAfterDelay | src/components/Chat/ChatBot.tsx:375-387 | the canned reply is appended and typing stops |
| LegacyChatBot.Answer | src/components/Chat/ChatBot.tsx:376-383 | the reply is sent as support exactly when connected, and carries the contextual reply |
| LiveSupport.SelectAgent | src/components/Chat/LiveSupport.tsx:82-84 | with an id: an agent with that id, and none exactly when no agent has it; without one: none exactly for an empty roster, an online pick is the first online agent, with nobody online the first agent, and whenever some agent is online the pick is online |
| LiveSupport.TicketFor | src/components/Chat/LiveSupport.tsx:87-96 | an in-progress, medium-priority general ticket assigned to the agent, promising that agent's response time |
| LiveSupport.OnlineAgents | src/components/Chat/LiveSupport.tsx:269 | exactly the online agents, in roster order |
| LiveSupport.DefaultAgentIsSarah | src/components/Chat/LiveSupport.tsx:46-84 | with the fixed roster a connection without an id goes to Sarah Johnson |
| LiveSupport.TwoAgentsListed | src/components/Chat/LiveSupport.tsx:46-72 | with the fixed roster the first two agents are listed and Emma Rodriguez is not |
| LiveSupport.AgentById | src/components/Chat/LiveSupport.tsx:46-83 | with the fixed roster an id picks its agent even when busy, and an unknown id picks nobody |
| LiveSupport.SelectByIdOfThree | src/components/Chat/LiveSupport.tsx:83 | in a roster with ids "1", "2", "3", id "3" picks the third agent and "4" nobody |
| LiveSupport.LiveSupportPanel.constructor | src/components/Chat/LiveSupport.tsx:39-73 | the fixed roster, no ticket, not connecting, disconnected |
| LiveSupport.LiveSupportPanel.ConnectToAgent | src/components/Chat/LiveSupport.tsx:75-103 | with an agent chosen its ticket becomes current and the panel is connected; with none the ticket stays and the status is left at connecting; the spinner always stops |
| LiveSupport.LiveSupportPanel.RequestTicket | src/components/Chat/LiveSupport.tsx:233-237 | a general medium ticket session is put first in the provider and made current, then the panel connects to the default agent |
| LiveSupport.LiveSupportPanel.RequestEmergency | src/components/Chat/LiveSupport.tsx:249-253 | an urgent emergency session is put first in the provider and made current, then the panel connects to the default agent |
| PasswordTools.PassCount | project/src/components/PasswordTools.tsx:16-35 | the score never exceeds the number of checks |
| PasswordTools.Failures | project/src/components/PasswordTools.tsx:19-35 | no contract of its own; FailuresNameFailedChecks, FailuresStep and FeedbackInOrder state the advice of exactly the failed checks, in order |
| PasswordTools.FailuresNameFailedChecks | project/src/components/PasswordTools.tsx:19-35 | the feedback holds the advice of every failed check and only of failed checks |
| PasswordTools.ScoreAndFeedback | project/src/components/PasswordTools.tsx:19-35 | each check either adds one to the score or adds one piece of advice, never both |
| PasswordTools.CheckMonotone | project/src/components/PasswordTools.tsx:19-35 | a check a password passes is passed by any extension of it |
| PasswordTools.PassCountMonotone | project/src/components/PasswordTools.tsx:16-35 | appending characters never lowers the score |
| PasswordTools.StrengthOf | project/src/components/PasswordTools.tsx:37 | weak exactly up to 2, medium exactly for 3 and 4, strong exactly from 5 |
| PasswordTools.ApplyCheck | project/src/components/PasswordTools.tsx:19-35 | a pass adds one to the score; a failure pushes that check's advice |
| PasswordTools.AnalyzePassword | project/src/components/PasswordTools.tsx:15-42 | the score is the number of checks passed, at most 6; the feedback is the advice of the failed checks in check order, 6 minus the score of them; the strength is the score's band |
| PasswordTools.ScoreInOrder | project/src/components/PasswordTools.tsx:19-35 | the six checks applied in source order give the table's score |
| PasswordTools.FeedbackInOrder | project/src/components/PasswordTools.tsx:19-35 | the six checks applied in source order give the table's feedback |
| PasswordTools.SixScores | project/src/components/PasswordTools.tsx:19-35 | over six checks the score adds up check by check |
| PasswordTools.SixAdvices | project/src/components/PasswordTools.tsx:19-35 | over six checks the feedback collects advice check by check, in order |
| PasswordTools.FailuresStep | project/src/components/PasswordTools.tsx:19-35 | one more check appends its advice exactly when it fails |
| PasswordTools.PrefixStep | project/src/components/PasswordTools.tsx:19-35 | one more check adds its pass to the score and its advice, if failed, to the feedback |
| PasswordTools.StrengthMonotone | project/src/components/PasswordTools.tsx:15-42 | appending characters never weakens the verdict |
| PasswordTools.Charset | project/src/components/PasswordTools.tsx:45-49 | the charset's size is the sum of the selected classes' sizes, and it is empty exactly when no class is selected |
| PasswordTools.GeneratorSymbolsAreSpecial | project/src/components/PasswordTools.tsx:34-49 | every symbol the generator may use counts as a special character for the analysis |
| PasswordTools.Index | project/src/components/PasswordTools.tsx:53 | a draw in [0, 1) picks a position inside a non-empty charset, and 0 for an empty one |
| PasswordTools.CharAtOrEmpty | project/src/components/PasswordTools.tsx:53 | the character at a position inside the charset, and the empty string outside it |
| PasswordTools.Generate | project/src/components/PasswordTools.tsx:51-54 | with a non-empty charset, exactly `length` characters, the i-th picked by the i-th draw; every character comes from the charset; with an empty charset the empty password |
| PasswordTools.GeneratorPanel.constructor | project/src/components/PasswordTools.tsx:7-12 | length 16, every class selected, no password yet |
| PasswordTools.GeneratorPanel.GeneratePassword | project/src/components/PasswordTools.tsx:44-56 | the stored password is the one drawn from the selected classes' charset, and the options are untouched |
| PasswordTools.GeneratorPanel.ChangeOptions | project/src/components/PasswordTools.tsx:64-66 | after the options change, the stored password is regenerated from the new options' charset with the new length |
| PasswordTools.JoinSelected | project/src/components/PasswordTools.tsx:45-49 | the charset is the selected classes appended in the order upper, lower, digits, symbols |
| RecentActivity.NgoEntry | src/components/Dashboard/RecentActivity.tsx:36-46 | a request whose donation is not in the list is titled with "Food" |
| RecentActivity.DonorEntries | src/components/Dashboard/RecentActivity.tsx:19-27 | one entry per donation, in order |
| RecentActivity.NgoEntries | src/components/Dashboard/RecentActivity.tsx:36-47 | one entry per request, in order |
| RecentActivity.AdminDonationEntries | src/components/Dashboard/RecentActivity.tsx:53-61 | one entry per donation, in order |
| RecentActivity.AdminRequestEntries | src/components/Dashboard/RecentActivity.tsx:64-72 | one entry per request, in order |
| RecentActivity.OwnDonations | src/components/Dashboard/RecentActivity.tsx:16-17 | exactly the donor's own donations, taken from the list |
| RecentActivity.OwnRequests | src/components/Dashboard/RecentActivity.tsx:33-34 | exactly the NGO's own requests, taken from the list |
| RecentActivity.DonorFeed | src/components/Dashboard/RecentActivity.tsx:15-29 | min(5, own) entries, the i-th made from the donor's i-th own donation, each one of the donor's donations |
| RecentActivity.NgoFeed | src/components/Dashboard/RecentActivity.tsx:32-49 | min(5, own) entries, the i-th made from the NGO's i-th own request, each one of the NGO's requests |
| RecentActivity.AdminFeed | src/components/Dashboard/RecentActivity.tsx:51-73 | the entries of the first three donations, in order, then those of the first two requests |
| RecentActivity.Entries | src/components/Dashboard/RecentActivity.tsx:9-74 | nothing without a user or profile; at most five entries; a donor gets its feed, an NGO its feed, an admin the admin feed |
| RecentActivity.Insert | src/components/Dashboard/RecentActivity.tsx:76 | the list gains exactly the one entry |
| RecentActivity.InsertKeepsOrder | src/components/Dashboard/RecentActivity.tsx:76 | inserting into a newest-first list keeps it newest first |
| RecentActivity.SortNewestFirst | src/components/Dashboard/RecentActivity.tsx:76 | the result is newest first and a permutation of the input |
| RecentActivity.GetRecentActivity | src/components/Dashboard/RecentActivity.tsx:9-77 | nothing without a user or profile; otherwise newest first, six entries or all when fewer, drawn from the collected entries, and no entry left out is newer than one shown |
| RecentActivity.CollectEntries | src/components/Dashboard/RecentActivity.tsx:12-74 | the pushes collect exactly the role's entries |
| RecentActivity.TopOfSorted | src/components/Dashboard/RecentActivity.tsx:76 | a prefix of a newest-first list is part of it and nothing after it is newer |
| RecentActivity.FormatTimeAgo | src/components/Dashboard/RecentActivity.tsx:97-109 | minutes exactly under an hour, hours exactly under a day with the whole hours elapsed, otherwise the whole days elapsed |
| RecentActivity.StatusTone | src/components/Dashboard/RecentActivity.tsx:81-95 | requests are never grey; grey exactly for reserved and cancelled donations; green exactly for collected donations and accepted or collected requests |
| UseChatBot.MapUser | src/hooks/useChatBot.ts:50-69 | no user maps to none; the id and email carry over; a role text naming one of the four roles is kept, and any other role becomes `restaurant` |
| UseChatBot.ToChatDonation | src/hooks/useChatBot.ts:80-110 | the id, status and quantity carry over, and the donor id becomes the owner |
| UseChatBot.MapDonations | src/hooks/useChatBot.ts:71-112 | one converted row per listable row, and no cancelled row survives |
| UseChatBot.MapDonationsKeepsListable | src/hooks/useChatBot.ts:71-112 | every row that is not cancelled appears, converted, in the result |
| UseChatBot.MapDonationsAppend | src/hooks/useChatBot.ts:71-112 | mapping a concatenation is concatenating the mappings, so the rows keep their relative order |
| UseChatBot.MapDonationsCons | src/hooks/useChatBot.ts:71-112 | the first row is converted or dropped on its own and the rest is mapped after it |
| UseChatBot.UserStats | src/hooks/useChatBot.ts:128-154 | no figures without a user or for an admin; donor figures count the donor's own rows and its available rows, at most as many active as total, and add up its collected quantities; an NGO gets the available count and zeros |
| UseChatBot.DonorStats | src/hooks/useChatBot.ts:134-142 | the total counts the donor's rows, the active figure its available rows, and the served figure adds up the quantities of its collected rows |
| UseChatBot.PatchFor | src/hooks/useChatBot.ts:175-179 | the context update leaves the current page as it was |
| UseChatBot.ContextFor | src/hooks/useChatBot.ts:115-122 | no contract of its own; Initialize stores it, and MapUser, MapDonations and UserStats state its parts |
| UseChatBot.UserMessage | src/hooks/useChatBot.ts:165-170 | the user's message comes from the user and carries no metadata |
| UseChatBot.BotMessage | src/hooks/useChatBot.ts:185-194 | the answer comes from support exactly when it asks for a human, and carries the answer's priority and flag |
| UseChatBot.ExchangeIdsDiffer | src/hooks/useChatBot.ts:166-186 | the two messages of one exchange never share an id |
| UseChatBot.OpenSession | src/hooks/useChatBot.ts:199-209 | an active session holding the exchange, of emergency type exactly when the answer's priority is urgent |
| UseChatBot.NextSession | src/hooks/useChatBot.ts:199-220 | no contract of its own; SendMessage and Record state the session after an exchange |
| UseChatBot.ExchangeEscalatesOnUrgentWords | src/hooks/useChatBot.ts:182-209 | the answer goes out from support, and a first exchange opens an emergency session, exactly when the normalised message holds an urgent keyword |
| UseChatBot.Escalate | src/hooks/useChatBot.ts:229-239 | the escalated session is a support chat with status escalated, stamped now, with its id, user, messages and creation time kept |
| UseChatBot.Resolve | src/hooks/useChatBot.ts:258-267 | the ended session has status resolved, stamped now, with its id, user, type, messages and creation time kept |
| UseChatBot.EscalationIgnoresStatus | src/hooks/useChatBot.ts:228-240 | escalating a session that endSession resolved gives the same session as escalating it while active: the status is never checked |
| UseChatBot.ChatBotHook.constructor | src/hooks/useChatBot.ts:44-47 | no assistant, no session, not processing, empty history |
| UseChatBot.ChatBotHook.Initialize | src/hooks/useChatBot.ts:115-126 | a new assistant holding the context built from the user and the rows; history and session untouched |
| UseChatBot.ChatBotHook.SendMessage | src/hooks/useChatBot.ts:156-225 | fails and changes nothing without an assistant; otherwise the context is refreshed, the answer is the one for that context, the exchange is appended to the history, and a session is opened or extended with it |
| UseChatBot.ChatBotHook.Record | src/hooks/useChatBot.ts:172-220 | both messages join the history, the session is stored and processing ends |
| UseChatBot.ChatBotHook.EscalateToHuman | src/hooks/useChatBot.ts:228-255 | any current session becomes its escalation, and one notice is appended to the history whether or not there is a session |
| UseChatBot.ChatBotHook.EndSession | src/hooks/useChatBot.ts:257-269 | any current session becomes its resolution; nothing else changes |
| UseChatBot.ChatBotHook.ClearHistory | src/hooks/useChatBot.ts:271-275 | the history is empty and there is no session |
| UseChatBot.ChatBotHook.ContextualSuggestions | src/hooks/useChatBot.ts:277-279 | none before the assistant exists; otherwise four for a visitor and five for a signed-in user |
| SecurityAudit.RoundRatio | project/src/components/SecurityAudit.tsx:80-86 | no contract of its own; RoundRatioNearest, RoundRatioBetween and RoundRatioMonotone state Math.round of a non-negative ratio |
| SecurityAudit.RoundRatioNearest | project/src/components/SecurityAudit.tsx:80-86 | the rounded ratio is the integer nearest to the ratio, halves rounded up |
| SecurityAudit.RoundRatioBetween | project/src/components/SecurityAudit.tsx:80-86 | rounding keeps a ratio inside integer bounds on it |
| SecurityAudit.RoundRatioMonotone | project/src/components/SecurityAudit.tsx:80-86 | a larger numerator never rounds lower |
| SecurityAudit.Passed | project/src/components/SecurityAudit.tsx:79 | the passes never exceed the checks |
| SecurityAudit.CategoryScore | project/src/components/SecurityAudit.tsx:78-81 | no score exactly for a category without checks; otherwise a score from 0 to 100 |
| SecurityAudit.CategoryScoreNearest | project/src/components/SecurityAudit.tsx:78-81 | the score is the percentage of passing checks to the nearest integer |
| SecurityAudit.CategoryScoreExtremes | project/src/components/SecurityAudit.tsx:78-81 | every check passing scores 100 and none passing scores 0 |
| SecurityAudit.PassedBounds | project/src/components/SecurityAudit.tsx:79 | one failing check leaves fewer passes than checks; one passing check leaves at least one pass |
| SecurityAudit.RoundBelowHundred | project/src/components/SecurityAudit.tsx:80 | below 200 checks, one failure keeps the score at 99 or less |
| SecurityAudit.RoundAboveZero | project/src/components/SecurityAudit.tsx:80 | up to 200 checks, one pass keeps the score at 1 or more |
| SecurityAudit.HundredMeansAllPass | project/src/components/SecurityAudit.tsx:78-81 | with fewer than 200 checks, 100 means every check passed |
| SecurityAudit.ZeroMeansNonePass | project/src/components/SecurityAudit.tsx:78-81 | with at most 200 checks, 0 means no check passed |
| SecurityAudit.OneFailureCanRoundToHundred | project/src/components/SecurityAudit.tsx:78-81 | with 200 checks or more, a single failure still shows 100 |
| SecurityAudit.WarningCountsAsFail | project/src/components/SecurityAudit.tsx:79 | turning a warning into a failure leaves the score unchanged: only passes count |
| SecurityAudit.PassingMoreScoresNoLess | project/src/components/SecurityAudit.tsx:78-81 | making one more check pass never lowers the score |
| SecurityAudit.Assign | project/src/components/SecurityAudit.tsx:65-69 | the assigned entry is present; every other entry was there before; at most one entry is added |
| SecurityAudit.AssignKeys | project/src/components/SecurityAudit.tsx:65 | assigning adds its key and keeps every other key |
| SecurityAudit.AssignNewKey | project/src/components/SecurityAudit.tsx:65 | an entry with a new key goes after every existing one |
| SecurityAudit.AssignDistinct | project/src/components/SecurityAudit.tsx:65 | assigning never duplicates a key |
| SecurityAudit.Results | project/src/components/SecurityAudit.tsx:64-71 | the results object has no key twice and no more entries than categories |
| SecurityAudit.ResultsKeys | project/src/components/SecurityAudit.tsx:64-71 | the results object's keys are exactly the category ids |
| SecurityAudit.ResultsFromCategories | project/src/components/SecurityAudit.tsx:64-71 | every entry is some category, with its checks unchanged and its score |
| SecurityAudit.ResultOf | project/src/components/SecurityAudit.tsx:65-69 | no contract of its own; EachResult and ResultsFromCategories state one scored entry per category |
| SecurityAudit.EachResult | project/src/components/SecurityAudit.tsx:65-69 | one entry per category, in table order, each the category scored |
| SecurityAudit.ResultsOfDistinct | project/src/components/SecurityAudit.tsx:64-71 | categories with distinct ids give one entry each, in table order |
| SecurityAudit.ScoresOfDistinct | project/src/components/SecurityAudit.tsx:64-71 | with distinct ids the k-th entry carries the k-th category's score |
| SecurityAudit.Reduce | project/src/components/SecurityAudit.tsx:64-71 | the reduce loop builds the results object of the categories |
| SecurityAudit.OverallScore | project/src/components/SecurityAudit.tsx:83-87 | 0 with no results; no number exactly when some category has none; otherwise a number |
| SecurityAudit.OverallIsRoundedMean | project/src/components/SecurityAudit.tsx:83-87 | the overall score is the mean category score to the nearest integer |
| SecurityAudit.ScoreSumBetween | project/src/components/SecurityAudit.tsx:86 | scores between lo and hi sum to between n·lo and n·hi |
| SecurityAudit.OverallBetween | project/src/components/SecurityAudit.tsx:83-87 | the overall score lies between the lowest and highest category score |
| SecurityAudit.OverallOfRunIsPercentage | project/src/components/SecurityAudit.tsx:64-87 | after a run over categories that all have checks, the overall score is a number from 0 to 100 |
| SecurityAudit.PassedOfFive | project/src/components/SecurityAudit.tsx:79 | the passes of five checks add up check by check |
| SecurityAudit.FiveCheckScore | project/src/components/SecurityAudit.tsx:78-81 | three passes of five score 60, four score 80 |
| SecurityAudit.PasswordsScore | project/src/components/SecurityAudit.tsx:14-81 | the password category scores 60 |
| SecurityAudit.AccessScore | project/src/components/SecurityAudit.tsx:26-81 | the access-control category scores 60 |
| SecurityAudit.NetworkScore | project/src/components/SecurityAudit.tsx:38-81 | the network category scores 80 |
| SecurityAudit.DataScore | project/src/components/SecurityAudit.tsx:50-81 | the data-protection category scores 60 |
| SecurityAudit.OverallOfFour | project/src/components/SecurityAudit.tsx:83-87 | four scored entries give the rounded mean of their four scores |
| SecurityAudit.FixedIdsDistinct | project/src/components/SecurityAudit.tsx:8-57 | the four category ids differ |
| SecurityAudit.TableScores | project/src/components/SecurityAudit.tsx:64-71 | four distinct categories with the table's checks score 60, 60, 80 and 60 in order |
| SecurityAudit.FixedResults | project/src/components/SecurityAudit.tsx:8-71 | the audit of the fixed table scores 60, 60, 80 and 60 in table order |
| SecurityAudit.OverallOfFixedScores | project/src/components/SecurityAudit.tsx:83-87 | scores 60, 60, 80 and 60 give an overall 65 |
| SecurityAudit.FixedOverallScore | project/src/components/SecurityAudit.tsx:8-87 | the fixed table's overall score is 65 |
| SecurityAudit.AuditPanel.constructor | project/src/components/SecurityAudit.tsx:5-8 | the fixed table, no results, not scanning |
| SecurityAudit.AuditPanel.RunSecurityAudit | project/src/components/SecurityAudit.tsx:59-60 | the scan starts and the old results stay until the timer fires |
| SecurityAudit.AuditPanel.CompleteAudit | project/src/components/SecurityAudit.tsx:63-75 | the results object of the table replaces the old one and the scan ends |
| Common.Lower | src/utils/chatBotResponses.ts:36 | lower-casing keeps the length and lowers each letter on its own |
| Common.LowerIdempotent | src/components/Chat/ChatBot.tsx:91 | lower-casing twice is lower-casing once |
| Common.TrimStartCutsBlank | src/components/Chat/ChatBot.tsx:344 | the text cut from the front is all whitespace |
| Common.TrimEndCutsBlank | src/components/Chat/ChatBot.tsx:344 | the text cut from the back is all whitespace |
| Common.Trim | src/components/Chat/ChatBot.tsx:344 | the trimmed text is a contiguous piece of the text with only whitespace before and after it, has no whitespace at either end, and is empty exactly when the text is blank |
| Common.ParseInt | src/components/Food/AddFoodForm.tsx:90 | NaN exactly when no digit follows the leading whitespace and optional sign |
| Common.ParseDigits | project/src/components/CryptoTools.tsx:52 | a string of digits parses to its value |
| Common.ParseDecimal | project/src/components/CryptoTools.tsx:52 | parsing a number's decimal text gives the number back |
| Common.Decimal | src/hooks/useChatBot.ts:166 | a non-empty string of digits with no leading zero |
| Common.DecimalValue | src/hooks/useChatBot.ts:166 | a numeral's digits evaluate to the number |
| Common.DecimalInjective | src/hooks/useChatBot.ts:166-186 | different numbers have different numerals, so ids drawn from different clock readings differ |
| Common.Filter | src/components/Dashboard/DashboardCards.tsx:23 | the kept elements all pass the test, and every element that passes is kept |
| Common.Take | src/components/Dashboard/RecentActivity.tsx:18 | the first n elements, or all when fewer; also `substring(0, 50)` on a ticket subject (src/components/Chat/ChatBot.tsx:290) |
| Common.Find | src/components/Chat/LiveSupport.tsx:83-84 | nothing exactly when no element passes; otherwise the first element that passes |

## Left out

- Browser storage: `localStorage` is not modelled.
  - The chat history is not saved or loaded (src/hooks/useChatBot.ts:281-299), and clearHistory's removal of the stored history is not modelled.
  - The settings panel records only the last settings written, in its `stored` field. It does not read them back on mount. Its own buttons that clear the stored history and preferences, and the settings export, are not modelled.
- Backend: the awaited Supabase calls are not modelled. Each operation takes the row the backend returns, or the table a query runs over, as a parameter. The refreshes also take whether the query succeeded: on failure the source logs the error and keeps the old list, and so does the model. The loading flags they set and clear are not modelled.
  - AppContext.AppState.AddDonation, UpdateDonation, RemoveDonationById, AddRequest, UpdateRequest, MarkAsRead and MarkAllAsRead model only a successful call. A failed call throws before `setState` (src/context/AppContext.tsx:145-162, 198-210, 227-236), which leaves the state as if the method had not been called.
  - `d.quantity || 0` in getAdminStats has no separate case, because a donation's quantity is always a number here.
  - The realtime subscriptions (src/context/AppContext.tsx:290-342) are not modelled.
  - The initial-load effect (src/context/AppContext.tsx:280-287) is not modelled, because it only calls the refresh methods that are modelled.
- Hashing: generateHash (project/src/components/CryptoTools.tsx:16-49) is not modelled, because it calls the platform's SHA digests. Clipboard writes are not modelled either.
- Network tools: NetworkTools is not modelled, because its output is random draws and nothing else.
- Clock and randomness:
  - `Date.now()` ids and timestamps are parameters (whole minutes where times are compared).
  - `Math.random()` draws are parameters: the freshness base, the password generator's indices and the reply delay.
- Timers: `setTimeout` and `await` delays are not modelled.
  - A timer's effect is a separate method that the caller invokes: the saved and success banners, the ticket auto-assignment, and the typing simulation.
  - The two-second wait in LiveSupport's connectToAgent happens at once.
- Locale and time formatting:
  - the month keys of getAdminStats (`monthlyDonations`, src/context/AppContext.tsx:251-256);
  - timestamp rendering.
- Floating point:
  - the dashboard's average freshness (src/components/Dashboard/DashboardCards.tsx:35 and 61) is not modelled.
  - The security audit's scores are exact rationals, rounded to the nearest integer. The model therefore does not reproduce the float rounding of `(passed / total) * 100`.
  - A category with no checks, whose score is NaN in the source, scores `None`.
- Text handling:
  - Strings are sequences of Unicode code points, while JavaScript's `length` and `substring` count UTF-16 code units. A character outside the Basic Multilingual Plane counts once here and twice in the source. So PasswordTools.AnalyzePassword's length checks (8 and 12 characters) and the 50-character cut of LegacyChatBot.Subject and Common.Take differ from the source on such text, and the model never splits a surrogate pair where `substring(0, 50)` can.
  - `toLowerCase` and `trim` act on ASCII letters and spaces only.
  - `parseInt` reads an optional sign and decimal digits; hex prefixes and other radix behaviour are not modelled.
  - A quantity that does not parse is `None`, where the source holds NaN.
- Chat replies: the long reply texts of the chat assistants are datatypes naming the reply and the figures it quotes, not the prose itself.
- The legacy ChatBot widget (src/components/Chat/ChatBot.tsx):
  - its welcome message when first opened (lines 64-88) is not modelled;
  - handleQuickAction (lines 390-407) is not modelled, because it only fills the input and sends it through handleSendMessage, which is modelled;
  - the open and minimised flags are not modelled, because they only affect layout.
  - Its timers read state from the render that set them; the model's timer methods read the state as it is when they run. The reply timer of handleSendMessage (lines 375-380) picks the sender from `isConnectedToSupport` as it was at sending, where LegacyChatBot.ChatWidget.ReplyAfterDelay reads the flag when it fires. The hand-over notice and the agent's greeting of connectToLiveSupport (lines 314-315 and 332) read `currentTicket` from their closure, where LegacyChatBot.ChatWidget.HandOver and LegacyChatBot.ChatWidget.AgentJoins read the current ticket.
- ChatSupport's mock tickets: the effect that loads them (src/components/Chat/ChatSupport.tsx:108-135) is not modelled, because it is fixture data.
- Presentation:
  - colour and icon maps (getStatusColor in FoodCard, getStatusIcon and getPriorityColor in ChatSupport and LiveSupport, the password strength colours) are not modelled;
  - JSX layout, empty-grid texts and the profile form are not modelled.
- FoodCard's delete button: handleDelete (src/components/Food/FoodCard.tsx:84-88) is not modelled. It asks for confirmation in a browser dialog and then calls removeDonation, which is modelled as AppContext.AppState.RemoveDonationById.
- RecentActivity.SortNewestFirst: states that the result is newest first and a permutation, not that it is stable. The comparator `b.time - a.time` ties entries with equal times, and `Array.prototype.sort` keeps tied entries in their push order, as ECMAScript 2019 and later require; Insert places each entry after every entry at least as new, so the model keeps that order as well, but no clause states it.
- ChatBotSettings.SettingsPanel.HandleToggle: toggles the five boolean settings by name; other keys are not modelled.
- Typed roles: switches on a typed role have no model of their `default` branch, because the type rules it out.
- ChatBotResponses.DynamicChatBot.ContextualSuggestions: states only how many suggestions each kind of user gets, not their texts.
- UseChatBot.ChatBotHook.ContextualSuggestions: states only how many suggestions each kind of user gets, not their texts.

## Findings

| source | as written | input that shows it | evidently intended | confidence | as-written member | corrected member |
|---|---|---|---|---|---|---|
| src/context/AppContext.tsx:174-190 | For a restaurant or society with no donations, the filter is skipped. The query then runs without a filter and returns every request in the table. | a restaurant with no donations, and a table holding a request on another donor's donation | a donor sees only requests on its own donations, so none when it has none | not executed | AppContext.DonorWithoutDonationsSeesAll | AppContext.DonorSeesOwnRequestsOnly |
| project/src/components/CryptoTools.tsx:51-64 | The shift is `parseInt(key)`, which may be negative or 26 or more. JavaScript's `%` keeps the sign of the dividend. | key "-1": 'a' encrypts to '`', which decrypts to '`'. Key "52": 'b' encrypts to 'b', which decrypts to 'H'. | every letter stays in its alphabet, and decryption undoes encryption for every key | not executed | CryptoTools.NegativeKeyLeavesAlphabet | CryptoTools.RoundTrip |
| src/components/Food/AddFoodForm.tsx:66-70 | `Math.max(70, base + bonus)` has no upper cap, and the random base can be as high as 99. | base 99 with a two-hour expiry scores 103 | a freshness percentage within 70..100 | not executed | AddFoodForm.FreshnessOverHundred | AddFoodForm.Freshness |

=== FILE: add_food_form.dfy ===
/**
 * The donation form (src/components/Food/AddFoodForm.tsx): the simulated
 * freshness score, the donation row handleSubmit hands to `addDonation`,
 * and the form reset after a successful add.
 *
 * The random base score, the clock (in minutes) and whether `addDonation`
 * succeeded are parameters. The expiry field is a select whose options are
 * the digit strings 2, 4, 8, 12 and 24, so it is held as the number it parses to.
 */
module AddFoodForm {
  import opened Common
  import opened Domain

  /** `Math.max(0, (hours - 4) * -2)`: a bonus for shelf lives under four hours, never a deduction. */
  function ExpiryPenalty(hours: int): (p: int)
    ensures p >= 0
    ensures hours >= 4 ==> p == 0
    ensures hours < 4 ==> p == 2 * (4 - hours)
  {
    var raw := (hours - 4) * -2;
    if raw > 0 then raw else 0
  }

  /** calculateFreshness as written: `Math.max(70, base + penalty)`, with no upper cap. */
  function FreshnessAsWritten(base: int, hours: int): (r: int)
    ensures r >= 70
    ensures r >= base
    ensures base >= 70 && hours >= 4 ==> r == base
    ensures base >= 66 && hours == 2 ==> r == base + 4
  {
    var s := base + ExpiryPenalty(hours);
    if s > 70 then s else 70
  }

  /**
   * The base score is `Math.floor(Math.random() * 20) + 80`, from 80 to 99;
   * a two-hour shelf life then pushes a displayed percentage past 100.
   */
  lemma FreshnessOverHundred()
    ensures FreshnessAsWritten(99, 2) == 103
    ensures FreshnessAsWritten(97, 2) > 100
  {
  }

  /** The freshness score, a percentage: the written formula capped at 100. */
  function Freshness(base: int, hours: int): (r: int)
    ensures 70 <= r <= 100
    ensures r <= FreshnessAsWritten(base, hours)
    ensures FreshnessAsWritten(base, hours) <= 100 ==> r == FreshnessAsWritten(base, hours)
  {
    var s := FreshnessAsWritten(base, hours);
    if s < 100 then s else 100
  }

  /** For every base the random draw can give, the capped score keeps the formula's meaning. */
  lemma FreshnessOfDraw(base: int, hours: int)
    requires 80 <= base <= 99
    ensures hours >= 4 ==> Freshness(base, hours) == base
    ensures hours == 2 ==> Freshness(base, hours) == if base <= 96 then base + 4 else 100
    ensures Freshness(base, hours) >= 80
  {
  }

  /** The form's fields. */
  datatype FormData = FormData(
    foodName: string,
    foodType: FoodType,
    quantity: string,
    unit: string,
    description: string,
    expiryHours: int,
    imageUrl: string,
    pickupInstructions: string,
    dietaryInfo: seq<string>,
    allergenInfo: seq<string>)

  /** The initial form, and the one a successful add resets to. */
  const EmptyForm := FormData("", Meals, "", "servings", "", 4, "", "", [], [])

  /** The donation row handleSubmit passes to addDonation; `quantity` is None where parseInt gives NaN. */
  datatype DonationDraft = DonationDraft(
    donorId: string,
    userId: string,
    foodName: string,
    foodType: FoodType,
    quantity: Option<int>,
    unit: string,
    description: string,
    imageUrl: Option<string>,
    freshnessScore: int,
    expiryTime: int,
    status: DonationStatus,
    pickupInstructions: Option<string>,
    dietaryInfo: Option<seq<string>>,
    allergenInfo: Option<seq<string>>)

  /** `value || undefined` for a text field, `list.length > 0 ? list : undefined` for a list. */
  function NonEmpty(s: string): (r: Option<string>)
    ensures r.None? <==> s == ""
    ensures OrString(r, "") == s
  {
    if s == "" then None else Some(s)
  }

  function NonEmptyList(s: seq<string>): (r: Option<seq<string>>)
    ensures r.None? <==> s == []
    ensures (if r.Some? then r.value else []) == s
  {
    if |s| == 0 then None else Some(s)
  }

  /**
   * The row built from the form for the user: an available donation owned
   * by the user under both owner columns, expiring `expiryHours` after
   * `now`; every text and list field of the form can be read back from it.
   * The freshness is calculateFreshness as written, so it can exceed 100.
   */
  function DraftOf(userId: string, form: FormData, base: int, now: int): (d: DonationDraft)
    ensures d.status == Available && d.donorId == userId && d.userId == userId
    ensures d.foodName == form.foodName && d.foodType == form.foodType && d.unit == form.unit
    ensures d.description == form.description && d.quantity == ParseInt(form.quantity)
    ensures d.imageUrl.None? <==> form.imageUrl == ""
    ensures d.pickupInstructions.None? <==> form.pickupInstructions == ""
    ensures d.dietaryInfo.None? <==> form.dietaryInfo == []
    ensures d.allergenInfo.None? <==> form.allergenInfo == []
    ensures OrString(d.imageUrl, "") == form.imageUrl
    ensures OrString(d.pickupInstructions, "") == form.pickupInstructions
    ensures d.freshnessScore >= 70 && d.freshnessScore >= base
    ensures base >= 70 && form.expiryHours >= 4 ==> d.freshnessScore == base
    ensures d.freshnessScore <= 100 ==> d.freshnessScore == Freshness(base, form.expiryHours)
    ensures d.expiryTime - now == 60 * form.expiryHours
  {
    DonationDraft(userId, userId, form.foodName, form.foodType, ParseInt(form.quantity), form.unit,
      form.description, NonEmpty(form.imageUrl), FreshnessAsWritten(base, form.expiryHours),
      now + 60 * form.expiryHours, Available, NonEmpty(form.pickupInstructions),
      NonEmptyList(form.dietaryInfo), NonEmptyList(form.allergenInfo))
  }

  class AddFoodFormState {
    var form: FormData
    var isSubmitting: bool
    var showSuccess: bool

    constructor()
      ensures form == EmptyForm && !isSubmitting && !showSuccess
    {
      form := EmptyForm;
      isSubmitting := false;
      showSuccess := false;
    }

    /**
     * handleSubmit: without a user or a profile nothing happens and nothing
     * is sent; otherwise the row built from the form is sent, and only when
     * `addDonation` succeeds is the success banner shown and the form reset.
     */
    method HandleSubmit(user: Option<AuthUser>, profile: Option<Profile>, base: int, now: int, added: bool)
      returns (sent: Option<DonationDraft>)
      modifies this
      ensures user.None? || profile.None? ==>
        sent.None? && form == old(form) && isSubmitting == old(isSubmitting) && showSuccess == old(showSuccess)
      ensures user.Some? && profile.Some? ==>
        sent == Some(DraftOf(user.value.id, old(form), base, now)) && !isSubmitting
      ensures user.Some? && profile.Some? && added ==> form == EmptyForm && showSuccess
      ensures user.Some? && profile.Some? && !added ==> form == old(form) && showSuccess == old(showSuccess)
    {
      if user.None? || profile.None? {
        return None;
      }
      var draft := DraftOf(user.value.id, form, base, now);
      isSubmitting := true;
      sent := Some(draft);
      if added {
        showSuccess := true;
        form := EmptyForm;
      }
      isSubmitting := false;
    }

    /** The three-second timer after a successful add hides the banner. */
    method HideSuccess()
      modifies this
      ensures !showSuccess && form == old(form) && isSubmitting == old(isSubmitting)
    {
      showSuccess := false;
    }
  }
}

=== FILE: app.dfy ===
/**
 * The application shell (src/App.tsx): which screen the current view
 * shows, and the food grid's per-view filter, title and item label.
 *
 * The current view is the text the sidebar and the quick actions set.
 */
module App {
  import opened Common
  import opened Domain
  import FoodCard

  /** The views the food grid serves. */
  predicate GridView(view: string) {
    view == "my-donations" || view == "available-food" || view == "all-donations"
  }

  /** The views renderContent has a case for. */
  predicate KnownView(view: string) {
    view == "dashboard" || view == "add-food" || GridView(view) || view == "profile"
  }

  /** available-food: `d.status === 'available' && d.donor_id !== user?.id`. */
  predicate AvailableToOthers(user: Option<AuthUser>, d: Donation) {
    d.status == Available && !FoodCard.IsOwner(user, d)
  }

  /**
   * getFilteredDonations: the viewer's own donations, the available
   * donations of others, every donation, or nothing for any other view;
   * always in list order.
   */
  function FilteredDonations(view: string, user: Option<AuthUser>, ds: seq<Donation>): (r: seq<Donation>)
    ensures IsSubsequence(r, ds)
    ensures view == "my-donations" ==>
      (forall i :: 0 <= i < |r| ==> FoodCard.IsOwner(user, r[i]))
      && (forall i :: 0 <= i < |ds| && FoodCard.IsOwner(user, ds[i]) ==> ds[i] in r)
    ensures view == "available-food" ==>
      (forall i :: 0 <= i < |r| ==> AvailableToOthers(user, r[i]))
      && (forall i :: 0 <= i < |ds| && AvailableToOthers(user, ds[i]) ==> ds[i] in r)
    ensures view == "all-donations" ==> r == ds
    ensures !GridView(view) ==> r == []
  {
    if view == "my-donations" then
      FilterIsSubsequence(ds, (d: Donation) => FoodCard.IsOwner(user, d));
      Filter(ds, (d: Donation) => FoodCard.IsOwner(user, d))
    else if view == "available-food" then
      FilterIsSubsequence(ds, (d: Donation) => AvailableToOthers(user, d));
      Filter(ds, (d: Donation) => AvailableToOthers(user, d))
    else if view == "all-donations" then
      FilterAll(ds, (d: Donation) => true);
      FilterIsSubsequence(ds, (d: Donation) => true);
      ds
    else
      []
  }

  /** No donation is listed both among the viewer's own and among the food available to them. */
  lemma OwnAndAvailableDisjoint(user: Option<AuthUser>, ds: seq<Donation>)
    ensures forall d :: d in FilteredDonations("my-donations", user, ds) ==> d !in FilteredDonations("available-food", user, ds)
  {
    var mine := FilteredDonations("my-donations", user, ds);
    var available := FilteredDonations("available-food", user, ds);
    forall d | d in mine
      ensures d !in available
    {
      var i :| 0 <= i < |mine| && mine[i] == d;
      assert FoodCard.IsOwner(user, mine[i]);
    }
  }

  /** Together the two views list no more donations than there are. */
  lemma OwnAndAvailableCount(user: Option<AuthUser>, ds: seq<Donation>)
    ensures |FilteredDonations("my-donations", user, ds)| + |FilteredDonations("available-food", user, ds)| <= |ds|
  {
    var own := (d: Donation) => FoodCard.IsOwner(user, d);
    var others := (d: Donation) => AvailableToOthers(user, d);
    var either := (d: Donation) => own(d) || others(d);
    CountUnion(ds, own, others, either);
    assert Count(ds, either) <= |ds|;
  }

  /** For an NGO, the available-food view lists exactly the donations whose card offers the request button. */
  lemma AvailableViewIsRequestable(user: Option<AuthUser>, profile: Option<Profile>, ds: seq<Donation>)
    requires profile.Some? && profile.value.role == Ngo
    ensures forall d :: d in FilteredDonations("available-food", user, ds) <==> d in ds && FoodCard.CanRequest(user, profile, d)
  {
    var r := FilteredDonations("available-food", user, ds);
    forall d
      ensures d in r <==> d in ds && FoodCard.CanRequest(user, profile, d)
    {
      if d in r {
        var i :| 0 <= i < |r| && r[i] == d;
        assert AvailableToOthers(user, r[i]);
      }
      if d in ds && FoodCard.CanRequest(user, profile, d) {
        var i :| 0 <= i < |ds| && ds[i] == d;
        assert AvailableToOthers(user, ds[i]);
      }
    }
  }

  const DefaultTitle := "Food Listings"

  /** getTitle: a fixed title per grid view, and the default for any other. */
  function Title(view: string): (t: string)
    ensures t == DefaultTitle <==> !GridView(view)
  {
    if view == "my-donations" then "My Food Donations"
    else if view == "available-food" then "Available Food Near You"
    else if view == "all-donations" then "All Food Donations"
    else DefaultTitle
  }

  /** The title tells the grid views apart. */
  lemma TitleIdentifiesView(a: string, b: string)
    requires GridView(a) && GridView(b) && a != b
    ensures Title(a) != Title(b)
  {
    if a == "my-donations" {
      assert Title(a)[0] == 'M';
      assert Title(b)[0] == 'A';
      if b == "available-food" {
        assert Title(a)[1] != Title(b)[1];
      }
    } else if a == "available-food" {
      assert Title(a)[1] == 'v';
      assert Title(b)[1] != 'v';
    } else {
      assert Title(a)[1] == 'l';
      assert Title(b)[1] != 'l';
    }
  }

  /** The count label: singular exactly for one item. */
  function ItemLabel(count: int): (r: string)
    ensures r == "item" <==> count == 1
    ensures r == "items" <==> count != 1
  {
    if count == 1 then "item" else "items"
  }

  /** The dashboard's quick-action buttons, by role. */
  datatype QuickActions = DonorQuickActions | NgoQuickActions | NoQuickActions

  function QuickActionsFor(profile: Option<Profile>): (q: QuickActions)
    ensures q == DonorQuickActions <==> profile.Some? && profile.value.role.IsDonor()
    ensures q == NgoQuickActions <==> profile.Some? && profile.value.role == Ngo
  {
    if profile.Some? && (profile.value.role == Restaurant || profile.value.role == Society) then DonorQuickActions
    else if profile.Some? && profile.value.role == Ngo then NgoQuickActions
    else NoQuickActions
  }

  /** The views the quick-action buttons switch to, in button order. */
  function QuickTargets(q: QuickActions): seq<string> {
    match q
    case DonorQuickActions => ["add-food", "my-donations"]
    case NgoQuickActions => ["available-food", "my-requests"]
    case NoQuickActions => []
  }

  /** What the page shows. */
  datatype Screen =
    | LoadingScreen
    | LandingScreen
    | AdminDashboardScreen
    | RoleDashboardScreen(quick: QuickActions)
    | AddFoodScreen
    | GridScreen(view: string)
    | ProfileScreen
    | ComingSoonScreen

  /**
   * AppContent with renderContent: the loading screen, the landing page
   * without a user, and otherwise the screen the view selects; the
   * dashboard view is the admin dashboard for an admin.
   */
  function Render(loading: bool, user: Option<AuthUser>, profile: Option<Profile>, view: string): (s: Screen)
    ensures loading <==> s == LoadingScreen
    ensures !loading && user.None? <==> s == LandingScreen
    ensures s == AdminDashboardScreen <==> !loading && user.Some? && view == "dashboard" && profile.Some? && profile.value.role == Admin
    ensures s == ComingSoonScreen <==> !loading && user.Some? && !KnownView(view)
    ensures s.GridScreen? <==> !loading && user.Some? && GridView(view)
    ensures s.GridScreen? ==> s.view == view
    ensures s.RoleDashboardScreen? ==> view == "dashboard" && s.quick == QuickActionsFor(profile)
  {
    if loading then LoadingScreen
    else if user.None? then LandingScreen
    else if view == "dashboard" then
      if profile.Some? && profile.value.role == Admin then AdminDashboardScreen
      else RoleDashboardScreen(QuickActionsFor(profile))
    else if view == "add-food" then AddFoodScreen
    else if GridView(view) then GridScreen(view)
    else if view == "profile" then ProfileScreen
    else ComingSoonScreen
  }

  /** Both donor quick actions open a working screen. */
  lemma DonorQuickActionsWork(user: Option<AuthUser>, profile: Option<Profile>)
    requires user.Some? && profile.Some? && profile.value.role.IsDonor()
    ensures forall t :: t in QuickTargets(QuickActionsFor(profile)) ==> Render(false, user, profile, t) != ComingSoonScreen
  {
    assert QuickTargets(QuickActionsFor(profile)) == ["add-food", "my-donations"];
  }

  /** The NGO's "My Requests" quick action opens a view renderContent has no case for. */
  lemma NgoMyRequestsIsComingSoon(user: Option<AuthUser>, profile: Option<Profile>)
    requires user.Some? && profile.Some? && profile.value.role == Ngo
    ensures QuickTargets(QuickActionsFor(profile))[1] == "my-requests"
    ensures Render(false, user, profile, "my-requests") == ComingSoonScreen
  {
    assert !KnownView("my-requests") by {
      assert "my-requests"[3] == 'r';
      assert "my-donations"[3] == 'd';
      assert "available-food"[0] == 'a';
      assert "all-donations"[0] == 'a';
    }
  }
}

=== FILE: app_context.dfy ===
/**
 * The marketplace state `AppContext` (src/context/AppContext.tsx): the
 * donation, request and notification lists, the admin figures, and the
 * queries that refill the lists.
 *
 * Every backend call is replaced by its result: a create or update passes
 * in the row the backend returned, and a refresh passes in the table as
 * the backend holds it, newest first, which the query then filters by
 * column equality as the query helpers in src/lib/supabase.ts do.
 */
module AppContext {
  import opened Common
  import opened Domain

  // ---------------------------------------------------------------------
  // The queries

  /** The column filters of a donation query; an absent or empty value filters nothing. */
  datatype DonationFilter = DonationFilter(status: Option<DonationStatus>, donorId: Option<string>)

  predicate PassesDonation(f: DonationFilter, d: Donation) {
    (f.status.None? || d.status == f.status.value)
    && (f.donorId.None? || f.donorId.value == "" || d.donorId == f.donorId.value)
  }

  /** getFoodDonations(filters) over the table. */
  function QueryDonations(table: seq<Donation>, f: DonationFilter): (r: seq<Donation>)
    ensures forall i :: 0 <= i < |r| ==> r[i] in table && PassesDonation(f, r[i])
    ensures forall i :: 0 <= i < |table| && PassesDonation(f, table[i]) ==> table[i] in r
  {
    Filter(table, (d: Donation) => PassesDonation(f, d))
  }

  /** refreshDonations' filter: donors see their own rows, NGOs the available ones, anyone else everything. */
  function DonationFilterFor(userId: string, profile: Option<Profile>): (f: DonationFilter)
    ensures profile.Some? && profile.value.role.IsDonor() ==> f == DonationFilter(None, Some(userId))
    ensures profile.Some? && profile.value.role == Ngo ==> f == DonationFilter(Some(Available), None)
    ensures profile.None? || profile.value.role == Admin ==> f == DonationFilter(None, None)
  {
    if profile.Some? && profile.value.role.IsDonor() then DonationFilter(None, Some(userId))
    else if profile.Some? && profile.value.role == Ngo then DonationFilter(Some(Available), None)
    else DonationFilter(None, None)
  }

  /** What each role's refresh shows: a donor only its own rows, an NGO only available rows, an admin the whole table. */
  lemma RefreshedDonationsByRole(userId: string, profile: Profile, table: seq<Donation>)
    requires userId != ""
    ensures var r := QueryDonations(table, DonationFilterFor(userId, Some(profile)));
      (profile.role.IsDonor() ==> forall i :: 0 <= i < |r| ==> r[i].donorId == userId)
      && (profile.role == Ngo ==> forall i :: 0 <= i < |r| ==> r[i].status == Available)
      && (profile.role == Admin ==> r == table)
  {
    if profile.role == Admin {
      FilterAll(table, (d: Donation) => PassesDonation(DonationFilter(None, None), d));
    }
  }

  /** getDonationRequests({ ngo_id }) over the table; an absent or empty id filters nothing. */
  function QueryRequests(table: seq<DonationRequest>, ngoId: Option<string>): (r: seq<DonationRequest>)
    ensures forall i :: 0 <= i < |r| ==> r[i] in table
    ensures ngoId.Some? && ngoId.value != "" ==> forall i :: 0 <= i < |r| ==> r[i].ngoId == ngoId.value
    ensures ngoId.None? || ngoId.value == "" ==> r == table
  {
    if ngoId.Some? && ngoId.value != "" then Filter(table, (q: DonationRequest) => q.ngoId == ngoId.value)
    else table
  }

  function Ids(ds: seq<Donation>): (r: seq<string>)
    ensures |r| == |ds| && forall i :: 0 <= i < |ds| ==> r[i] == ds[i].id
  {
    seq(|ds|, i requires 0 <= i < |ds| => ds[i].id)
  }

  /** The requests on one of the given donations. */
  function OnDonations(table: seq<DonationRequest>, ids: seq<string>): (r: seq<DonationRequest>)
    ensures forall i :: 0 <= i < |r| ==> r[i] in table && r[i].donationId in ids
    ensures forall i :: 0 <= i < |table| && table[i].donationId in ids ==> table[i] in r
  {
    Filter(table, (q: DonationRequest) => q.donationId in ids)
  }

  /**
   * refreshRequests as written: an NGO gets its own requests; a donor with
   * donations gets the requests on them; anyone else, and a donor with no
   * donations at all, gets the unfiltered table.
   */
  function RequestsAsWritten(userId: string, role: Role, donationTable: seq<Donation>,
                             requestTable: seq<DonationRequest>): (r: seq<DonationRequest>)
    ensures forall i :: 0 <= i < |r| ==> r[i] in requestTable
  {
    if role == Ngo then QueryRequests(requestTable, Some(userId))
    else
      var ids := Ids(QueryDonations(donationTable, DonationFilter(None, Some(userId))));
      if role.IsDonor() && |ids| > 0 then OnDonations(requestTable, ids)
      else QueryRequests(requestTable, None)
  }

  /** A donor with no donations sees every request in the table, including other donors'. */
  lemma DonorWithoutDonationsSeesAll()
    ensures var q := DonationRequest("r1", "d1", "ngo1", Pending, None, None, 0, None, None);
      RequestsAsWritten("u1", Restaurant, [], [q]) == [q] && q.donationId !in Ids(QueryDonations([], DonationFilter(None, Some("u1"))))
  {
  }

  /** refreshRequests as intended: a donor always gets exactly the requests on its own donations. */
  function Requests(userId: string, role: Role, donationTable: seq<Donation>,
                    requestTable: seq<DonationRequest>): (r: seq<DonationRequest>)
    ensures forall i :: 0 <= i < |r| ==> r[i] in requestTable
    ensures role == Ngo && userId != "" ==> forall i :: 0 <= i < |r| ==> r[i].ngoId == userId
    ensures role == Admin ==> r == requestTable
  {
    if role == Ngo then QueryRequests(requestTable, Some(userId))
    else if role.IsDonor() then OnDonations(requestTable, Ids(QueryDonations(donationTable, DonationFilter(None, Some(userId)))))
    else QueryRequests(requestTable, None)
  }

  /** The request is on a donation of the given donor's in the table. */
  predicate OnOwnDonation(userId: string, donationTable: seq<Donation>, q: DonationRequest) {
    exists d :: d in donationTable && d.donorId == userId && d.id == q.donationId
  }

  /** A donor's requests are exactly those on one of its own donations, whether or not it has any. */
  lemma DonorSeesOwnRequestsOnly(userId: string, role: Role, donationTable: seq<Donation>,
                                 requestTable: seq<DonationRequest>)
    requires role.IsDonor() && userId != ""
    ensures var r := Requests(userId, role, donationTable, requestTable);
      forall k :: 0 <= k < |r| ==> OnOwnDonation(userId, donationTable, r[k])
  {
    var own := QueryDonations(donationTable, DonationFilter(None, Some(userId)));
    var ids := Ids(own);
    var r := Requests(userId, role, donationTable, requestTable);
    assert r == OnDonations(requestTable, ids);
    forall k | 0 <= k < |r|
      ensures OnOwnDonation(userId, donationTable, r[k])
    {
      var x := r[k].donationId;
      assert x in ids;
      var j :| 0 <= j < |ids| && ids[j] == x;
      var d := own[j];
      assert d in donationTable && PassesDonation(DonationFilter(None, Some(userId)), d);
      assert d.donorId == userId && d.id == x;
    }
  }

  /** The two refreshes differ only for a donor with no donations. */
  lemma AsWrittenAgreesOtherwise(userId: string, role: Role, donationTable: seq<Donation>,
                                 requestTable: seq<DonationRequest>)
    requires !role.IsDonor() || |QueryDonations(donationTable, DonationFilter(None, Some(userId)))| > 0
    ensures RequestsAsWritten(userId, role, donationTable, requestTable) == Requests(userId, role, donationTable, requestTable)
  {
  }

  // ---------------------------------------------------------------------
  // List updates by id

  function DonationId(d: Donation): string { d.id }

  function RequestId(q: DonationRequest): string { q.id }

  /**
   * `list.map(x => x.id === id ? updated : x)`, for donations and for
   * requests alike: every row with the id becomes the returned row.
   */
  function ReplaceById<T>(s: seq<T>, idOf: T -> string, id: string, updated: T): (r: seq<T>)
    ensures |r| == |s|
    ensures forall i :: 0 <= i < |r| ==> r[i] == if idOf(s[i]) == id then updated else s[i]
  {
    seq(|s|, i requires 0 <= i < |s| => if idOf(s[i]) == id then updated else s[i])
  }

  /** `list.filter(d => d.id !== id)`: exactly the rows with that id go, the rest keep their order. */
  function RemoveDonation(ds: seq<Donation>, id: string): (r: seq<Donation>)
    ensures forall i :: 0 <= i < |r| ==> r[i].id != id && r[i] in ds
    ensures forall i :: 0 <= i < |ds| && ds[i].id != id ==> ds[i] in r
    ensures IsSubsequence(r, ds)
    ensures |r| == |ds| - Count(ds, (d: Donation) => d.id == id)
  {
    FilterIsSubsequence(ds, (d: Donation) => d.id != id);
    CountComplement(ds, (d: Donation) => d.id == id, (d: Donation) => d.id != id);
    Filter(ds, (d: Donation) => d.id != id)
  }

  /** The donation rows come back after an update as the same ids in the same order, when the row returned keeps its id. */
  lemma ReplaceKeepsIds(ds: seq<Donation>, id: string, updated: Donation)
    requires updated.id == id
    ensures Ids(ReplaceById(ds, DonationId, id, updated)) == Ids(ds)
  {
  }

  /** Removing the id of a row just added, when no other row has it, gives back the list before the add. */
  lemma AddThenRemove(created: Donation, ds: seq<Donation>)
    requires forall i :: 0 <= i < |ds| ==> ds[i].id != created.id
    ensures RemoveDonation([created] + ds, created.id) == ds
  {
    var keep := (d: Donation) => d.id != created.id;
    assert ([created] + ds)[1..] == ds;
    FilterAll(ds, keep);
  }

  /** getNotifications(userId) over the table: the user's rows, in the table's order. */
  function QueryNotifications(table: seq<Notification>, userId: string): (r: seq<Notification>)
    ensures forall i :: 0 <= i < |r| ==> r[i] in table && r[i].userId == userId
    ensures forall i :: 0 <= i < |table| && table[i].userId == userId ==> table[i] in r
  {
    Filter(table, (n: Notification) => n.userId == userId)
  }

  predicate Unread(n: Notification) {
    !n.read
  }

  /** markAsRead: the notifications with the id become read, the others are untouched. */
  function MarkRead(ns: seq<Notification>, id: string): (r: seq<Notification>)
    ensures |r| == |ns|
    ensures forall i :: 0 <= i < |r| ==> r[i] == if ns[i].id == id then ns[i].(read := true) else ns[i]
    ensures Count(r, Unread) <= Count(ns, Unread)
  {
    var r := seq(|ns|, i requires 0 <= i < |ns| => if ns[i].id == id then ns[i].(read := true) else ns[i]);
    CountMonotone(ns, r, Unread);
    r
  }

  /** markAllAsRead: every notification becomes read, so none is unread. */
  function MarkAllRead(ns: seq<Notification>): (r: seq<Notification>)
    ensures |r| == |ns|
    ensures forall i :: 0 <= i < |r| ==> r[i] == ns[i].(read := true)
    ensures Count(r, Unread) == 0
  {
    var r := seq(|ns|, i requires 0 <= i < |ns| => ns[i].(read := true));
    FilterNone(r, Unread);
    r
  }

  // ---------------------------------------------------------------------
  // getAdminStats

  datatype UsersByRole = UsersByRole(restaurant: nat, society: nat, ngo: nat, admin: nat)

  datatype AdminStats = AdminStats(
    totalUsers: int,
    totalDonations: int,
    activeDonations: int,
    totalServed: int,
    usersByRole: UsersByRole,
    donationsByType: map<FoodType, nat>)

  function Quantity(d: Donation): int {
    d.quantity
  }

  /** How many donations have the food type. */
  function TypeCount(ds: seq<Donation>, t: FoodType): nat {
    Count(ds, (d: Donation) => d.foodType == t)
  }

  const AllTypes := [Meals, Bakery, Fruits, Vegetables, Dairy, Other]

  function TypeTotal(ds: seq<Donation>, types: seq<FoodType>): int {
    Sum(types, (t: FoodType) => TypeCount(ds, t))
  }

  /** One more donation adds one to the count of its own type only. */
  lemma TypeCountSnoc(ds: seq<Donation>, d: Donation, t: FoodType)
    ensures TypeCount(ds + [d], t) == TypeCount(ds, t) + (if d.foodType == t then 1 else 0)
  {
    FilterAppend(ds, [d], (x: Donation) => x.foodType == t);
  }

  lemma TypeCountsStep(ds: seq<Donation>, d: Donation)
    ensures forall t :: TypeCount(ds + [d], t) == TypeCount(ds, t) + (if d.foodType == t then 1 else 0)
  {
    forall t: FoodType
      ensures TypeCount(ds + [d], t) == TypeCount(ds, t) + (if d.foodType == t then 1 else 0)
    {
      TypeCountSnoc(ds, d, t);
    }
  }

  lemma SumSnoc<T>(s: seq<T>, x: T, f: T -> int)
    ensures Sum(s + [x], f) == Sum(s, f) + f(x)
  {
    SumAppend(s, [x], f);
  }

  /** Adding one donation raises the total over all types by one. */
  lemma {:induction false} TypeTotalSnoc(ds: seq<Donation>, d: Donation, types: seq<FoodType>)
    ensures TypeTotal(ds + [d], types) == TypeTotal(ds, types) + Count(types, (t: FoodType) => d.foodType == t)
    decreases |types|
  {
    if types != [] {
      TypeCountSnoc(ds, d, types[0]);
      TypeTotalSnoc(ds, d, types[1..]);
    }
  }

  /** The per-type counts add up to the number of donations: every donation has exactly one type. */
  lemma {:induction false} TypeCountsAddUp(ds: seq<Donation>)
    ensures TypeTotal(ds, AllTypes) == |ds|
    decreases |ds|
  {
    if ds == [] {
      assert TypeTotal(ds, AllTypes) == 0;
    } else {
      var init, last := ds[..|ds| - 1], ds[|ds| - 1];
      assert ds == init + [last];
      TypeCountsAddUp(init);
      TypeTotalSnoc(init, last, AllTypes);
      EachTypeOnce(last.foodType);
    }
  }

  /** Every food type is listed exactly once. */
  lemma EachTypeOnce(f: FoodType)
    ensures Count(AllTypes, (t: FoodType) => f == t) == 1
  {
  }

  /** The per-type tally: a key for each type that occurs, holding its count. */
  predicate TallyOf(byType: map<FoodType, nat>, ds: seq<Donation>) {
    (forall t :: t in byType <==> TypeCount(ds, t) > 0)
    && (forall t :: t in byType ==> byType[t] == TypeCount(ds, t))
  }

  /** Counting one more donation into the tally. */
  lemma TallyStep(byType: map<FoodType, nat>, ds: seq<Donation>, d: Donation)
    requires TallyOf(byType, ds)
    ensures TallyOf(byType[d.foodType := (if d.foodType in byType then byType[d.foodType] else 0) + 1], ds + [d])
  {
    TypeCountsStep(ds, d);
  }

  class AppState {
    var donations: seq<Donation>
    var requests: seq<DonationRequest>
    var notifications: seq<Notification>
    var analytics: Analytics

    constructor()
      ensures donations == [] && requests == [] && notifications == []
      ensures analytics == Analytics(0, 0, 0, 0)
    {
      donations := [];
      requests := [];
      notifications := [];
      analytics := Analytics(0, 0, 0, 0);
    }

    /** unreadCount: the notifications not yet read. */
    function UnreadCount(): nat
      reads this
    {
      Count(notifications, Unread)
    }

    /**
     * refreshDonations: without a user nothing happens; a failed query is
     * caught and keeps the list; otherwise the list is the role's query result.
     */
    method RefreshDonations(user: Option<AuthUser>, profile: Option<Profile>, table: seq<Donation>, ok: bool)
      modifies this
      ensures user.None? || !ok ==> donations == old(donations)
      ensures user.Some? && ok ==> donations == QueryDonations(table, DonationFilterFor(user.value.id, profile))
      ensures requests == old(requests) && notifications == old(notifications) && analytics == old(analytics)
    {
      if user.None? || !ok {
        return;
      }
      donations := QueryDonations(table, DonationFilterFor(user.value.id, profile));
    }

    /** addDonation: the created row goes first, the rest stays as it was. */
    method AddDonation(created: Donation)
      modifies this
      ensures donations == [created] + old(donations)
      ensures requests == old(requests) && notifications == old(notifications) && analytics == old(analytics)
    {
      donations := [created] + donations;
    }

    /** updateDonation: every row with the id becomes the returned row. */
    method UpdateDonation(id: string, updated: Donation)
      modifies this
      ensures donations == ReplaceById(old(donations), DonationId, id, updated)
      ensures requests == old(requests) && notifications == old(notifications) && analytics == old(analytics)
    {
      donations := ReplaceById(donations, DonationId, id, updated);
    }

    /** removeDonation: the rows with the id go. */
    method RemoveDonationById(id: string)
      modifies this
      ensures donations == RemoveDonation(old(donations), id)
      ensures requests == old(requests) && notifications == old(notifications) && analytics == old(analytics)
    {
      donations := RemoveDonation(donations, id);
    }

    /**
     * refreshRequests: without a user or profile nothing happens; a failed
     * query is caught and keeps the list; otherwise the requests the written
     * refresh selects, the whole table for a donor without donations included.
     */
    method RefreshRequests(user: Option<AuthUser>, profile: Option<Profile>,
                           donationTable: seq<Donation>, requestTable: seq<DonationRequest>, ok: bool)
      modifies this
      ensures user.None? || profile.None? || !ok ==> requests == old(requests)
      ensures user.Some? && profile.Some? && ok ==>
        requests == RequestsAsWritten(user.value.id, profile.value.role, donationTable, requestTable)
      ensures donations == old(donations) && notifications == old(notifications) && analytics == old(analytics)
    {
      if user.None? || profile.None? || !ok {
        return;
      }
      requests := RequestsAsWritten(user.value.id, profile.value.role, donationTable, requestTable);
    }

    /**
     * refreshNotifications: without a user nothing happens; a failed query
     * is caught and keeps the list; otherwise the user's notifications.
     */
    method RefreshNotifications(user: Option<AuthUser>, table: seq<Notification>, ok: bool)
      modifies this
      ensures user.None? || !ok ==> notifications == old(notifications)
      ensures user.Some? && ok ==> notifications == QueryNotifications(table, user.value.id)
      ensures donations == old(donations) && requests == old(requests) && analytics == old(analytics)
    {
      if user.None? || !ok {
        return;
      }
      notifications := QueryNotifications(table, user.value.id);
    }

    /** addRequest: the created row goes first. */
    method AddRequest(created: DonationRequest)
      modifies this
      ensures requests == [created] + old(requests)
      ensures donations == old(donations) && notifications == old(notifications) && analytics == old(analytics)
    {
      requests := [created] + requests;
    }

    /** updateRequest: every row with the id becomes the returned row. */
    method UpdateRequest(id: string, updated: DonationRequest)
      modifies this
      ensures requests == ReplaceById(old(requests), RequestId, id, updated)
      ensures donations == old(donations) && notifications == old(notifications) && analytics == old(analytics)
    {
      requests := ReplaceById(requests, RequestId, id, updated);
    }

    /** markAsRead: the unread count never goes up. */
    method MarkAsRead(id: string)
      modifies this
      ensures notifications == MarkRead(old(notifications), id)
      ensures UnreadCount() <= old(UnreadCount())
      ensures donations == old(donations) && requests == old(requests) && analytics == old(analytics)
    {
      notifications := MarkRead(notifications, id);
    }

    /** markAllAsRead: without a user nothing happens; otherwise nothing is left unread. */
    method MarkAllAsRead(user: Option<AuthUser>)
      modifies this
      ensures user.None? ==> notifications == old(notifications)
      ensures user.Some? ==> notifications == MarkAllRead(old(notifications)) && UnreadCount() == 0
      ensures donations == old(donations) && requests == old(requests) && analytics == old(analytics)
    {
      if user.None? {
        return;
      }
      notifications := MarkAllRead(notifications);
    }

    /** refreshAnalytics: the figures the backend returned, or, when the call fails, the old figures. */
    method RefreshAnalytics(fetched: Option<Analytics>)
      modifies this
      ensures fetched.None? ==> analytics == old(analytics)
      ensures fetched.Some? ==> analytics == fetched.value
      ensures donations == old(donations) && requests == old(requests) && notifications == old(notifications)
    {
      if fetched.Some? {
        analytics := fetched.value;
      }
    }

    /**
     * getAdminStats: the figures copy the analytics, totalServed sums the
     * quantities, the users-by-role counts are zero, and the per-type
     * counts hold a key for each type that occurs, with its count.
     */
    method GetAdminStats() returns (stats: AdminStats)
      ensures stats.totalUsers == analytics.totalUsers && stats.totalDonations == analytics.totalDonations
      ensures stats.activeDonations == analytics.activeDonations
      ensures stats.totalServed == Sum(donations, Quantity)
      ensures stats.usersByRole == UsersByRole(0, 0, 0, 0)
      ensures forall t :: t in stats.donationsByType <==> TypeCount(donations, t) > 0
      ensures forall t :: t in stats.donationsByType ==> stats.donationsByType[t] == TypeCount(donations, t)
    {
      var byType: map<FoodType, nat> := map[];
      var served := 0;
      var i := 0;
      while i < |donations|
        invariant 0 <= i <= |donations|
        invariant served == Sum(donations[..i], Quantity)
        invariant TallyOf(byType, donations[..i])
      {
        var d := donations[i];
        assert donations[..i + 1] == donations[..i] + [d];
        SumSnoc(donations[..i], d, Quantity);
        TallyStep(byType, donations[..i], d);
        byType := byType[d.foodType := (if d.foodType in byType then byType[d.foodType] else 0) + 1];
        served := served + d.quantity;
        i := i + 1;
      }
      assert donations[..i] == donations;
      stats := AdminStats(analytics.totalUsers, analytics.totalDonations, analytics.activeDonations,
                          served, UsersByRole(0, 0, 0, 0), byType);
    }
  }
}

=== FILE: chat_support.dfy ===
/**
 * The support centre `ChatSupport` (src/components/Chat/ChatSupport.tsx):
 * the user's ticket list, the new-ticket form, the search box and the
 * category selector.
 *
 * `now` is the clock reading of a call and also makes the new ticket's id.
 * The three-second delay before auto-assignment is the separate step
 * AutoAssign.
 */
module ChatSupport {
  import opened Common

  datatype TicketStatus = Open | InProgress | Resolved | Closed

  datatype SupportTicket = SupportTicket(
    id: string,
    subject: string,
    status: TicketStatus,
    priority: Priority,
    category: string,
    lastMessage: string,
    lastActivity: int,
    assignedAgent: Option<string>,
    responseTime: Option<string>)

  /** The new-ticket form. */
  datatype TicketForm = TicketForm(subject: string, category: string, priority: Priority, description: string)

  /** The form as first shown and as reset after a submission. */
  const BlankForm := TicketForm("", "", Medium, "")

  /** The agent the simulated auto-assignment names. */
  const AutoAgent := "Sarah Johnson"

  /** The ticket handleCreateTicket builds from the form. */
  function NewTicket(form: TicketForm, now: nat): (t: SupportTicket)
    ensures t.status == Open && t.assignedAgent.None? && t.responseTime == Some("< 2 hours")
    ensures t.subject == form.subject && t.priority == form.priority && t.category == form.category
    ensures t.lastMessage == form.description && t.lastActivity == now
  {
    SupportTicket("TICKET-" + Decimal(now), form.subject, Open, form.priority, form.category,
                  form.description, now, None, Some("< 2 hours"))
  }

  function Assigned(t: SupportTicket): SupportTicket {
    t.(status := InProgress, assignedAgent := Some(AutoAgent))
  }

  /** The tickets after auto-assignment: those with the id are assigned, the rest untouched. */
  function AssignAll(tickets: seq<SupportTicket>, id: string): (r: seq<SupportTicket>)
    ensures |r| == |tickets|
    ensures forall i :: 0 <= i < |r| ==> r[i] == if tickets[i].id == id then Assigned(tickets[i]) else tickets[i]
  {
    seq(|tickets|, i requires 0 <= i < |tickets| => if tickets[i].id == id then Assigned(tickets[i]) else tickets[i])
  }

  /**
   * Creating a ticket and then auto-assigning its id changes only the new
   * ticket when its id is fresh: it becomes in progress with the named
   * agent, and every older ticket is as it was.
   */
  lemma CreateThenAssign(tickets: seq<SupportTicket>, form: TicketForm, now: nat)
    requires forall i :: 0 <= i < |tickets| ==> tickets[i].id != NewTicket(form, now).id
    ensures var t := NewTicket(form, now);
      AssignAll([t] + tickets, t.id) == [Assigned(t)] + tickets
      && Assigned(t).status == InProgress && Assigned(t).assignedAgent == Some(AutoAgent)
  {
    var t := NewTicket(form, now);
    var r := AssignAll([t] + tickets, t.id);
    assert forall i :: 1 <= i < |r| ==> r[i] == tickets[i - 1];
  }

  /** The search and category tests of filteredTickets. */
  predicate Matches(t: SupportTicket, search: string, category: string) {
    (Contains(Lower(t.subject), Lower(search)) || Contains(Lower(t.lastMessage), Lower(search)))
    && (category == "" || t.category == category)
  }

  /**
   * filteredTickets: the tickets, in order, whose subject or last message
   * contains the search text ignoring case, and whose category is the
   * selected one (any category when none is selected).
   */
  function FilteredTickets(tickets: seq<SupportTicket>, search: string, category: string): (r: seq<SupportTicket>)
    ensures forall i :: 0 <= i < |r| ==> r[i] in tickets && Matches(r[i], search, category)
    ensures forall i :: 0 <= i < |tickets| && Matches(tickets[i], search, category) ==> tickets[i] in r
    ensures IsSubsequence(r, tickets)
  {
    FilterIsSubsequence(tickets, (t: SupportTicket) => Matches(t, search, category));
    Filter(tickets, (t: SupportTicket) => Matches(t, search, category))
  }

  /** An empty search with no category selected shows every ticket. */
  lemma ShowAllByDefault(tickets: seq<SupportTicket>)
    ensures FilteredTickets(tickets, "", "") == tickets
  {
    assert Lower("") == "";
    forall i | 0 <= i < |tickets|
      ensures Matches(tickets[i], "", "")
    {
      assert StartsWith(Lower(tickets[i].subject), "");
    }
    FilterAll(tickets, (t: SupportTicket) => Matches(t, "", ""));
  }

  /** The search ignores case: a search text and its lower-case form show the same tickets. */
  lemma SearchIgnoresCase(tickets: seq<SupportTicket>, search: string, category: string)
    ensures FilteredTickets(tickets, Lower(search), category) == FilteredTickets(tickets, search, category)
  {
    LowerIdempotent(search);
    FilterCongruent(tickets, (t: SupportTicket) => Matches(t, Lower(search), category),
                    (t: SupportTicket) => Matches(t, search, category));
  }

  class SupportCenter {
    var tickets: seq<SupportTicket>
    var selectedCategory: string
    var searchQuery: string
    var showNewTicket: bool
    var form: TicketForm

    constructor()
      ensures tickets == [] && selectedCategory == "" && searchQuery == ""
      ensures !showNewTicket && form == BlankForm
    {
      tickets := [];
      selectedCategory := "";
      searchQuery := "";
      showNewTicket := false;
      form := BlankForm;
    }

    /**
     * handleCreateTicket: the ticket built from the form goes first in the
     * list, the form closes and is reset.
     */
    method CreateTicket(now: nat) returns (t: SupportTicket)
      modifies this
      ensures t == NewTicket(old(form), now)
      ensures tickets == [t] + old(tickets)
      ensures form == BlankForm && !showNewTicket
      ensures selectedCategory == old(selectedCategory) && searchQuery == old(searchQuery)
    {
      t := NewTicket(form, now);
      tickets := [t] + tickets;
      showNewTicket := false;
      form := BlankForm;
    }

    /** The auto-assignment timer: every ticket with the id goes in progress with the named agent. */
    method AutoAssign(id: string)
      modifies this
      ensures tickets == AssignAll(old(tickets), id)
      ensures form == old(form) && showNewTicket == old(showNewTicket)
      ensures selectedCategory == old(selectedCategory) && searchQuery == old(searchQuery)
    {
      tickets := AssignAll(tickets, id);
    }

    /** The list the page shows. */
    function Shown(): (r: seq<SupportTicket>)
      reads this
      ensures IsSubsequence(r, tickets)
      ensures searchQuery == "" && selectedCategory == "" ==> r == tickets
    {
      var r := FilteredTickets(tickets, searchQuery, selectedCategory);
      if searchQuery == "" && selectedCategory == "" then ShowAllByDefault(tickets); r else r
    }

    /** connectToAgent is a stub that always throws; nothing changes. */
    method ConnectToAgent() returns (r: Result<()>)
      ensures r == Failure("Function not implemented.")
    {
      r := Failure("Function not implemented.");
    }
  }
}

=== FILE: chatbot_provider.dfy ===
/**
 * The `ChatBotProvider` context (src/components/Chat/ChatBotProvider.tsx):
 * whether the chat window is open, an unread counter, the list of support
 * sessions (newest first) and the current session.
 *
 * `now` is the clock reading of one call.
 */
module ChatBotProvider {
  import opened Common
  import opened Domain

  datatype SessionKind = ChatKind | TicketKind | EmergencyKind {
    /** `type.toUpperCase()` */
    function Upper(): string {
      match this
      case ChatKind => "CHAT"
      case TicketKind => "TICKET"
      case EmergencyKind => "EMERGENCY"
    }
  }

  datatype SessionStatus = Active | Waiting | Resolved | Closed

  datatype MessageMetadata = MessageMetadata(ticketId: Option<string>, priority: Option<Priority>, category: Option<string>)

  /** What a caller hands to addMessage: a message without id and timestamp. */
  datatype Draft = Draft(text: string, sender: Sender, metadata: Option<MessageMetadata>)

  datatype ChatMessage = ChatMessage(id: string, text: string, sender: Sender, timestamp: nat, metadata: Option<MessageMetadata>)

  datatype SupportSession = SupportSession(
    id: string,
    userId: string,
    kind: SessionKind,
    status: SessionStatus,
    priority: Priority,
    category: string,
    messages: seq<ChatMessage>,
    assignedAgent: Option<string>,
    createdAt: nat,
    updatedAt: nat)

  /** The placeholder owner of every session the provider creates. */
  const CurrentUser := "current-user"

  function NewSession(kind: SessionKind, category: string, priority: Priority, now: nat): (s: SupportSession)
    ensures s.status == Active && s.messages == [] && s.userId == CurrentUser
    ensures s.kind == kind && s.category == category && s.priority == priority
  {
    SupportSession(kind.Upper() + "-" + Decimal(now), CurrentUser, kind, Active, priority, category, [], None, now, now)
  }

  function Stamp(d: Draft, now: nat): ChatMessage {
    ChatMessage(Decimal(now), d.text, d.sender, now, d.metadata)
  }

  function Resolve(s: SupportSession, now: nat): SupportSession {
    s.(status := Resolved, updatedAt := now)
  }

  function Append(s: SupportSession, m: ChatMessage, now: nat): SupportSession {
    s.(messages := s.messages + [m], updatedAt := now)
  }

  /** The sessions after endSession: those with the id are resolved, the rest untouched. */
  function EndAll(sessions: seq<SupportSession>, id: string, now: nat): (r: seq<SupportSession>)
    ensures |r| == |sessions|
    ensures forall i :: 0 <= i < |r| ==>
      r[i] == if sessions[i].id == id then Resolve(sessions[i], now) else sessions[i]
  {
    seq(|sessions|, i requires 0 <= i < |sessions| =>
      if sessions[i].id == id then Resolve(sessions[i], now) else sessions[i])
  }

  /** The sessions after addMessage: those with the id get the message appended, the rest untouched. */
  function AppendAll(sessions: seq<SupportSession>, id: string, m: ChatMessage, now: nat): (r: seq<SupportSession>)
    ensures |r| == |sessions|
    ensures forall i :: 0 <= i < |r| ==>
      r[i] == if sessions[i].id == id then Append(sessions[i], m, now) else sessions[i]
  {
    seq(|sessions|, i requires 0 <= i < |sessions| =>
      if sessions[i].id == id then Append(sessions[i], m, now) else sessions[i])
  }

  predicate OwnedBy(s: SupportSession, userId: string) {
    s.userId == userId
  }

  /**
   * Neither endSession nor addMessage looks at a session's status: a
   * session that was just resolved still takes a message, and stays resolved.
   */
  lemma ResolvedSessionAcceptsMessages(sessions: seq<SupportSession>, id: string, m: ChatMessage, t1: nat, t2: nat, i: nat)
    requires i < |sessions| && sessions[i].id == id
    ensures var after := AppendAll(EndAll(sessions, id, t1), id, m, t2);
      after[i].status == Resolved && after[i].messages == sessions[i].messages + [m]
  {
  }

  class ChatBotProvider {
    const isEnabled: bool
    var isOpen: bool
    var unreadCount: int
    var currentSession: Option<SupportSession>
    var sessions: seq<SupportSession>

    /** Every session belongs to the placeholder user, and the current session is one of the list's. */
    predicate Valid()
      reads this
    {
      (forall i :: 0 <= i < |sessions| ==> sessions[i].userId == CurrentUser)
      && (currentSession.Some? ==> currentSession.value in sessions)
    }

    constructor()
      ensures Valid()
      ensures isEnabled && !isOpen && unreadCount == 0 && currentSession.None? && sessions == []
    {
      isEnabled := true;
      isOpen := false;
      unreadCount := 0;
      currentSession := None;
      sessions := [];
    }

    /** toggleChatBot: flips the window; opening it clears the unread count. */
    method ToggleChatBot()
      modifies this
      ensures isOpen == !old(isOpen)
      ensures unreadCount == if old(isOpen) then old(unreadCount) else 0
      ensures sessions == old(sessions) && currentSession == old(currentSession)
    {
      var wasOpen := isOpen;
      isOpen := !wasOpen;
      if !wasOpen {
        unreadCount := 0;
      }
    }

    method OpenChatBot()
      modifies this
      ensures isOpen && unreadCount == 0
      ensures sessions == old(sessions) && currentSession == old(currentSession)
    {
      isOpen := true;
      unreadCount := 0;
    }

    method CloseChatBot()
      modifies this
      ensures !isOpen && unreadCount == old(unreadCount)
      ensures sessions == old(sessions) && currentSession == old(currentSession)
    {
      isOpen := false;
    }

    method SetUnreadCount(count: int)
      modifies this
      ensures unreadCount == count && isOpen == old(isOpen)
      ensures sessions == old(sessions) && currentSession == old(currentSession)
    {
      unreadCount := count;
    }

    /** createSession: the new session goes first in the list and becomes current. */
    method CreateSession(kind: SessionKind, category: string, priority: Priority, now: nat) returns (s: SupportSession)
      requires Valid()
      modifies this
      ensures Valid()
      ensures s == NewSession(kind, category, priority, now)
      ensures sessions == [s] + old(sessions) && |sessions| == |old(sessions)| + 1
      ensures currentSession == Some(s)
      ensures isOpen == old(isOpen) && unreadCount == old(unreadCount)
    {
      s := NewSession(kind, category, priority, now);
      sessions := [s] + sessions;
      currentSession := Some(s);
      assert s == sessions[0];
    }

    /** endSession: resolves every session with the id and drops the current one if it has that id. */
    method EndSession(id: string, now: nat)
      requires Valid()
      modifies this
      ensures Valid()
      ensures sessions == EndAll(old(sessions), id, now)
      ensures currentSession == if old(currentSession).Some? && old(currentSession).value.id == id then None
                                else old(currentSession)
      ensures isOpen == old(isOpen) && unreadCount == old(unreadCount)
    {
      var before := sessions;
      sessions := EndAll(sessions, id, now);
      if currentSession.Some? && currentSession.value.id == id {
        currentSession := None;
      } else if currentSession.Some? {
        var k :| 0 <= k < |before| && before[k] == currentSession.value;
        assert sessions[k] == currentSession.value;
      }
    }

    /**
     * addMessage: appends the stamped message to every session with the id
     * (and to the current one if it has that id), and counts it as unread
     * when the window is closed and the sender is not the user, whether or
     * not a session has that id.
     */
    method AddMessage(id: string, draft: Draft, now: nat)
      requires Valid()
      modifies this
      ensures Valid()
      ensures sessions == AppendAll(old(sessions), id, Stamp(draft, now), now)
      ensures currentSession == if old(currentSession).Some? && old(currentSession).value.id == id
                                then Some(Append(old(currentSession).value, Stamp(draft, now), now))
                                else old(currentSession)
      ensures unreadCount == old(unreadCount) + (if !old(isOpen) && draft.sender != UserSender then 1 else 0)
      ensures isOpen == old(isOpen)
    {
      var m := Stamp(draft, now);
      var before := sessions;
      sessions := AppendAll(sessions, id, m, now);
      if currentSession.Some? {
        var k :| 0 <= k < |before| && before[k] == currentSession.value;
        if currentSession.value.id == id {
          currentSession := Some(Append(currentSession.value, m, now));
        }
        assert sessions[k] == currentSession.value;
      }
      if !isOpen && draft.sender != UserSender {
        unreadCount := unreadCount + 1;
      }
    }

    /** getSessionHistory: the sessions of one user, in list order; all of them for the placeholder user. */
    function SessionHistory(userId: string): (r: seq<SupportSession>)
      reads this
      ensures forall i :: 0 <= i < |r| ==> r[i].userId == userId
      ensures Valid() && userId == CurrentUser ==> r == sessions
      ensures Valid() && userId != CurrentUser ==> r == []
    {
      var r := Filter(sessions, (s: SupportSession) => OwnedBy(s, userId));
      if Valid() && userId == CurrentUser then
        FilterAll(sessions, (s: SupportSession) => OwnedBy(s, userId));
        r
      else if Valid() then
        FilterNone(sessions, (s: SupportSession) => OwnedBy(s, userId));
        r
      else
        r
    }
  }
}

=== FILE: chatbot_responses.dfy ===
/**
 * The rule-based support assistant `DynamicChatBot`
 * (src/utils/chatBotResponses.ts).
 *
 * A message is lower-cased and trimmed, then three keyword classifiers run
 * on it (intent, urgency, category), and a dispatcher picks the emergency
 * answer, a role-specific template, or the general answer. The prose of
 * each answer is not reproduced: an answer's text is a `ResponseText`
 * constructor carrying exactly the values the template interpolates.
 */
module ChatBotResponses {
  import opened Common
  import opened Domain

  // ---------------------------------------------------------------------
  // Context

  /** `userStats`: every figure is optional. */
  datatype Stats = Stats(
    totalDonations: Option<int>,
    activeDonations: Option<int>,
    totalServed: Option<int>,
    availableFood: Option<int>,
    pendingRequests: Option<int>)

  const NoStats := Stats(None, None, None, None, None)

  datatype ChatContext = ChatContext(
    user: Option<User>,
    donations: seq<ChatDonation>,
    currentPage: Option<string>,
    userStats: Option<Stats>)

  /**
   * A `Partial<ChatContext>`: `None` means the key is absent from the
   * object; `Some(v)` means the key is present with value `v` (which may
   * itself be null or undefined).
   */
  datatype ContextPatch = ContextPatch(
    user: Option<Option<User>>,
    donations: Option<seq<ChatDonation>>,
    currentPage: Option<Option<string>>,
    userStats: Option<Option<Stats>>)

  const EmptyPatch := ContextPatch(None, None, None, None)

  /** `{ ...context, ...patch }` */
  function Merge(c: ChatContext, p: ContextPatch): (r: ChatContext)
  {
    ChatContext(
      if p.user.Some? then p.user.value else c.user,
      if p.donations.Some? then p.donations.value else c.donations,
      if p.currentPage.Some? then p.currentPage.value else c.currentPage,
      if p.userStats.Some? then p.userStats.value else c.userStats)
  }

  /** A merge keeps every field the patch leaves out and takes every field it supplies. */
  lemma MergeKeepsUnsupplied(c: ChatContext, p: ContextPatch)
    ensures p.user.None? ==> Merge(c, p).user == c.user
    ensures p.user.Some? ==> Merge(c, p).user == p.user.value
    ensures p.donations.Some? ==> Merge(c, p).donations == p.donations.value
    ensures p.donations.None? ==> Merge(c, p).donations == c.donations
    ensures p.currentPage.Some? ==> Merge(c, p).currentPage == p.currentPage.value
    ensures p.currentPage.None? ==> Merge(c, p).currentPage == c.currentPage
    ensures p.userStats.Some? ==> Merge(c, p).userStats == p.userStats.value
    ensures p.userStats.None? ==> Merge(c, p).userStats == c.userStats
  {
  }

  /** Merging the same patch twice is merging it once; merging nothing changes nothing. */
  lemma MergeIdempotent(c: ChatContext, p: ContextPatch)
    ensures Merge(Merge(c, p), p) == Merge(c, p)
    ensures Merge(c, EmptyPatch) == c
  {
  }

  // ---------------------------------------------------------------------
  // Classification

  datatype Intent =
    | HelpAddFood | HelpFindFood | HelpAccount | HelpRequests | HelpTechnical
    | HelpNavigation | Emergency | Feedback | GeneralInfo | General

  datatype Category =
    | FoodManagement | NgoOperations | AccountManagement | TechnicalSupport
    | PlatformNavigation | BillingPayment | GeneralInquiry

  /** The intent table, in the object's key order. */
  const IntentTable: seq<(Intent, seq<string>)> := [
    (HelpAddFood, ["add food", "create donation", "post food", "donate food"]),
    (HelpFindFood, ["find food", "available food", "search food", "locate food"]),
    (HelpAccount, ["account", "profile", "settings", "password", "login"]),
    (HelpRequests, ["request", "ngo request", "food request", "pickup"]),
    (HelpTechnical, ["bug", "error", "not working", "broken", "issue", "problem"]),
    (HelpNavigation, ["how to", "where is", "navigate", "find page"]),
    (Emergency, ["urgent", "emergency", "immediate", "asap", "critical"]),
    (Feedback, ["feedback", "suggestion", "improve", "feature request"]),
    (GeneralInfo, ["how does", "what is", "explain", "tell me about"])
  ]

  /** The category table, in the object's key order. */
  const CategoryTable: seq<(Category, seq<string>)> := [
    (FoodManagement, ["food", "donation", "add", "create", "post", "upload"]),
    (NgoOperations, ["ngo", "request", "pickup", "collect", "find"]),
    (AccountManagement, ["account", "profile", "password", "settings", "verify"]),
    (TechnicalSupport, ["bug", "error", "broken", "not working", "issue"]),
    (PlatformNavigation, ["how to", "where", "navigate", "find"]),
    (BillingPayment, ["payment", "billing", "subscription", "cost"]),
    (GeneralInquiry, ["what", "how", "why", "explain"])
  ]

  const UrgentKeywords: seq<string> := ["urgent", "emergency", "immediate", "asap", "critical", "help"]
  const HighKeywords: seq<string> := ["soon", "quickly", "fast", "important"]
  const LowKeywords: seq<string> := ["when possible", "no rush", "eventually", "sometime"]

  /** The label of the first row, in table order, with a keyword in the message. */
  function FirstMatch<L>(table: seq<(L, seq<string>)>, message: string, fallback: L): L
    decreases |table|
  {
    if table == [] then fallback
    else if AnyContained(message, table[0].1) then table[0].0
    else FirstMatch(table[1..], message, fallback)
  }

  /**
   * First match wins: the result is the label of the earliest row that
   * matches, and the fallback exactly when no row matches.
   */
  lemma {:induction false} FirstMatchIsEarliest<L>(table: seq<(L, seq<string>)>, message: string, fallback: L, i: nat)
    requires i < |table| && AnyContained(message, table[i].1)
    requires forall j :: 0 <= j < i ==> !AnyContained(message, table[j].1)
    ensures FirstMatch(table, message, fallback) == table[i].0
    decreases i
  {
    if i > 0 {
      assert !AnyContained(message, table[0].1);
      FirstMatchIsEarliest(table[1..], message, fallback, i - 1);
    }
  }

  lemma {:induction false} FirstMatchNone<L>(table: seq<(L, seq<string>)>, message: string, fallback: L)
    requires forall j :: 0 <= j < |table| ==> !AnyContained(message, table[j].1)
    ensures FirstMatch(table, message, fallback) == fallback
    decreases |table|
  {
    if table != [] {
      assert !AnyContained(message, table[0].1);
      FirstMatchNone(table[1..], message, fallback);
    }
  }

  /** Whatever the first-match result is, it comes from a matching row or is the fallback. */
  lemma {:induction false} FirstMatchSound<L>(table: seq<(L, seq<string>)>, message: string, fallback: L)
    ensures FirstMatch(table, message, fallback) == fallback
         || exists i :: 0 <= i < |table| && table[i].0 == FirstMatch(table, message, fallback) && AnyContained(message, table[i].1)
    decreases |table|
  {
    if table != [] && !AnyContained(message, table[0].1) {
      FirstMatchSound(table[1..], message, fallback);
      var r := FirstMatch(table, message, fallback);
      if r != fallback {
        var i :| 0 <= i < |table[1..]| && table[1..][i].0 == r && AnyContained(message, table[1..][i].1);
        assert table[i + 1] == table[1..][i];
      }
    }
  }

  /** The ordered-table search loop of analyzeIntent and categorizeMessage. */
  method FindFirstMatch<L>(table: seq<(L, seq<string>)>, message: string, fallback: L) returns (found: L)
    ensures found == FirstMatch(table, message, fallback)
  {
    var i := 0;
    while i < |table|
      invariant 0 <= i <= |table|
      invariant FirstMatch(table[i..], message, fallback) == FirstMatch(table, message, fallback)
    {
      assert table[i..][0] == table[i];
      if AnyContained(message, table[i].1) {
        return table[i].0;
      }
      assert table[i..][1..] == table[i + 1..];
      i := i + 1;
    }
    assert table[i..] == [];
    return fallback;
  }

  function IntentOf(message: string): Intent {
    FirstMatch(IntentTable, message, General)
  }

  function CategoryOf(message: string): Category {
    FirstMatch(CategoryTable, message, GeneralInquiry)
  }

  method AnalyzeIntent(message: string) returns (intent: Intent)
    ensures intent == IntentOf(message)
  {
    intent := FindFirstMatch(IntentTable, message, General);
  }

  method CategorizeMessage(message: string) returns (category: Category)
    ensures category == CategoryOf(message)
  {
    category := FindFirstMatch(CategoryTable, message, GeneralInquiry);
  }

  /** detectUrgency: the urgent list first, then high, then low, else medium. */
  function DetectUrgency(message: string): (u: Priority)
    ensures u == Urgent <==> AnyContained(message, UrgentKeywords)
    ensures u == High <==> !AnyContained(message, UrgentKeywords) && AnyContained(message, HighKeywords)
    ensures u == Low <==> !AnyContained(message, UrgentKeywords) && !AnyContained(message, HighKeywords)
                          && AnyContained(message, LowKeywords)
  {
    if AnyContained(message, UrgentKeywords) then Urgent
    else if AnyContained(message, HighKeywords) then High
    else if AnyContained(message, LowKeywords) then Low
    else Medium
  }

  /** Each `emergency` intent keyword is also an urgent keyword, so the emergency intent implies urgency `urgent`. */
  lemma EmergencyIntentIsUrgent(message: string)
    requires IntentOf(message) == Emergency
    ensures DetectUrgency(message) == Urgent
  {
    FirstMatchSound(IntentTable, message, General);
    EmergencyRow();
    var i :| 0 <= i < |IntentTable| && IntentTable[i].0 == Emergency && AnyContained(message, IntentTable[i].1);
    var j :| 0 <= j < |IntentTable[i].1| && Contains(message, IntentTable[i].1[j]);
    assert UrgentKeywords[j] == IntentTable[i].1[j];
  }

  /** The `emergency` row is the only one with that label, and its keywords begin the urgent list. */
  lemma EmergencyRow()
    ensures forall i :: 0 <= i < |IntentTable| && IntentTable[i].0 == Emergency ==>
      |IntentTable[i].1| <= |UrgentKeywords| && forall j :: 0 <= j < |IntentTable[i].1| ==> IntentTable[i].1[j] == UrgentKeywords[j]
  {
  }

  /** The text the classifiers see: `userMessage.toLowerCase().trim()`. */
  function Normalize(userMessage: string): string {
    Trim(Lower(userMessage))
  }

  // ---------------------------------------------------------------------
  // Responses

  datatype ActionKind = Navigate | Act | External

  datatype ChatAction = ChatAction(kind: ActionKind, caption: string, value: string)

  /** Which template answered, with the values it interpolates. */
  datatype ResponseText =
    | EmergencyText
    | DonorAddFoodText(active: int, total: int, served: int)
    | DonorRequestsText
    | DonorContextText(active: int, total: int, served: int, message: string)
    | NgoFindFoodText(available: int, pending: int)
    | NgoRequestsText
    | NgoContextText(available: int, pending: int, served: int, message: string)
    | AdminText
    | GeneralText(message: string)
  {
    /** The figures interpolated into the text. */
    function Figures(): seq<int> {
      match this
      case DonorAddFoodText(a, t, s) => [a, t, s]
      case DonorContextText(a, t, s, _) => [a, t, s]
      case NgoFindFoodText(a, p) => [a, p]
      case NgoContextText(a, p, s, _) => [a, p, s]
      case _ => []
    }
  }

  datatype ChatResponse = ChatResponse(
    text: ResponseText,
    suggestions: Option<seq<string>>,
    actions: Option<seq<ChatAction>>,
    priority: Option<Priority>,
    requiresHuman: Option<bool>)

  const EmergencyActions: seq<ChatAction> := [
    ChatAction(External, "Call Emergency Line", "tel:+18007377663"),
    ChatAction(Act, "Connect to Agent Now", "emergency_agent"),
    ChatAction(External, "Local Emergency Services", "tel:211")
  ]

  const EmergencyResponse := ChatResponse(EmergencyText, None, Some(EmergencyActions), Some(Urgent), Some(true))

  /** The suggestion and action lists of the templates. */
  const DonorAddFoodSuggestions := ["How to improve freshness score?", "Best times to post food", "Photo upload tips", "Managing NGO requests"]

  const DonorAddFoodActions := [ChatAction(Navigate, "Add Food Now", "/add-food"), ChatAction(Navigate, "View My Donations", "/my-donations")]

  const DonorRequestsSuggestions := ["How to verify NGO credentials?", "Setting pickup requirements", "Communication templates", "Rating system explanation"]

  const NgoFindFoodSuggestions := ["Show urgent food items", "Find regular donors nearby", "Bulk donation opportunities", "Filter by food type"]

  const NgoFindFoodActions := [ChatAction(Navigate, "Browse Available Food", "/available-food"), ChatAction(Navigate, "My Requests", "/my-requests")]

  const NgoRequestsSuggestions := ["Why was my request declined?", "How to improve approval rate?", "Pickup coordination help", "Profile verification status"]

  const GeneralSuggestions := ["How does ResQFood work?", "I need step-by-step help", "Connect me to live support", "I have a technical problem"]

  const GeneralActions := [ChatAction(Act, "Live Support", "connect_agent"), ChatAction(Navigate, "Help Center", "/help"),
    ChatAction(Act, "Create Ticket", "create_ticket")]

  const DonorContextSuggestions := ["How to get more requests for my food?", "Best practices for food photography", "Managing pickup schedules", "Connect with live support"]

  const NgoContextSuggestions := ["How to find food in my area?", "Why are my requests being declined?", "Pickup coordination help", "Talk to live support"]

  /** `stats?.field || 0`: an absent statistics object reads as `NoStats`, an absent figure as 0. */
  function OrZero(figure: Option<int>): int {
    figure.GetOr(0)
  }

  /** The figures a template can quote. */
  datatype Figure = TotalDonations | ActiveDonations | TotalServed | AvailableFood | PendingRequests

  /** `stats?.<figure>`: absent when the statistics or the figure are. */
  function Lookup(stats: Option<Stats>, f: Figure): Option<int> {
    if stats.None? then None
    else match f
      case TotalDonations => stats.value.totalDonations
      case ActiveDonations => stats.value.activeDonations
      case TotalServed => stats.value.totalServed
      case AvailableFood => stats.value.availableFood
      case PendingRequests => stats.value.pendingRequests
  }

  /** `n` is what `${stats?.<figure> || 0}` prints: the figure when it is known, 0 otherwise. */
  predicate Quotes(n: int, stats: Option<Stats>, f: Figure) {
    (Lookup(stats, f).Some? ==> n == Lookup(stats, f).value)
    && (Lookup(stats, f).None? ==> n == 0)
  }

  /** Every figure interpolated into the text is the user's own, or 0 where it is unknown. */
  predicate QuotesStats(stats: Option<Stats>, t: ResponseText) {
    ((t.DonorAddFoodText? || t.DonorContextText?) ==>
       Quotes(t.active, stats, ActiveDonations) && Quotes(t.total, stats, TotalDonations) && Quotes(t.served, stats, TotalServed))
    && ((t.NgoFindFoodText? || t.NgoContextText?) ==>
       Quotes(t.available, stats, AvailableFood) && Quotes(t.pending, stats, PendingRequests))
    && (t.NgoContextText? ==> Quotes(t.served, stats, TotalServed))
  }

  function BuildDonorResponse(c: ChatContext, message: string, intent: Intent): ChatResponse {
    var st := c.userStats.GetOr(NoStats);
    match intent
    case HelpAddFood =>
      ChatResponse(
        DonorAddFoodText(OrZero(st.activeDonations), OrZero(st.totalDonations), OrZero(st.totalServed)),
        Some(DonorAddFoodSuggestions),
        Some(DonorAddFoodActions),
        None, None)
    case HelpRequests =>
      ChatResponse(
        DonorRequestsText,
        Some(DonorRequestsSuggestions),
        None, None, None)
    case _ => BuildContextualDonorResponse(c, message)
  }

  function BuildNgoResponse(c: ChatContext, message: string, intent: Intent): ChatResponse {
    var st := c.userStats.GetOr(NoStats);
    match intent
    case HelpFindFood =>
      ChatResponse(
        NgoFindFoodText(OrZero(st.availableFood), OrZero(st.pendingRequests)),
        Some(NgoFindFoodSuggestions),
        Some(NgoFindFoodActions),
        None, None)
    case HelpRequests =>
      ChatResponse(
        NgoRequestsText,
        Some(NgoRequestsSuggestions),
        None, None, None)
    case _ => BuildContextualNgoResponse(c, message)
  }

  const AdminSuggestions := ["User verification process", "System analytics help", "Emergency procedures", "Platform configuration"]

  const AdminActions := [ChatAction(Navigate, "Admin Dashboard", "/admin"), ChatAction(Navigate, "User Management", "/admin/users"),
    ChatAction(Navigate, "System Analytics", "/admin/analytics")]

  const AdminResponse := ChatResponse(AdminText, Some(AdminSuggestions), Some(AdminActions), None, None)

  function BuildGeneralResponse(message: string): ChatResponse {
    ChatResponse(
      GeneralText(message),
      Some(GeneralSuggestions),
      Some(GeneralActions),
      None, None)
  }

  function BuildContextualDonorResponse(c: ChatContext, message: string): ChatResponse {
    var st := c.userStats.GetOr(NoStats);
    ChatResponse(
      DonorContextText(OrZero(st.activeDonations), OrZero(st.totalDonations), OrZero(st.totalServed), message),
      Some(DonorContextSuggestions),
      None, None, None)
  }

  function BuildContextualNgoResponse(c: ChatContext, message: string): ChatResponse {
    var st := c.userStats.GetOr(NoStats);
    ChatResponse(
      NgoContextText(OrZero(st.availableFood), OrZero(st.pendingRequests), OrZero(st.totalServed), message),
      Some(NgoContextSuggestions),
      None, None, None)
  }

  /** buildResponse: the emergency answer first, then by role, then the general answer. */
  function BuildResponse(c: ChatContext, message: string, intent: Intent, urgency: Priority, category: Category): ChatResponse {
    if urgency == Urgent || intent == Emergency then EmergencyResponse
    else if c.user.Some? then
      match c.user.value.role
      case Restaurant => BuildDonorResponse(c, message, intent)
      case Society => BuildDonorResponse(c, message, intent)
      case Ngo => BuildNgoResponse(c, message, intent)
      case Admin => AdminResponse
    else BuildGeneralResponse(message)
  }

  /** generateResponse as a function of the context and the raw message. */
  function Respond(c: ChatContext, userMessage: string): ChatResponse {
    var m := Normalize(userMessage);
    BuildResponse(c, m, IntentOf(m), DetectUrgency(m), CategoryOf(m))
  }

  /** Classification sees only the lower-cased text, so answers do not depend on letter case. */
  lemma RespondIgnoresCase(c: ChatContext, a: string, b: string)
    requires Lower(a) == Lower(b)
    ensures Respond(c, a) == Respond(c, b)
  {
  }

  /**
   * buildResponse answers with the emergency response exactly when the
   * urgency is `urgent` or the intent is `emergency`; no other answer sets
   * a priority or `requiresHuman`.
   */
  lemma BuildResponseEmergency(c: ChatContext, m: string, intent: Intent, urgency: Priority, category: Category)
    ensures var r := BuildResponse(c, m, intent, urgency, category);
      (r == EmergencyResponse <==> urgency == Urgent || intent == Emergency)
      && (r.requiresHuman.Some? <==> r == EmergencyResponse)
      && (r.priority.Some? <==> r == EmergencyResponse)
  {
  }

  /**
   * The emergency answer is given exactly when the normalised message holds
   * an urgent keyword; it alone sets a priority (`urgent`) and
   * `requiresHuman` (true), and it carries three actions, the first
   * calling the emergency line.
   */
  lemma RespondEmergency(c: ChatContext, userMessage: string)
    ensures var r := Respond(c, userMessage);
      (r == EmergencyResponse <==> AnyContained(Normalize(userMessage), UrgentKeywords))
      && (r.requiresHuman.Some? <==> r == EmergencyResponse)
      && (r.priority.Some? <==> r == EmergencyResponse)
      && (r == EmergencyResponse ==>
            (r.priority == Some(Urgent) && r.requiresHuman == Some(true)
             && r.actions.Some? && |r.actions.value| == 3 && r.actions.value[0].value == "tel:+18007377663"))
  {
    var m := Normalize(userMessage);
    var intent := IntentOf(m);
    var urgency := DetectUrgency(m);
    BuildResponseEmergency(c, m, intent, urgency, CategoryOf(m));
    if intent == Emergency {
      EmergencyIntentIsUrgent(m);
    }
  }

  /** The role dispatch of buildResponse for a message that is not an emergency. */
  lemma BuildResponseByRole(c: ChatContext, m: string, intent: Intent, urgency: Priority, category: Category)
    requires urgency != Urgent && intent != Emergency
    ensures var r := BuildResponse(c, m, intent, urgency, category);
      (c.user.None? ==> r.text == GeneralText(m))
      && (c.user.Some? && c.user.value.role.IsDonor() ==>
            (intent == HelpAddFood ==> r.text.DonorAddFoodText?)
            && (intent == HelpRequests ==> r.text == DonorRequestsText)
            && (intent != HelpAddFood && intent != HelpRequests ==> r.text.DonorContextText? && r.text.message == m))
      && (c.user.Some? && c.user.value.role == Ngo ==>
            (intent == HelpFindFood ==> r.text.NgoFindFoodText?)
            && (intent == HelpRequests ==> r.text == NgoRequestsText)
            && (intent != HelpFindFood && intent != HelpRequests ==> r.text.NgoContextText? && r.text.message == m))
      && (c.user.Some? && c.user.value.role == Admin ==> r == AdminResponse)
      && QuotesStats(c.userStats, r.text)
  {
  }

  /**
   * Outside an emergency the role decides the template: donors get the
   * add-food guide, the request guide or the contextual donor answer; NGOs
   * the find-food guide, the request guide or the contextual NGO answer;
   * admins the admin answer whatever the intent; no user the general one,
   * which echoes the normalised message.
   */
  lemma RespondByRole(c: ChatContext, userMessage: string)
    requires !AnyContained(Normalize(userMessage), UrgentKeywords)
    ensures var r := Respond(c, userMessage);
      var m := Normalize(userMessage);
      var intent := IntentOf(m);
      (c.user.None? ==> r.text == GeneralText(m))
      && (c.user.Some? && c.user.value.role.IsDonor() ==>
            (intent == HelpAddFood ==> r.text.DonorAddFoodText?)
            && (intent == HelpRequests ==> r.text == DonorRequestsText)
            && (intent != HelpAddFood && intent != HelpRequests ==> r.text.DonorContextText? && r.text.message == m))
      && (c.user.Some? && c.user.value.role == Ngo ==>
            (intent == HelpFindFood ==> r.text.NgoFindFoodText?)
            && (intent == HelpRequests ==> r.text == NgoRequestsText)
            && (intent != HelpFindFood && intent != HelpRequests ==> r.text.NgoContextText? && r.text.message == m))
      && (c.user.Some? && c.user.value.role == Admin ==> r == AdminResponse)
      && QuotesStats(c.userStats, r.text)
  {
    var m := Normalize(userMessage);
    var intent := IntentOf(m);
    if intent == Emergency {
      EmergencyIntentIsUrgent(m);
    }
    BuildResponseByRole(c, m, intent, DetectUrgency(m), CategoryOf(m));
  }

  /** Missing statistics, or statistics without a single figure, are shown as 0 in every template. */
  lemma MissingStatsShowZero(c: ChatContext, m: string, intent: Intent, urgency: Priority, category: Category)
    requires c.userStats.None? || c.userStats == Some(NoStats)
    ensures var figures := BuildResponse(c, m, intent, urgency, category).text.Figures();
      forall k :: 0 <= k < |figures| ==> figures[k] == 0
  {
    assert c.userStats.GetOr(NoStats) == NoStats;
  }

  // ---------------------------------------------------------------------
  // The assistant object

  class DynamicChatBot {
    var context: ChatContext

    constructor(context: ChatContext)
      ensures this.context == context
    {
      this.context := context;
    }

    method GenerateResponse(userMessage: string) returns (r: ChatResponse)
      ensures r == Respond(context, userMessage)
      ensures r.requiresHuman == Some(true) <==> AnyContained(Normalize(userMessage), UrgentKeywords)
    {
      var message := Trim(Lower(userMessage));
      var intent := AnalyzeIntent(message);
      var urgency := DetectUrgency(message);
      var category := CategorizeMessage(message);
      r := BuildResponse(context, message, intent, urgency, category);
      RespondEmergency(context, userMessage);
    }

    method UpdateContext(patch: ContextPatch)
      modifies this
      ensures context == Merge(old(context), patch)
    {
      context := Merge(context, patch);
    }

    /** Starter questions: four for visitors, five for each role. */
    function ContextualSuggestions(): (r: seq<string>)
      reads this
      ensures context.user.None? ==> |r| == 4
      ensures context.user.Some? ==> |r| == 5
    {
      if context.user.None? then
        ["How does ResQFood work?", "How to register?", "What types of organizations can join?", "Is ResQFood free to use?"]
      else
        match context.user.value.role
        case Restaurant => DonorSuggestions
        case Society => DonorSuggestions
        case Ngo =>
          ["How to find available food?", "Why are my requests being declined?", "Pickup coordination guidelines",
           "How to build donor relationships?", "Improving my NGO rating"]
        case Admin =>
          ["User verification procedures", "System analytics interpretation", "Platform moderation tools",
           "Emergency response protocols", "Bulk communication features"]
    }
  }

  const DonorSuggestions: seq<string> := [
    "How to add food donations?", "Why isn't my food being requested?", "How to improve my freshness score?",
    "Best practices for food photography", "Managing pickup schedules"
  ]
}

=== FILE: chatbot_settings.dfy ===
/**
 * The assistant's settings page `ChatBotSettings`
 * (src/components/Chat/ChatBotSettings.tsx): a settings record that is
 * merged with partial updates, toggled field by field and reset, plus the
 * "saved" banner. Toggling `enabled` also toggles the provider's chat
 * window.
 */
module ChatBotSettings {
  import opened Common
  import CP = ChatBotProvider

  datatype Settings = Settings(
    enabled: bool,
    notifications: bool,
    language: string,
    autoConnect: bool,
    soundEnabled: bool,
    theme: string,
    welcomeMessageShown: bool)

  /** A `Partial<SettingsType>`: each field either supplied or absent. */
  datatype SettingsPatch = SettingsPatch(
    enabled: Option<bool>,
    notifications: Option<bool>,
    language: Option<string>,
    autoConnect: Option<bool>,
    soundEnabled: Option<bool>,
    theme: Option<string>,
    welcomeMessageShown: Option<bool>)

  const NoChange := SettingsPatch(None, None, None, None, None, None, None)

  /** The settings as first shown: defaults, with `enabled` taken from the provider. */
  function Initial(isEnabled: bool): (s: Settings)
    ensures s.enabled == isEnabled
    ensures s == Defaults().(enabled := isEnabled)
  {
    Settings(isEnabled, true, "en", false, true, "light", true)
  }

  /** The defaults handleReset restores. */
  function Defaults(): Settings {
    Settings(true, true, "en", false, true, "light", true)
  }

  /** `{ ...s, ...p }` */
  function Apply(s: Settings, p: SettingsPatch): (r: Settings)
    ensures r.enabled == (if p.enabled.Some? then p.enabled.value else s.enabled)
    ensures r.notifications == (if p.notifications.Some? then p.notifications.value else s.notifications)
    ensures r.language == (if p.language.Some? then p.language.value else s.language)
    ensures r.autoConnect == (if p.autoConnect.Some? then p.autoConnect.value else s.autoConnect)
    ensures r.soundEnabled == (if p.soundEnabled.Some? then p.soundEnabled.value else s.soundEnabled)
    ensures r.theme == (if p.theme.Some? then p.theme.value else s.theme)
    ensures r.welcomeMessageShown == (if p.welcomeMessageShown.Some? then p.welcomeMessageShown.value else s.welcomeMessageShown)
  {
    Settings(
      if p.enabled.Some? then p.enabled.value else s.enabled,
      if p.notifications.Some? then p.notifications.value else s.notifications,
      if p.language.Some? then p.language.value else s.language,
      if p.autoConnect.Some? then p.autoConnect.value else s.autoConnect,
      if p.soundEnabled.Some? then p.soundEnabled.value else s.soundEnabled,
      if p.theme.Some? then p.theme.value else s.theme,
      if p.welcomeMessageShown.Some? then p.welcomeMessageShown.value else s.welcomeMessageShown)
  }

  /** An empty update changes nothing, and applying the same update twice is applying it once. */
  lemma ApplyLaws(s: Settings, p: SettingsPatch)
    ensures Apply(s, NoChange) == s
    ensures Apply(Apply(s, p), p) == Apply(s, p)
  {
  }

  /** The keys the page toggles: its five on/off switches. */
  datatype Switch = EnabledSwitch | NotificationsSwitch | AutoConnectSwitch | SoundSwitch | WelcomeSwitch

  function Get(s: Settings, key: Switch): bool {
    match key
    case EnabledSwitch => s.enabled
    case NotificationsSwitch => s.notifications
    case AutoConnectSwitch => s.autoConnect
    case SoundSwitch => s.soundEnabled
    case WelcomeSwitch => s.welcomeMessageShown
  }

  /** `{ [key]: value }` */
  function PatchOf(key: Switch, value: bool): SettingsPatch {
    match key
    case EnabledSwitch => NoChange.(enabled := Some(value))
    case NotificationsSwitch => NoChange.(notifications := Some(value))
    case AutoConnectSwitch => NoChange.(autoConnect := Some(value))
    case SoundSwitch => NoChange.(soundEnabled := Some(value))
    case WelcomeSwitch => NoChange.(welcomeMessageShown := Some(value))
  }

  /** The settings after handleToggle(key). */
  function Flip(s: Settings, key: Switch): Settings {
    Apply(s, PatchOf(key, !Get(s, key)))
  }

  /** A toggle flips exactly its own switch: every other switch, the language and the theme are kept. */
  lemma FlipOnlyItsSwitch(s: Settings, key: Switch, other: Switch)
    ensures Get(Flip(s, key), key) == !Get(s, key)
    ensures other != key ==> Get(Flip(s, key), other) == Get(s, other)
    ensures Flip(s, key).language == s.language && Flip(s, key).theme == s.theme
  {
  }

  /** Toggling the same switch twice restores the settings. */
  lemma FlipTwice(s: Settings, key: Switch)
    ensures Flip(Flip(s, key), key) == s
  {
  }

  class SettingsPanel {
    var settings: Settings
    var showSaved: bool
    /** What the page last wrote under the key `resqfood_chat_settings` of local storage. */
    var stored: Option<Settings>

    constructor(provider: CP.ChatBotProvider)
      ensures settings == Initial(provider.isEnabled) && !showSaved && stored.None?
    {
      settings := Initial(provider.isEnabled);
      showSaved := false;
      stored := None;
    }

    /** updateSettings: the supplied fields replace the old ones, the result is stored and the banner shows. */
    method UpdateSettings(p: SettingsPatch)
      modifies this
      ensures settings == Apply(old(settings), p) && showSaved
      ensures stored == Some(settings)
    {
      settings := Apply(settings, p);
      stored := Some(settings);
      showSaved := true;
    }

    /** handleToggle: flips the switch; the `enabled` switch also toggles the provider's window. */
    method HandleToggle(key: Switch, provider: CP.ChatBotProvider)
      modifies this, provider
      ensures settings == Flip(old(settings), key) && showSaved && stored == Some(settings)
      ensures key == EnabledSwitch ==> provider.isOpen == !old(provider.isOpen)
      ensures key == EnabledSwitch ==> provider.unreadCount == if old(provider.isOpen) then old(provider.unreadCount) else 0
      ensures key != EnabledSwitch ==> provider.isOpen == old(provider.isOpen) && provider.unreadCount == old(provider.unreadCount)
      ensures provider.sessions == old(provider.sessions) && provider.currentSession == old(provider.currentSession)
    {
      UpdateSettings(PatchOf(key, !Get(settings, key)));
      if key == EnabledSwitch {
        provider.ToggleChatBot();
      }
    }

    /** handleLanguageChange: only the language changes. */
    method HandleLanguageChange(language: string)
      modifies this
      ensures settings == old(settings).(language := language) && showSaved && stored == Some(settings)
    {
      UpdateSettings(NoChange.(language := Some(language)));
    }

    /** handleReset: every field goes back to its default. */
    method HandleReset()
      modifies this
      ensures settings == Defaults() && showSaved && stored == Some(Defaults())
      ensures settings.enabled && settings.notifications && settings.language == "en" && !settings.autoConnect
      ensures settings.soundEnabled && settings.theme == "light" && settings.welcomeMessageShown
    {
      settings := Defaults();
      stored := Some(settings);
      showSaved := true;
    }

    /** handleSave: the current settings are stored unchanged and the banner shows. */
    method HandleSave()
      modifies this
      ensures settings == old(settings) && stored == Some(settings) && showSaved
    {
      stored := Some(settings);
      showSaved := true;
    }

    /** The banner's timer: the banner hides, the settings stay. */
    method HideSaved()
      modifies this
      ensures !showSaved && settings == old(settings) && stored == old(stored)
    {
      showSaved := false;
    }
  }
}

=== FILE: common.dfy ===
/**
 * Helpers shared by every component model: an Option type, the few
 * JavaScript string operations the components rely on (`includes`,
 * `toLowerCase`, `trim`, `substring`, `parseInt`, number-to-string), and
 * the four-level priority used by chats, tickets and sessions.
 */
module Common {

  datatype Option<+T> = None | Some(value: T) {
    /** `x || d` for a value that is falsy exactly when it is absent. */
    function GetOr(default: T): T {
      match this
      case Some(v) => v
      case None => default
    }
  }

  /** The outcome of an operation that may throw: the thrown message is kept as text. */
  datatype Result<+T> = Success(value: T) | Failure(error: string)

  /** The priority scale shared by chats, sessions and tickets: low < medium < high < urgent. */
  datatype Priority = Low | Medium | High | Urgent {
    function Rank(): (r: nat)
      ensures r <= 3
    {
      match this
      case Low => 0
      case Medium => 1
      case High => 2
      case Urgent => 3
    }
  }

  /** `x || fallback` on an optional string: absent and empty both fall back. */
  function OrString(s: Option<string>, fallback: string): (r: string)
    ensures s.Some? && s.value != "" ==> r == s.value
    ensures s.None? || s.value == "" ==> r == fallback
  {
    if s.Some? && s.value != "" then s.value else fallback
  }

  // ---------------------------------------------------------------------
  // Substrings

  /** `s.startsWith(k)` */
  predicate StartsWith(s: string, k: string) {
    |k| <= |s| && s[..|k|] == k
  }

  /** `s.includes(k)`: k occurs in s at some position. */
  predicate Contains(s: string, k: string)
    decreases |s|
  {
    StartsWith(s, k) || (|s| > 0 && Contains(s[1..], k))
  }

  /** Exhibits one occurrence; the usual way to prove a concrete `includes`. */
  lemma {:induction false} ContainsAt(s: string, k: string, i: nat)
    requires i + |k| <= |s| && s[i..i + |k|] == k
    ensures Contains(s, k)
    decreases i
  {
    if i == 0 {
      assert s[..|k|] == s[0..0 + |k|];
    } else {
      assert s[1..][i - 1..i - 1 + |k|] == s[i..i + |k|];
      ContainsAt(s[1..], k, i - 1);
    }
  }

  /** An occurrence names a position. */
  lemma {:induction false} ContainsWitness(s: string, k: string) returns (i: nat)
    requires Contains(s, k)
    ensures i + |k| <= |s| && s[i..i + |k|] == k
    decreases |s|
  {
    if StartsWith(s, k) {
      i := 0;
    } else {
      var j := ContainsWitness(s[1..], k);
      assert s[1..][j..j + |k|] == s[j + 1..j + 1 + |k|];
      i := j + 1;
    }
  }

  /** An occurrence inside a part of the string is an occurrence in the whole. */
  lemma ContainsInfix(s: string, lo: nat, hi: nat, k: string)
    requires lo <= hi <= |s|
    requires Contains(s[lo..hi], k)
    ensures Contains(s, k)
  {
    var i := ContainsWitness(s[lo..hi], k);
    var whole, part := s[lo + i..lo + i + |k|], s[lo..hi][i..i + |k|];
    assert forall t :: 0 <= t < |k| ==> whole[t] == part[t];
    assert whole == k;
    ContainsAt(s, k, lo + i);
  }

  /** `keywords.some(k => s.includes(k))` */
  predicate AnyContained(s: string, keywords: seq<string>) {
    exists j :: 0 <= j < |keywords| && Contains(s, keywords[j])
  }

  // ---------------------------------------------------------------------
  // Case and whitespace (ASCII)

  function LowerChar(c: char): (r: char)
    ensures !('A' <= r <= 'Z')
    ensures 'a' <= c <= 'z' ==> r == c
  {
    if 'A' <= c <= 'Z' then (c as int + 32) as char else c
  }

  /** `s.toLowerCase()` on ASCII letters. */
  function Lower(s: string): (r: string)
    ensures |r| == |s|
    ensures forall i :: 0 <= i < |s| ==> r[i] == LowerChar(s[i])
  {
    seq(|s|, i requires 0 <= i < |s| => LowerChar(s[i]))
  }

  lemma LowerIdempotent(s: string)
    ensures Lower(Lower(s)) == Lower(s)
  {
  }

  /** The ASCII characters that `trim` removes. */
  predicate IsSpace(c: char) {
    c == ' ' || c == '\t' || c == '\n' || c == '\r' || c == 11 as char || c == 12 as char
  }

  predicate IsBlank(s: string) {
    forall i :: 0 <= i < |s| ==> IsSpace(s[i])
  }

  function TrimStart(s: string): (r: string)
    ensures |r| <= |s| && r == s[|s| - |r|..]
    ensures r == [] || !IsSpace(r[0])
    ensures r == [] <==> IsBlank(s)
    decreases |s|
  {
    if |s| > 0 && IsSpace(s[0]) then TrimStart(s[1..]) else s
  }

  /** TrimStart cuts only whitespace. */
  lemma {:induction false} TrimStartCutsBlank(s: string)
    ensures IsBlank(s[..|s| - |TrimStart(s)|])
    decreases |s|
  {
    if |s| > 0 && IsSpace(s[0]) {
      var n := |s| - |TrimStart(s[1..])|;
      TrimStartCutsBlank(s[1..]);
      var cut := s[1..][..n - 1];
      forall k | 0 <= k < n
        ensures IsSpace(s[..n][k])
      {
        if k > 0 {
          assert s[..n][k] == cut[k - 1];
        }
      }
    }
  }

  function TrimEnd(s: string): (r: string)
    ensures |r| <= |s| && r == s[..|r|]
    ensures r == [] || !IsSpace(r[|r| - 1])
    ensures r == [] <==> IsBlank(s)
    decreases |s|
  {
    if |s| > 0 && IsSpace(s[|s| - 1]) then TrimEnd(s[..|s| - 1]) else s
  }

  /** TrimEnd cuts only whitespace. */
  lemma {:induction false} TrimEndCutsBlank(s: string)
    ensures IsBlank(s[|TrimEnd(s)|..])
    decreases |s|
  {
    if |s| > 0 && IsSpace(s[|s| - 1]) {
      var m := |TrimEnd(s[..|s| - 1])|;
      TrimEndCutsBlank(s[..|s| - 1]);
      var cut := s[..|s| - 1][m..];
      forall k | 0 <= k < |s| - m
        ensures IsSpace(s[m..][k])
      {
        if k < |s| - 1 - m {
          assert s[m..][k] == cut[k];
        }
      }
    }
  }

  /** r is the piece of s that starts at i. */
  predicate PieceAt(s: string, r: string, i: int) {
    0 <= i <= |s| - |r| && r == s[i..i + |r|]
  }

  /** r is the piece of s that starts at i, and only whitespace surrounds it. */
  predicate BlankAround(s: string, r: string, i: int) {
    PieceAt(s, r, i) && IsBlank(s[..i]) && IsBlank(s[i + |r|..])
  }

  /** `s.trim()`: the piece of s left once the whitespace on both sides is cut. */
  function Trim(s: string): (r: string)
    ensures |r| <= |s|
    ensures exists i :: BlankAround(s, r, i)
    ensures r == [] || (!IsSpace(r[0]) && !IsSpace(r[|r| - 1]))
    ensures r == [] <==> IsBlank(s)
  {
    TrimIsBlankAround(s);
    TrimEnd(TrimStart(s))
  }

  /** Cutting the leading, then the trailing whitespace leaves a piece with only whitespace around it. */
  lemma TrimIsBlankAround(s: string)
    ensures BlankAround(s, TrimEnd(TrimStart(s)), |s| - |TrimStart(s)|)
  {
    var t := TrimStart(s);
    TrimStartCutsBlank(s);
    TrimEndCutsBlank(t);
    BlankCutsAround(s, t, TrimEnd(t));
  }

  /** A blank prefix cut from s, then a blank suffix cut from the rest t, leaves u with blanks around it. */
  lemma BlankCutsAround(s: string, t: string, u: string)
    requires |t| <= |s| && t == s[|s| - |t|..] && IsBlank(s[..|s| - |t|])
    requires |u| <= |t| && u == t[..|u|] && IsBlank(t[|u|..])
    ensures BlankAround(s, u, |s| - |t|)
  {
    var i := |s| - |t|;
    assert u == s[i..i + |u|];
    var rest, tail := s[i + |u|..], t[|u|..];
    forall k | 0 <= k < |rest|
      ensures IsSpace(rest[k])
    {
      assert rest[k] == tail[k];
    }
  }

  // ---------------------------------------------------------------------
  // Decimal numerals

  function DigitChar(d: nat): (c: char)
    requires d < 10
    ensures '0' <= c <= '9'
  {
    ('0' as int + d) as char
  }

  function DigitValue(c: char): (d: nat)
    requires '0' <= c <= '9'
    ensures d < 10
  {
    c as int - '0' as int
  }

  predicate IsDigit(c: char) {
    '0' <= c <= '9'
  }

  /** `n.toString()` for a non-negative integer: its shortest decimal numeral. */
  function Decimal(n: nat): (r: string)
    ensures |r| > 0
    ensures forall i :: 0 <= i < |r| ==> IsDigit(r[i])
    ensures |r| > 1 ==> r[0] != '0'
  {
    if n < 10 then [DigitChar(n)] else Decimal(n / 10) + [DigitChar(n % 10)]
  }

  /** `n.toString()` for any integer: a minus sign before the numeral of a negative one. */
  function IntText(n: int): string {
    if n >= 0 then Decimal(n) else "-" + Decimal(-n)
  }

  /** The value of a string of decimal digits. */
  function DigitsValue(s: string): (v: nat)
    requires forall i :: 0 <= i < |s| ==> IsDigit(s[i])
  {
    if s == [] then 0
    else
      assert IsDigit(s[|s| - 1]);
      10 * DigitsValue(s[..|s| - 1]) + DigitValue(s[|s| - 1])
  }

  lemma {:induction false} DecimalValue(n: nat)
    ensures DigitsValue(Decimal(n)) == n
  {
    if n >= 10 {
      var r := Decimal(n);
      assert r[..|r| - 1] == Decimal(n / 10);
      DecimalValue(n / 10);
    }
  }

  /** Decimal numerals of different numbers differ, so clock-based ids are distinct. */
  lemma DecimalInjective(m: nat, n: nat)
    requires m != n
    ensures Decimal(m) != Decimal(n)
  {
    DecimalValue(m);
    DecimalValue(n);
  }

  /** The length of the longest run of digits at the start of s. */
  function DigitRun(s: string): (k: nat)
    ensures k <= |s|
    ensures forall i :: 0 <= i < k ==> IsDigit(s[i])
    ensures k < |s| ==> !IsDigit(s[k])
  {
    if |s| > 0 && IsDigit(s[0]) then 1 + DigitRun(s[1..]) else 0
  }

  /**
   * `parseInt(s)` in base 10: leading whitespace is skipped, one optional
   * sign is read, then the longest run of digits; no digits gives NaN (None).
   */
  function ParseInt(s: string): (r: Option<int>)
    ensures r.None? <==> DigitRun(UnsignedPart(TrimStart(s))) == 0
  {
    var t := TrimStart(s);
    var u := UnsignedPart(t);
    var k := DigitRun(u);
    if k == 0 then None
    else
      var magnitude: int := DigitsValue(u[..k]);
      Some(if |t| > 0 && t[0] == '-' then -magnitude else magnitude)
  }

  function UnsignedPart(t: string): (u: string)
    ensures u == t || (|t| > 0 && (t[0] == '-' || t[0] == '+') && u == t[1..])
  {
    if |t| > 0 && (t[0] == '-' || t[0] == '+') then t[1..] else t
  }

  lemma {:induction false} DigitRunOfDigits(s: string)
    requires forall i :: 0 <= i < |s| ==> IsDigit(s[i])
    ensures DigitRun(s) == |s|
  {
    if |s| > 0 {
      DigitRunOfDigits(s[1..]);
    }
  }

  lemma {:induction false} ParseDigits(d: string)
    requires |d| > 0 && forall i :: 0 <= i < |d| ==> IsDigit(d[i])
    ensures ParseInt(d) == Some(DigitsValue(d))
  {
    DigitRunOfDigits(d);
    UnsignedDigits(d);
    assert d[..|d|] == d;
  }

  /** Text that starts with a digit has no whitespace or sign to skip. */
  lemma UnsignedDigits(d: string)
    requires |d| > 0 && IsDigit(d[0])
    ensures TrimStart(d) == d && UnsignedPart(d) == d
  {
  }

  /** parseInt reads back what toString wrote. */
  lemma ParseDecimal(n: nat)
    ensures ParseInt(Decimal(n)) == Some(n)
  {
    ParseDigits(Decimal(n));
    DecimalValue(n);
  }

  // ---------------------------------------------------------------------
  // Array.prototype.filter / length-of-filter / reduce-sum / slice

  /** `s.filter(p)` */
  function Filter<T>(s: seq<T>, p: T -> bool): (r: seq<T>)
    ensures |r| <= |s|
    ensures forall i :: 0 <= i < |r| ==> r[i] in s && p(r[i])
    ensures forall i :: 0 <= i < |s| && p(s[i]) ==> s[i] in r
    decreases |s|
  {
    if s == [] then [] else (if p(s[0]) then [s[0]] else []) + Filter(s[1..], p)
  }

  /** `s.filter(p).length` */
  function Count<T>(s: seq<T>, p: T -> bool): (n: nat)
    ensures n <= |s|
  {
    |Filter(s, p)|
  }

  /** `s.reduce((sum, x) => sum + f(x), 0)` */
  function Sum<T>(s: seq<T>, f: T -> int): int
    decreases |s|
  {
    if s == [] then 0 else f(s[0]) + Sum(s[1..], f)
  }

  /** `s.slice(0, n)`, and `s.substring(0, n)` on text, for n >= 0. */
  function Take<T>(s: seq<T>, n: nat): (r: seq<T>)
    ensures |r| == if n < |s| then n else |s|
    ensures r == s[..|r|]
  {
    if n < |s| then s[..n] else s
  }

  /** `s.find(p)`: the first element that passes the test, if any. */
  function Find<T(==)>(s: seq<T>, p: T -> bool): (r: Option<T>)
    ensures r.None? <==> forall i :: 0 <= i < |s| ==> !p(s[i])
    ensures r.Some? ==> exists i :: 0 <= i < |s| && s[i] == r.value && p(s[i]) && forall j :: 0 <= j < i ==> !p(s[j])
    decreases |s|
  {
    if s == [] then None
    else if p(s[0]) then Some(s[0])
    else
      var r := Find(s[1..], p);
      if r.Some? then
        var i :| 0 <= i < |s[1..]| && s[1..][i] == r.value && p(s[1..][i]) && forall j :: 0 <= j < i ==> !p(s[1..][j]);
        assert s[i + 1] == r.value && forall j :: 0 <= j < i + 1 ==> !p(s[j]);
        r
      else r
  }

  /** r can be obtained from s by deleting elements (order kept). */
  predicate IsSubsequence<T(==)>(r: seq<T>, s: seq<T>)
    decreases |s|
  {
    if r == [] then true
    else if s == [] then false
    else if r[0] == s[0] then IsSubsequence(r[1..], s[1..])
    else IsSubsequence(r, s[1..])
  }

  lemma {:induction false} FilterIsSubsequence<T>(s: seq<T>, p: T -> bool)
    ensures IsSubsequence(Filter(s, p), s)
    decreases |s|
  {
    if s != [] {
      FilterIsSubsequence(s[1..], p);
      var r := Filter(s, p);
      if !p(s[0]) {
        assert r == Filter(s[1..], p);
        if r != [] {
          assert r[0] in r;
        }
      } else {
        assert r[1..] == Filter(s[1..], p);
      }
    }
  }

  /** Filtering with an always-true test changes nothing. */
  lemma {:induction false} FilterAll<T>(s: seq<T>, p: T -> bool)
    requires forall i :: 0 <= i < |s| ==> p(s[i])
    ensures Filter(s, p) == s
    decreases |s|
  {
    if s != [] {
      FilterAll(s[1..], p);
    }
  }

  /** Filtering with an always-false test leaves nothing. */
  lemma {:induction false} FilterNone<T>(s: seq<T>, p: T -> bool)
    requires forall i :: 0 <= i < |s| ==> !p(s[i])
    ensures Filter(s, p) == []
    decreases |s|
  {
    if s != [] {
      FilterNone(s[1..], p);
    }
  }

  /** Two tests that agree on every element select the same elements. */
  lemma {:induction false} FilterCongruent<T>(s: seq<T>, p: T -> bool, q: T -> bool)
    requires forall i :: 0 <= i < |s| ==> p(s[i]) == q(s[i])
    ensures Filter(s, p) == Filter(s, q)
    decreases |s|
  {
    if s != [] {
      FilterCongruent(s[1..], p, q);
    }
  }

  /** Every element passes exactly one of two complementary tests. */
  lemma {:induction false} CountComplement<T>(s: seq<T>, p: T -> bool, q: T -> bool)
    requires forall i :: 0 <= i < |s| ==> q(s[i]) == !p(s[i])
    ensures Count(s, p) + Count(s, q) == |s|
    decreases |s|
  {
    if s != [] {
      CountComplement(s[1..], p, q);
    }
  }

  /** Two tests that never both hold select, together, the elements that pass either. */
  lemma {:induction false} CountUnion<T>(s: seq<T>, p: T -> bool, q: T -> bool, either: T -> bool)
    requires forall i :: 0 <= i < |s| ==> !(p(s[i]) && q(s[i])) && either(s[i]) == (p(s[i]) || q(s[i]))
    ensures Count(s, p) + Count(s, q) == Count(s, either)
    decreases |s|
  {
    if s != [] {
      CountUnion(s[1..], p, q, either);
    }
  }

  /** Position by position, b passes the test only where a does: b has no more passing elements. */
  lemma {:induction false} CountMonotone<T>(a: seq<T>, b: seq<T>, p: T -> bool)
    requires |a| == |b|
    requires forall i :: 0 <= i < |b| && p(b[i]) ==> p(a[i])
    ensures Count(b, p) <= Count(a, p)
    decreases |a|
  {
    if a != [] {
      CountMonotone(a[1..], b[1..], p);
    }
  }

  lemma {:induction false} FilterAppend<T>(a: seq<T>, b: seq<T>, p: T -> bool)
    ensures Filter(a + b, p) == Filter(a, p) + Filter(b, p)
    decreases |a|
  {
    if a != [] {
      assert (a + b)[1..] == a[1..] + b;
      FilterAppend(a[1..], b, p);
    } else {
      assert a + b == b;
    }
  }

  lemma AppendAssociative<T>(x: seq<T>, y: seq<T>, z: seq<T>)
    ensures x + (y + z) == (x + y) + z
  {
  }

  lemma {:induction false} SumAppend<T>(a: seq<T>, b: seq<T>, f: T -> int)
    ensures Sum(a + b, f) == Sum(a, f) + Sum(b, f)
    decreases |a|
  {
    if a != [] {
      assert (a + b)[1..] == a[1..] + b;
      SumAppend(a[1..], b, f);
    } else {
      assert a + b == b;
    }
  }

  /** Summing a value over the elements that pass a test is summing it over the filtered list. */
  lemma {:induction false} SumOverFilter<T>(s: seq<T>, p: T -> bool, f: T -> int, g: T -> int)
    requires forall x :: g(x) == if p(x) then f(x) else 0
    ensures Sum(s, g) == Sum(Filter(s, p), f)
    decreases |s|
  {
    if s != [] {
      SumOverFilter(s[1..], p, f, g);
      var rest := Filter(s[1..], p);
      assert g(s[0]) == if p(s[0]) then f(s[0]) else 0;
      if p(s[0]) {
        assert Filter(s, p) == [s[0]] + rest;
        assert ([s[0]] + rest)[1..] == rest;
      } else {
        assert Filter(s, p) == rest;
      }
    }
  }
}

=== FILE: crypto_tools.dfy ===
/**
 * The Caesar cipher of the security toolkit
 * (project/src/components/CryptoTools.tsx): the shift read from the key,
 * per-letter encryption and decryption, and the two buttons that store a
 * result only when both the text and the key are filled in.
 *
 * Characters are compared and shifted by their code points, as
 * `charCodeAt` and `String.fromCharCode` do for ASCII letters.
 */
module CryptoTools {
  import opened Common

  /** The characters `/[a-zA-Z]/` matches. */
  predicate IsLetter(c: char) {
    'A' <= c <= 'Z' || 'a' <= c <= 'z'
  }

  predicate IsUpper(c: char) {
    'A' <= c <= 'Z'
  }

  /** `char <= 'Z' ? 65 : 97`: the code of the first letter of the character's case. */
  function Start(c: char): int {
    if c <= 'Z' then 65 else 97
  }

  /** `parseInt(key) || 1`: NaN and 0 both become a shift of 1. */
  function Shift(key: string): (k: int)
    ensures k != 0
    ensures ParseInt(key).Some? && ParseInt(key).value != 0 ==> k == ParseInt(key).value
    ensures ParseInt(key).None? || ParseInt(key).value == 0 ==> k == 1
  {
    var n := ParseInt(key);
    if n.None? || n.value == 0 then 1 else n.value
  }

  /**
   * JavaScript's `a % 26`: the remainder takes the sign of the dividend, and
   * differs from a by a multiple of 26.
   */
  function JsRem26(a: int): (r: int)
    ensures -26 < r < 26
    ensures a >= 0 ==> r == a % 26
    ensures a < 0 ==> r <= 0
    ensures (a - r) % 26 == 0
  {
    if a >= 0 then a % 26 else -((-a) % 26)
  }

  /** The character with code `(offset % 26) + start` for a remainder the source can produce. */
  function CharAt(start: int, offset: int): char
    requires start == 65 || start == 97
    requires -26 < offset < 26
  {
    (start + offset) as char
  }

  // -------------------------------------------------------------------
  // The cipher as written: JavaScript's remainder

  /** caesarEncrypt's callback as written. */
  function EncryptCharAsWritten(c: char, shift: int): char {
    if IsLetter(c) then CharAt(Start(c), JsRem26(c as int - Start(c) + shift)) else c
  }

  /** caesarDecrypt's callback as written. */
  function DecryptCharAsWritten(c: char, shift: int): char {
    if IsLetter(c) then CharAt(Start(c), JsRem26(c as int - Start(c) - shift + 26)) else c
  }

  function EncryptAsWritten(text: string, key: string): (r: string)
    ensures |r| == |text|
    ensures forall i :: 0 <= i < |text| ==> r[i] == EncryptCharAsWritten(text[i], Shift(key))
  {
    seq(|text|, i requires 0 <= i < |text| => EncryptCharAsWritten(text[i], Shift(key)))
  }

  function DecryptAsWritten(text: string, key: string): (r: string)
    ensures |r| == |text|
    ensures forall i :: 0 <= i < |text| ==> r[i] == DecryptCharAsWritten(text[i], Shift(key))
  {
    seq(|text|, i requires 0 <= i < |text| => DecryptCharAsWritten(text[i], Shift(key)))
  }

  lemma ShiftOfMinusOne()
    ensures Shift("-1") == -1
  {
    assert TrimStart("-1") == "-1";
    assert UnsignedPart("-1") == "1";
    assert DigitRun("1") == 1;
    assert "1"[..1] == "1";
  }

  lemma ShiftOfFiftyTwo()
    ensures Shift("52") == 52
  {
    assert Decimal(52) == Decimal(5) + [DigitChar(2)] == "52";
    ParseDecimal(52);
  }

  /** A one-character text encrypts and decrypts to the one character its callback gives. */
  lemma OneCharacter(c: char, key: string)
    ensures EncryptAsWritten([c], key) == [EncryptCharAsWritten(c, Shift(key))]
    ensures DecryptAsWritten([c], key) == [DecryptCharAsWritten(c, Shift(key))]
  {
  }

  /**
   * A negative key carries letters below the alphabet: with key "-1" the
   * letter 'a' encrypts to '`', which decryption then leaves alone.
   */
  lemma NegativeKeyLeavesAlphabet()
    ensures EncryptAsWritten("a", "-1") == "`"
    ensures DecryptAsWritten(EncryptAsWritten("a", "-1"), "-1") != "a"
  {
    ShiftOfMinusOne();
    NegativeShiftOfA(Shift("-1"));
    OneCharacter('a', "-1");
    OneCharacter('`', "-1");
  }

  lemma NegativeShiftOfA(k: int)
    requires k == -1
    ensures EncryptCharAsWritten('a', k) == '`'
    ensures DecryptCharAsWritten('`', k) == '`'
  {
  }

  /** A key of 52 or more breaks the round trip too: 'b' comes back as 'H'. */
  lemma LargeKeyBreaksRoundTrip()
    ensures EncryptAsWritten("b", "52") == "b"
    ensures DecryptAsWritten("b", "52") == "H"
  {
    ShiftOfFiftyTwo();
    LargeShiftOfB();
    OneCharacter('b', "52");
  }

  lemma LargeShiftOfB()
    ensures EncryptCharAsWritten('b', 52) == 'b'
    ensures DecryptCharAsWritten('b', 52) == 'H'
  {
    assert JsRem26(53) == 1;
    assert JsRem26(-25) == -25;
  }

  // -------------------------------------------------------------------
  // The cipher with a floor modulo, which keeps every letter in its alphabet

  /**
   * caesarEncrypt's callback with the remainder taken modulo 26: a letter
   * moved `shift` places round its own alphabet; every other character unchanged.
   */
  function ShiftChar(c: char, shift: int): (r: char)
    ensures !IsLetter(c) ==> r == c
    ensures IsLetter(c) ==> IsLetter(r) && (IsUpper(r) <==> IsUpper(c))
    ensures IsLetter(c) ==> (r as int - Start(c)) == (c as int - Start(c) + shift) % 26
  {
    if IsLetter(c) then CharAt(Start(c), (c as int - Start(c) + shift) % 26) else c
  }

  /** caesarDecrypt with the remainder taken modulo 26. */
  function DecryptChar(c: char, shift: int): (r: char)
    ensures r == ShiftChar(c, -shift)
  {
    if IsLetter(c) then CharAt(Start(c), (c as int - Start(c) - shift + 26) % 26) else c
  }

  function Encrypt(text: string, key: string): (r: string)
    ensures |r| == |text|
    ensures forall i :: 0 <= i < |text| ==> r[i] == ShiftChar(text[i], Shift(key))
  {
    seq(|text|, i requires 0 <= i < |text| => ShiftChar(text[i], Shift(key)))
  }

  function Decrypt(text: string, key: string): (r: string)
    ensures |r| == |text|
    ensures forall i :: 0 <= i < |text| ==> r[i] == ShiftChar(text[i], -Shift(key))
  {
    seq(|text|, i requires 0 <= i < |text| => DecryptChar(text[i], Shift(key)))
  }

  /** Moving forward and then back by the same amount restores the character. */
  lemma ShiftCharBack(c: char, shift: int)
    ensures ShiftChar(ShiftChar(c, shift), -shift) == c
  {
    if IsLetter(c) {
      var x := c as int - Start(c);
      var e := ShiftChar(c, shift);
      assert Start(e) == Start(c);
      assert (x + shift) % 26 - shift == x + 26 * (-((x + shift) / 26));
      ModShift(x, -((x + shift) / 26));
    }
  }

  lemma ModShift(x: int, q: int)
    requires 0 <= x < 26
    ensures (x + 26 * q) % 26 == x
  {
  }

  /** Decryption undoes encryption under the same key, whatever the key. */
  lemma RoundTrip(text: string, key: string)
    ensures Decrypt(Encrypt(text, key), key) == text
  {
    var e := Encrypt(text, key);
    var d := Decrypt(e, key);
    forall i | 0 <= i < |text|
      ensures d[i] == text[i]
    {
      ShiftCharBack(text[i], Shift(key));
    }
  }

  /** For the shifts the key field offers, and up to 26, the written cipher is this one. */
  lemma AsWrittenAgreesInRange(text: string, key: string)
    requires 1 <= Shift(key) <= 26
    ensures EncryptAsWritten(text, key) == Encrypt(text, key)
    ensures DecryptAsWritten(text, key) == Decrypt(text, key)
  {
    var k := Shift(key);
    forall i | 0 <= i < |text|
      ensures EncryptAsWritten(text, key)[i] == Encrypt(text, key)[i]
      ensures DecryptAsWritten(text, key)[i] == Decrypt(text, key)[i]
    {
      assert EncryptCharAsWritten(text[i], k) == ShiftChar(text[i], k);
      assert DecryptCharAsWritten(text[i], k) == DecryptChar(text[i], k);
    }
  }

  /** So the written cipher round-trips for shifts 1 to 26. */
  lemma AsWrittenRoundTripInRange(text: string, key: string)
    requires 1 <= Shift(key) <= 26
    ensures DecryptAsWritten(EncryptAsWritten(text, key), key) == text
  {
    AsWrittenAgreesInRange(text, key);
    AsWrittenAgreesInRange(Encrypt(text, key), key);
    RoundTrip(text, key);
  }

  /** The encryption and decryption panels. */
  class CaesarPanel {
    var encryptInput: string
    var encryptKey: string
    var encryptResult: string
    var decryptInput: string
    var decryptKey: string
    var decryptResult: string

    constructor()
      ensures encryptInput == "" && encryptKey == "" && encryptResult == ""
      ensures decryptInput == "" && decryptKey == "" && decryptResult == ""
    {
      encryptInput, encryptKey, encryptResult := "", "", "";
      decryptInput, decryptKey, decryptResult := "", "", "";
    }

    /** performEncrypt: nothing unless both the text and the key are filled in; the cipher as written. */
    method PerformEncrypt()
      modifies this
      ensures encryptInput == "" || encryptKey == "" ==> encryptResult == old(encryptResult)
      ensures encryptInput != "" && encryptKey != "" ==> encryptResult == EncryptAsWritten(encryptInput, encryptKey)
      ensures encryptInput == old(encryptInput) && encryptKey == old(encryptKey)
      ensures decryptInput == old(decryptInput) && decryptKey == old(decryptKey) && decryptResult == old(decryptResult)
    {
      if encryptInput == "" || encryptKey == "" {
        return;
      }
      encryptResult := EncryptAsWritten(encryptInput, encryptKey);
    }

    /** performDecrypt: nothing unless both the text and the key are filled in; the cipher as written. */
    method PerformDecrypt()
      modifies this
      ensures decryptInput == "" || decryptKey == "" ==> decryptResult == old(decryptResult)
      ensures decryptInput != "" && decryptKey != "" ==> decryptResult == DecryptAsWritten(decryptInput, decryptKey)
      ensures decryptInput == old(decryptInput) && decryptKey == old(decryptKey)
      ensures encryptInput == old(encryptInput) && encryptKey == old(encryptKey) && encryptResult == old(encryptResult)
    {
      if decryptInput == "" || decryptKey == "" {
        return;
      }
      decryptResult := DecryptAsWritten(decryptInput, decryptKey);
    }
  }
}

=== FILE: dashboard_cards.dfy ===
/**
 * The dashboard's figure cards `DashboardCards`
 * (src/components/Dashboard/DashboardCards.tsx): per-role statistics over
 * the marketplace lists, and the four cards each role sees.
 */
module DashboardCards {
  import opened Common
  import opened Domain

  /** The statistics object; `{}` is NoStats. The average freshness is not modelled. */
  datatype Stats =
    | NoStats
    | DonorStats(totalDonations: int, activeDonations: int, completedDonations: int, totalServed: int)
    | NgoStats(availableFood: int, pendingRequests: int, acceptedRequests: int, collectedMeals: int, totalServed: int)
    | AdminStats(totalUsers: int, totalDonations: int, activeDonations: int, totalServed: int)

  function Mine(ds: seq<Donation>, userId: string): seq<Donation> {
    Filter(ds, (d: Donation) => d.donorId == userId)
  }

  function MyRequests(qs: seq<DonationRequest>, userId: string): seq<DonationRequest> {
    Filter(qs, (q: DonationRequest) => q.ngoId == userId)
  }

  /** The collected quantity the donor reduce adds for one donation. */
  function ServedBy(d: Donation): int {
    if d.status == Collected then d.quantity else 0
  }

  /** The quantity the NGO reduce adds for one collected request: its donation's, or nothing when not found. */
  function ServedThrough(ds: seq<Donation>, q: DonationRequest): int {
    var found := Find(ds, (d: Donation) => d.id == q.donationId);
    if found.Some? then found.value.quantity else 0
  }

  predicate Listed(d: Donation) {
    d.status == Available
  }

  predicate Completed(d: Donation) {
    d.status == Collected
  }

  predicate Waiting(q: DonationRequest) {
    q.status == Pending
  }

  predicate Approved(q: DonationRequest) {
    q.status == Accepted
  }

  predicate Fetched(q: DonationRequest) {
    q.status == PickedUp
  }

  /**
   * The restaurant and society figures: every own donation, the available
   * ones, the collected ones, and the quantity of the collected ones.
   */
  function DonorStatsOf(mine: seq<Donation>): (s: Stats)
    ensures s.DonorStats? && s.totalDonations == |mine|
    ensures s.activeDonations == |Filter(mine, Listed)|
    ensures s.completedDonations == |Filter(mine, Completed)|
    ensures s.activeDonations + s.completedDonations <= s.totalDonations
    ensures s.totalServed == Sum(Filter(mine, (d: Donation) => d.status == Collected), (d: Donation) => d.quantity)
  {
    var active := Count(mine, Listed);
    var completed := Count(mine, Completed);
    CountUnion(mine, Listed, Completed, (d: Donation) => d.status == Available || d.status == Collected);
    SumOverFilter(mine, (d: Donation) => d.status == Collected, (d: Donation) => d.quantity, ServedBy);
    DonorStats(|mine|, active, completed, Sum(mine, ServedBy))
  }

  /**
   * The NGO figures: the available donations of the whole marketplace, the
   * NGO's pending, accepted and collected requests, and the quantity of the
   * donations behind the collected ones.
   */
  function NgoStatsOf(ds: seq<Donation>, mine: seq<DonationRequest>): (s: Stats)
    ensures s.NgoStats? && s.availableFood == |Filter(ds, Listed)|
    ensures s.pendingRequests == |Filter(mine, Waiting)|
    ensures s.acceptedRequests == |Filter(mine, Approved)|
    ensures s.collectedMeals == |Filter(mine, Fetched)|
    ensures s.pendingRequests + s.acceptedRequests + s.collectedMeals <= |mine|
    ensures s.totalServed == Sum(Filter(mine, Fetched), (q: DonationRequest) => ServedThrough(ds, q))
  {
    var pending := Count(mine, Waiting);
    var accepted := Count(mine, Approved);
    var collected := Filter(mine, Fetched);
    CountUnion(mine, Waiting, Approved, (q: DonationRequest) => q.status == Pending || q.status == Accepted);
    CountUnion(mine, (q: DonationRequest) => q.status == Pending || q.status == Accepted, Fetched,
               (q: DonationRequest) => q.status == Pending || q.status == Accepted || q.status == PickedUp);
    NgoStats(Count(ds, Listed), pending, accepted, |collected|,
             Sum(collected, (q: DonationRequest) => ServedThrough(ds, q)))
  }

  /** getStats: `{}` without a user or profile, otherwise the figures of the profile's role. */
  function GetStats(user: Option<AuthUser>, profile: Option<Profile>, ds: seq<Donation>,
                    qs: seq<DonationRequest>, analytics: Analytics): (s: Stats)
    ensures user.None? || profile.None? <==> s == NoStats
    ensures user.Some? && profile.Some? && profile.value.role.IsDonor() ==>
      s == DonorStatsOf(Mine(ds, user.value.id))
    ensures user.Some? && profile.Some? && profile.value.role == Ngo ==>
      s == NgoStatsOf(ds, MyRequests(qs, user.value.id))
    ensures user.Some? && profile.Some? && profile.value.role == Admin ==>
      s == AdminStats(analytics.totalUsers, analytics.totalDonations, analytics.activeDonations, analytics.totalRequests)
  {
    if user.None? || profile.None? then NoStats
    else match profile.value.role
      case Restaurant => DonorStatsOf(Mine(ds, user.value.id))
      case Society => DonorStatsOf(Mine(ds, user.value.id))
      case Ngo => NgoStatsOf(ds, MyRequests(qs, user.value.id))
      case Admin => AdminStats(analytics.totalUsers, analytics.totalDonations, analytics.activeDonations, analytics.totalRequests)
  }

  /** A card's title and figure; the donors' freshness percentage carries no figure here. */
  datatype Card = Card(title: string, value: Option<int>)

  /** The figures a card can name; which of them a statistics object carries depends on its kind. */
  datatype Figure = TotalDonations | ActiveDonations | TotalServed | AvailableFood | PendingRequests | AcceptedRequests | TotalUsers

  /** `stats.<figure>`: present only in the kinds of statistics that have that field. */
  function FieldOf(s: Stats, f: Figure): Option<int> {
    match f
    case TotalDonations => if s.DonorStats? || s.AdminStats? then Some(s.totalDonations) else None
    case ActiveDonations => if s.DonorStats? || s.AdminStats? then Some(s.activeDonations) else None
    case TotalServed => if s.NoStats? then None else Some(s.totalServed)
    case AvailableFood => if s.NgoStats? then Some(s.availableFood) else None
    case PendingRequests => if s.NgoStats? then Some(s.pendingRequests) else None
    case AcceptedRequests => if s.NgoStats? then Some(s.acceptedRequests) else None
    case TotalUsers => if s.AdminStats? then Some(s.totalUsers) else None
  }

  /** The card is titled `title` and shows `stats.<figure> || 0`. */
  predicate Shows(card: Card, title: string, s: Stats, f: Figure) {
    card.title == title && card.value.Some?
    && (FieldOf(s, f).Some? ==> card.value.value == FieldOf(s, f).value)
    && (FieldOf(s, f).None? ==> card.value.value == 0)
  }

  /** A card with the figure `stats.<figure> || 0`. */
  function FigureCard(title: string, s: Stats, f: Figure): Card {
    Card(title, Some(FieldOf(s, f).GetOr(0)))
  }

  /**
   * getCards: four cards for each of the four roles, none without a profile;
   * each card shows its figure, and a figure the statistics lack
   * (`stats.x || 0`) shows as 0.
   */
  function GetCards(role: Option<Role>, s: Stats): (cards: seq<Card>)
    ensures role.None? <==> cards == []
    ensures role.Some? ==> |cards| == 4
    ensures role.Some? && role.value.IsDonor() ==>
      Shows(cards[0], "Total Donations", s, TotalDonations) && Shows(cards[1], "Active Listings", s, ActiveDonations)
      && Shows(cards[2], "People Served", s, TotalServed) && cards[3] == Card("Avg. Freshness", None)
    ensures role == Some(Ngo) ==>
      Shows(cards[0], "Available Food", s, AvailableFood) && Shows(cards[1], "Pending Requests", s, PendingRequests)
      && Shows(cards[2], "Accepted Today", s, AcceptedRequests) && Shows(cards[3], "Total Served", s, TotalServed)
    ensures role == Some(Admin) ==>
      Shows(cards[0], "Total Users", s, TotalUsers) && Shows(cards[1], "Total Donations", s, TotalDonations)
      && Shows(cards[2], "Active Today", s, ActiveDonations) && Shows(cards[3], "People Fed", s, TotalServed)
    ensures role.Some? && role.value.IsDonor() && s.DonorStats? ==>
      cards[0].value == Some(s.totalDonations) && cards[1].value == Some(s.activeDonations)
      && cards[2].value == Some(s.totalServed)
    ensures role == Some(Ngo) && s.NgoStats? ==>
      cards[0].value == Some(s.availableFood) && cards[1].value == Some(s.pendingRequests)
      && cards[2].value == Some(s.acceptedRequests) && cards[3].value == Some(s.totalServed)
    ensures role == Some(Admin) && s.AdminStats? ==>
      cards[0].value == Some(s.totalUsers) && cards[1].value == Some(s.totalDonations)
      && cards[2].value == Some(s.activeDonations) && cards[3].value == Some(s.totalServed)
    ensures role.Some? && s == NoStats ==> forall i :: 0 <= i < |cards| ==> cards[i].value.None? || cards[i].value == Some(0)
  {
    if role.None? then []
    else match role.value
      case Restaurant => DonorCards(s)
      case Society => DonorCards(s)
      case Ngo => [
        FigureCard("Available Food", s, AvailableFood),
        FigureCard("Pending Requests", s, PendingRequests),
        FigureCard("Accepted Today", s, AcceptedRequests),
        FigureCard("Total Served", s, TotalServed)]
      case Admin => [
        FigureCard("Total Users", s, TotalUsers),
        FigureCard("Total Donations", s, TotalDonations),
        FigureCard("Active Today", s, ActiveDonations),
        FigureCard("People Fed", s, TotalServed)]
  }

  function DonorCards(s: Stats): seq<Card> {
    [FigureCard("Total Donations", s, TotalDonations),
     FigureCard("Active Listings", s, ActiveDonations),
     FigureCard("People Served", s, TotalServed),
     Card("Avg. Freshness", None)]
  }

  /** An admin's "People Fed" card shows the number of requests, not a quantity of food. */
  lemma AdminPeopleFedIsRequestCount(user: AuthUser, profile: Profile, ds: seq<Donation>,
                                     qs: seq<DonationRequest>, analytics: Analytics)
    requires profile.role == Admin
    ensures GetCards(Some(Admin), GetStats(Some(user), Some(profile), ds, qs, analytics))[3]
         == Card("People Fed", Some(analytics.totalRequests))
  {
  }

  /** A donor's "People Served" card adds up the quantities of its own collected donations only. */
  lemma DonorServedIsOwnCollected(user: AuthUser, profile: Profile, ds: seq<Donation>,
                                  qs: seq<DonationRequest>, analytics: Analytics)
    requires profile.role.IsDonor()
    ensures GetCards(Some(profile.role), GetStats(Some(user), Some(profile), ds, qs, analytics))[2].value
         == Some(Sum(Filter(Mine(ds, user.id), (d: Donation) => d.status == Collected), (d: Donation) => d.quantity))
  {
  }

  /**
   * An NGO's first three cards count the available donations of the whole
   * marketplace and its own pending and accepted requests; "Accepted Today"
   * counts every accepted request, whatever its date.
   */
  lemma NgoCardsCountRequests(user: AuthUser, profile: Profile, ds: seq<Donation>,
                              qs: seq<DonationRequest>, analytics: Analytics)
    requires profile.role == Ngo
    ensures var cards := GetCards(Some(Ngo), GetStats(Some(user), Some(profile), ds, qs, analytics));
      cards[0].value == Some(|Filter(ds, Listed)|)
      && cards[1].value == Some(|Filter(MyRequests(qs, user.id), Waiting)|)
      && cards[2].value == Some(|Filter(MyRequests(qs, user.id), Approved)|)
  {
  }
}

=== FILE: domain.dfy ===
/**
 * Records shared by several components: the four account roles, the
 * database rows for donations, donation requests, notifications and
 * profiles, the authentication user, and the client-side `User` and
 * `FoodDonation` shapes the chat assistant works on.
 *
 * Timestamps are whole minutes; latitude and longitude are reals that no
 * model computes with.
 */
module Domain {
  import opened Common

  datatype Role = Restaurant | Society | Ngo | Admin {
    /** Restaurants and residential societies are the donating roles. */
    predicate IsDonor() {
      this == Restaurant || this == Society
    }

    /** The role's text, as stored in the `role` column. */
    function Name(): string {
      match this
      case Restaurant => "restaurant"
      case Society => "society"
      case Ngo => "ngo"
      case Admin => "admin"
    }
  }

  /** The role with the given text, if it is one of the four. */
  function RoleNamed(s: string): (r: Option<Role>)
    ensures r.Some? ==> r.value.Name() == s
    ensures r.None? ==> forall q: Role :: q.Name() != s
  {
    if s == "restaurant" then Some(Restaurant)
    else if s == "society" then Some(Society)
    else if s == "ngo" then Some(Ngo)
    else if s == "admin" then Some(Admin)
    else None
  }

  /** Who wrote a chat message. */
  datatype Sender = UserSender | BotSender | SupportSender

  datatype FoodType = Meals | Bakery | Fruits | Vegetables | Dairy | Other

  datatype DonationStatus = Available | Reserved | Collected | Expired | Cancelled

  /** A request's status; the `collected` state is written PickedUp to keep it apart from the donation's. */
  datatype RequestStatus = Pending | Accepted | Rejected | PickedUp

  /** A row of the `profiles` table (the fields the components read). */
  datatype Profile = Profile(id: string, email: string, name: string, role: Role, verified: bool)

  /** A row of the `food_donations` table, with the joined donor profile. */
  datatype Donation = Donation(
    id: string,
    donorId: string,
    userId: string,
    foodName: string,
    foodType: FoodType,
    quantity: int,
    unit: string,
    description: string,
    imageUrl: Option<string>,
    freshnessScore: int,
    expiryTime: int,
    status: DonationStatus,
    pickupInstructions: Option<string>,
    dietaryInfo: Option<seq<string>>,
    allergenInfo: Option<seq<string>>,
    createdAt: int,
    donor: Option<Profile>)

  /** A row of the `donation_requests` table, with the joined donation and NGO profile. */
  datatype DonationRequest = DonationRequest(
    id: string,
    donationId: string,
    ngoId: string,
    status: RequestStatus,
    message: Option<string>,
    requestedQuantity: Option<int>,
    createdAt: int,
    donation: Option<Donation>,
    ngo: Option<Profile>)

  /** A row of the `notifications` table. */
  datatype Notification = Notification(id: string, userId: string, title: string, message: string, read: bool, createdAt: int)

  /** The authentication provider's user: `role` is the provider's own role text. */
  datatype AuthUser = AuthUser(
    id: string,
    email: Option<string>,
    role: Option<string>,
    metadata: Option<UserMetadata>,
    createdAt: Option<string>)

  datatype UserMetadata = UserMetadata(
    name: Option<string>,
    location: Option<LocationMetadata>,
    verified: Option<bool>,
    phone: Option<string>)

  datatype LocationMetadata = LocationMetadata(lat: Option<real>, lng: Option<real>, address: Option<string>)

  datatype Location = Location(lat: real, lng: real, address: string)

  /** The client-side `User` record the chat assistant reasons about. */
  datatype User = User(
    id: string,
    name: string,
    email: string,
    phone: string,
    role: Role,
    location: Location,
    verified: bool,
    createdAt: string)

  /** The client-side `FoodDonation` record the chat assistant reasons about. */
  datatype ChatDonation = ChatDonation(
    id: string,
    userId: string,
    userName: string,
    foodName: string,
    foodType: FoodType,
    quantity: int,
    status: DonationStatus,
    expiryTime: int,
    createdAt: int)

  /** Figures fetched for the admin dashboard. */
  datatype Analytics = Analytics(totalUsers: int, totalDonations: int, activeDonations: int, totalRequests: int)
}

=== FILE: food_card.dfy ===
/**
 * The donation card (src/components/Food/FoodCard.tsx): who may request
 * the food, who sees the owner controls, the freshness colour, the
 * time-left label and the request record handed to `addRequest`.
 *
 * The clock is a parameter: `diffMs` is the expiry time minus the current
 * time, in milliseconds.
 */
module FoodCard {
  import opened Common
  import opened Domain

  /** `user?.id === donation.donor_id`: no signed-in user owns nothing. */
  predicate IsOwner(user: Option<AuthUser>, d: Donation) {
    user.Some? && user.value.id == d.donorId
  }

  /** canRequest: an NGO looking at an available donation it does not own. */
  function CanRequest(user: Option<AuthUser>, profile: Option<Profile>, d: Donation): (r: bool)
    ensures r ==> profile.Some? && profile.value.role == Ngo
    ensures r ==> d.status == Available && !IsOwner(user, d)
    ensures profile.Some? && profile.value.role == Ngo && d.status == Available && user.None? ==> r
  {
    profile.Some? && profile.value.role == Ngo && d.status == Available && !IsOwner(user, d)
  }

  /** The buttons of the card's action row. */
  datatype Actions = Actions(request: bool, viewDetails: bool, editAndDelete: bool, adminDetails: bool)

  const NoActions := Actions(false, false, false, false)

  /**
   * The action row: the request button when the viewer can request, a
   * details button for an NGO that cannot, edit and delete for the owner of
   * an available donation, and a details icon for an admin; nothing when
   * actions are hidden.
   */
  function CardActions(showActions: bool, user: Option<AuthUser>, profile: Option<Profile>, d: Donation): (a: Actions)
    ensures !showActions ==> a == NoActions
    ensures a.editAndDelete ==> IsOwner(user, d) && d.status == Available
    ensures !(a.request && a.editAndDelete)
    ensures showActions && profile.Some? && profile.value.role == Ngo ==> a.request != a.viewDetails
    ensures a.request ==> profile.Some? && profile.value.role == Ngo
    ensures a.adminDetails <==> showActions && profile.Some? && profile.value.role == Admin
    ensures a.request <==> showActions && CanRequest(user, profile, d)
    ensures a.viewDetails <==> showActions && profile.Some? && profile.value.role == Ngo && !CanRequest(user, profile, d)
    ensures a.editAndDelete <==> showActions && IsOwner(user, d) && d.status == Available
  {
    if !showActions then NoActions
    else
      var canRequest := CanRequest(user, profile, d);
      var ngo := profile.Some? && profile.value.role == Ngo;
      Actions(canRequest, ngo && !canRequest, IsOwner(user, d) && d.status == Available,
              profile.Some? && profile.value.role == Admin)
  }

  /** Nobody is offered both the request button and the owner controls on one card. */
  lemma NeverOwnerAndRequester(user: Option<AuthUser>, profile: Option<Profile>, d: Donation)
    ensures !(CanRequest(user, profile, d) && IsOwner(user, d))
  {
  }

  /** getFreshnessColor, in increasing order of freshness. */
  datatype FreshnessTone = RedTone | OrangeTone | YellowTone | GreenTone {
    function Rank(): nat {
      match this
      case RedTone => 0
      case OrangeTone => 1
      case YellowTone => 2
      case GreenTone => 3
    }
  }

  function FreshnessColor(score: int): (t: FreshnessTone)
    ensures t == GreenTone <==> score >= 90
    ensures t == YellowTone <==> 80 <= score < 90
    ensures t == OrangeTone <==> 70 <= score < 80
    ensures t == RedTone <==> score < 70
  {
    if score >= 90 then GreenTone
    else if score >= 80 then YellowTone
    else if score >= 70 then OrangeTone
    else RedTone
  }

  /** A fresher score never gets a colour lower on the scale. */
  lemma FreshnessColorMonotone(a: int, b: int)
    requires a <= b
    ensures FreshnessColor(a).Rank() <= FreshnessColor(b).Rank()
  {
  }

  /** The label of getTimeRemaining. */
  datatype Remaining = ExpiredLabel | MinutesLeft(minutes: int) | HoursLeft(hours: int) | DaysLeft(days: int)

  function TimeRemaining(diffMs: int): (r: Remaining)
    ensures var m := diffMs / 60000;
      (r.ExpiredLabel? <==> m <= 0)
      && (r.MinutesLeft? <==> 0 < m < 60) && (r.MinutesLeft? ==> r.minutes == m)
      && (r.HoursLeft? <==> 60 <= m < 1440) && (r.HoursLeft? ==> 1 <= r.hours <= 23 && r.hours * 60 <= m < (r.hours + 1) * 60)
      && (r.DaysLeft? ==> 1 <= r.days && r.days * 1440 <= m < (r.days + 1) * 1440)
  {
    // Math.floor of a quotient by a positive divisor is Euclidean division
    var m := diffMs / 60000;
    if m <= 0 then ExpiredLabel
    else if m < 60 then MinutesLeft(m)
    else if m < 1440 then HoursLeft(m / 60)
    else DaysLeft(m / 1440)
  }

  function RemainingText(r: Remaining): string {
    match r
    case ExpiredLabel => "Expired"
    case MinutesLeft(n) => IntText(n) + "m left"
    case HoursLeft(n) => IntText(n) + "h left"
    case DaysLeft(n) => IntText(n) + "d left"
  }

  /** A later expiry never shows a shorter label: the bucket order follows the time left. */
  lemma TimeRemainingMonotone(a: int, b: int)
    requires a <= b
    ensures TimeRemaining(a).ExpiredLabel? || !TimeRemaining(b).ExpiredLabel?
    ensures TimeRemaining(b).MinutesLeft? ==> TimeRemaining(a).ExpiredLabel? || TimeRemaining(a).MinutesLeft?
    ensures TimeRemaining(a).DaysLeft? ==> TimeRemaining(b).DaysLeft?
  {
  }

  /** The request row handleRequest passes to addRequest. */
  datatype RequestDraft = RequestDraft(ngoId: string, donationId: string, status: RequestStatus, message: string, requestedQuantity: int)

  /** handleRequest: nothing without a user and a profile. */
  function RequestFor(user: Option<AuthUser>, profile: Option<Profile>, d: Donation): (r: Option<RequestDraft>)
    ensures r.None? <==> user.None? || profile.None?
    ensures r.Some? ==> r.value.status == Pending && r.value.ngoId == user.value.id
    ensures r.Some? ==> r.value.donationId == d.id && r.value.requestedQuantity == d.quantity
    ensures r.Some? ==> r.value.message == "Request from " + profile.value.name
  {
    if user.None? || profile.None? then None
    else Some(RequestDraft(user.value.id, d.id, Pending, "Request from " + profile.value.name, d.quantity))
  }

  /** A request made through the button is a pending request for someone else's donation. */
  lemma RequestIsForSomeoneElsesFood(user: Option<AuthUser>, profile: Option<Profile>, d: Donation)
    requires CanRequest(user, profile, d) && user.Some?
    ensures RequestFor(user, profile, d).Some?
    ensures RequestFor(user, profile, d).value.ngoId != d.donorId
    ensures RequestFor(user, profile, d).value.status == Pending
  {
  }
}

=== FILE: legacy_chatbot.dfy ===
/**
 * The floating chat widget `ChatBot` (src/components/Chat/ChatBot.tsx): its
 * own keyword analysis (emergency flag, last-match-wins category, priority
 * overrides), its canned replies, support tickets and the hand-over to live
 * support.
 *
 * The signed-in user and the donation rows are parameters of each call;
 * `now` is the clock reading of the call. The timers that delay the typing
 * indicator and the reply are immediate steps; the live agent's greeting,
 * which a timer posts after the hand-over, is its own method.
 */
module LegacyChatBot {
  import opened Common
  import opened Domain

  // ---------------------------------------------------------------------
  // analyzeUserIntent

  datatype Topic = GeneralTopic | FoodManagementTopic | AccountTopic | BillingTopic | TechnicalTopic | NgoSupportTopic

  datatype Analysis = Analysis(category: Topic, priority: Priority, isEmergency: bool)

  const EmergencyWords: seq<string> := ["urgent", "emergency", "help", "problem", "issue", "broken", "error", "bug"]

  /** The category checks, in the order they run; a later match overwrites an earlier one. */
  const TopicRules: seq<(Topic, seq<string>)> := [
    (FoodManagementTopic, ["food", "donation"]),
    (AccountTopic, ["account", "profile"]),
    (BillingTopic, ["payment", "billing"]),
    (TechnicalTopic, ["technical", "bug"]),
    (NgoSupportTopic, ["ngo", "request"])
  ]

  const HighWords: seq<string> := ["asap", "immediately"]
  const LowWords: seq<string> := ["when possible", "no rush"]

  /** The label of the last rule, in order, with a keyword in the message. */
  function LastMatch<L>(rules: seq<(L, seq<string>)>, message: string, fallback: L): L
    decreases |rules|
  {
    if rules == [] then fallback
    else if AnyContained(message, rules[|rules| - 1].1) then rules[|rules| - 1].0
    else LastMatch(rules[..|rules| - 1], message, fallback)
  }

  /** Last match wins: the latest matching rule decides, whatever matched before it. */
  lemma {:induction false} LastMatchIsLatest<L>(rules: seq<(L, seq<string>)>, message: string, fallback: L, i: nat)
    requires i < |rules| && AnyContained(message, rules[i].1)
    requires forall j :: i < j < |rules| ==> !AnyContained(message, rules[j].1)
    ensures LastMatch(rules, message, fallback) == rules[i].0
    decreases |rules|
  {
    if i < |rules| - 1 {
      assert !AnyContained(message, rules[|rules| - 1].1);
      LastMatchIsLatest(rules[..|rules| - 1], message, fallback, i);
    }
  }

  lemma {:induction false} LastMatchNone<L>(rules: seq<(L, seq<string>)>, message: string, fallback: L)
    requires forall j :: 0 <= j < |rules| ==> !AnyContained(message, rules[j].1)
    ensures LastMatch(rules, message, fallback) == fallback
    decreases |rules|
  {
    if rules != [] {
      assert !AnyContained(message, rules[|rules| - 1].1);
      LastMatchNone(rules[..|rules| - 1], message, fallback);
    }
  }

  /** The priority the overrides settle on: the last applicable override wins. */
  function PriorityOf(lower: string): Priority {
    if AnyContained(lower, LowWords) then Low
    else if AnyContained(lower, HighWords) then High
    else if AnyContained(lower, EmergencyWords) then Urgent
    else Medium
  }

  /** A two-keyword list matches exactly when one of its two keywords occurs. */
  lemma PairContained(message: string, keywords: seq<string>)
    requires |keywords| == 2
    ensures AnyContained(message, keywords) <==> Contains(message, keywords[0]) || Contains(message, keywords[1])
  {
    if Contains(message, keywords[0]) {
      assert Contains(message, keywords[0]);
    }
    if Contains(message, keywords[1]) {
      assert Contains(message, keywords[1]);
    }
  }

  lemma TakeAll<T>(s: seq<T>)
    ensures s[..|s|] == s
  {
  }

  /** One more rule seen: the later rule overrides when it matches. */
  lemma {:induction false} LastMatchStep<L>(rules: seq<(L, seq<string>)>, message: string, fallback: L, k: nat)
    requires k < |rules|
    ensures LastMatch(rules[..k + 1], message, fallback)
         == if AnyContained(message, rules[k].1) then rules[k].0 else LastMatch(rules[..k], message, fallback)
  {
    assert rules[..k + 1][..k] == rules[..k];
  }

  /** The category table, rule by rule. */
  lemma TopicTable()
    ensures |TopicRules| == 5
    ensures TopicRules[0] == (FoodManagementTopic, ["food", "donation"])
    ensures TopicRules[1] == (AccountTopic, ["account", "profile"])
    ensures TopicRules[2] == (BillingTopic, ["payment", "billing"])
    ensures TopicRules[3] == (TechnicalTopic, ["technical", "bug"])
    ensures TopicRules[4] == (NgoSupportTopic, ["ngo", "request"])
  {
  }

  /** The k-th category check of analyzeUserIntent extends the last match by one rule. */
  lemma TopicStep(lower: string, k: nat, topic: Topic, w0: string, w1: string, before: Topic, after: Topic)
    requires k < |TopicRules| && TopicRules[k] == (topic, [w0, w1])
    requires before == LastMatch(TopicRules[..k], lower, GeneralTopic)
    requires after == if Contains(lower, w0) || Contains(lower, w1) then topic else before
    ensures after == LastMatch(TopicRules[..k + 1], lower, GeneralTopic)
  {
    PairContained(lower, TopicRules[k].1);
    LastMatchStep(TopicRules, lower, GeneralTopic, k);
  }

  /** analyzeUserIntent: three reassignments in sequence, each overriding the last. */
  method AnalyzeUserIntent(message: string) returns (a: Analysis)
    ensures a.isEmergency <==> AnyContained(Lower(message), EmergencyWords)
    ensures a.category == LastMatch(TopicRules, Lower(message), GeneralTopic)
    ensures a.priority == PriorityOf(Lower(message))
  {
    var lower := Lower(message);
    var isEmergency := AnyContained(lower, EmergencyWords);
    var category := TopicOf(lower);
    var priority := PriorityOverrides(lower, isEmergency);
    a := Analysis(category, priority, isEmergency);
  }

  /** The five category checks of analyzeUserIntent, in order. */
  method TopicOf(lower: string) returns (category: Topic)
    ensures category == LastMatch(TopicRules, lower, GeneralTopic)
  {
    TopicTable();
    category := GeneralTopic;
    var before := category;
    if Contains(lower, "food") || Contains(lower, "donation") { category := FoodManagementTopic; }
    TopicStep(lower, 0, FoodManagementTopic, "food", "donation", before, category);
    before := category;
    if Contains(lower, "account") || Contains(lower, "profile") { category := AccountTopic; }
    TopicStep(lower, 1, AccountTopic, "account", "profile", before, category);
    before := category;
    if Contains(lower, "payment") || Contains(lower, "billing") { category := BillingTopic; }
    TopicStep(lower, 2, BillingTopic, "payment", "billing", before, category);
    before := category;
    if Contains(lower, "technical") || Contains(lower, "bug") { category := TechnicalTopic; }
    TopicStep(lower, 3, TechnicalTopic, "technical", "bug", before, category);
    before := category;
    if Contains(lower, "ngo") || Contains(lower, "request") { category := NgoSupportTopic; }
    TopicStep(lower, 4, NgoSupportTopic, "ngo", "request", before, category);
    TakeAll(TopicRules);
  }

  /** The priority checks of analyzeUserIntent, each overriding the one before. */
  method PriorityOverrides(lower: string, isEmergency: bool) returns (priority: Priority)
    requires isEmergency <==> AnyContained(lower, EmergencyWords)
    ensures priority == PriorityOf(lower)
  {
    priority := Medium;
    if isEmergency { priority := Urgent; }
    if Contains(lower, "asap") || Contains(lower, "immediately") { priority := High; }
    if Contains(lower, "when possible") || Contains(lower, "no rush") { priority := Low; }
    PairContained(lower, HighWords);
    PairContained(lower, LowWords);
  }

  /** A message can be flagged an emergency and still get priority `low`. */
  lemma EmergencyCanBeLowPriority()
    ensures AnyContained(Lower("help, no rush"), EmergencyWords)
    ensures PriorityOf(Lower("help, no rush")) == Low
  {
    var lower := Lower("help, no rush");
    assert lower == "help, no rush";
    ContainsAt(lower, "help", 0);
    assert EmergencyWords[2] == "help";
    ContainsAt(lower, "no rush", 6);
    assert LowWords[1] == "no rush";
  }

  /** Priority `urgent` comes only from the emergency flag. */
  lemma UrgentOnlyFromEmergency(lower: string)
    ensures PriorityOf(lower) == Urgent ==> AnyContained(lower, EmergencyWords)
  {
  }

  // ---------------------------------------------------------------------
  // generateContextualResponse

  /** getUserStats over the widget's inputs, switching on the user's role text. */
  datatype Figures =
    | DonorFigures(totalDonations: int, activeDonations: int, totalServed: int)
    | NgoFigures(availableFood: int, pendingRequests: int, totalServed: int)
    | NoFigures

  predicate IsAvailable(d: Donation) {
    d.status == Available
  }

  predicate IsCollected(d: Donation) {
    d.status == Collected
  }

  function Quantity(d: Donation): int {
    d.quantity
  }

  /** The reduce step of totalServed: a collected row adds its quantity. */
  function CollectedQuantity(d: Donation): int {
    if d.status == Collected then d.quantity else 0
  }

  function RoleText(u: AuthUser): string {
    u.role.GetOr("")
  }

  predicate IsDonorText(role: string) {
    role == "restaurant" || role == "society"
  }

  /** `donations.filter(d => d.userId === id)` */
  function OwnDonations(donations: seq<Donation>, id: string): seq<Donation> {
    Filter(donations, (d: Donation) => d.userId == id)
  }

  /**
   * getUserStats: a restaurant or society gets figures over its own rows, an
   * NGO the available count over all rows, anyone else nothing.
   */
  function UserFigures(user: Option<AuthUser>, donations: seq<Donation>): (f: Figures)
    ensures user.None? ==> f == NoFigures
    ensures f.DonorFigures? <==> user.Some? && IsDonorText(RoleText(user.value))
    ensures f.NgoFigures? <==> user.Some? && RoleText(user.value) == "ngo"
    ensures user.Some? && IsDonorText(RoleText(user.value)) ==>
      var mine := OwnDonations(donations, user.value.id);
      f.totalDonations == |mine|
      && f.activeDonations == |Filter(mine, IsAvailable)| <= f.totalDonations
      && f.totalServed == Sum(Filter(mine, IsCollected), Quantity)
    ensures f.NgoFigures? ==> f == NgoFigures(Count(donations, IsAvailable), 0, 0)
  {
    if user.None? then NoFigures
    else
      var u := user.value;
      if IsDonorText(RoleText(u)) then
        var mine := OwnDonations(donations, u.id);
        SumOverFilter(mine, IsCollected, Quantity, CollectedQuantity);
        DonorFigures(|mine|, Count(mine, IsAvailable), Sum(mine, CollectedQuantity))
      else if RoleText(u) == "ngo" then
        NgoFigures(Count(donations, IsAvailable), 0, 0)
      else NoFigures
  }

  /** Which canned reply answered, with the values it interpolates. */
  datatype Reply =
    | EmergencyReply
    | DonationHelpReply(figures: Figures)
    | FoodSearchReply(figures: Figures)
    | HowItWorksReply
    | AccountHelpReply
    | GenericReply(echo: string, signedInAs: Option<(Option<string>, Option<string>)>, foodManagementLine: bool, highPriorityLine: bool)

  /** generateContextualResponse: the first applicable reply, in source order. */
  function ContextualReply(user: Option<AuthUser>, donations: seq<Donation>, userMessage: string): Reply {
    var lower := Lower(userMessage);
    var category := LastMatch(TopicRules, lower, GeneralTopic);
    var priority := PriorityOf(lower);
    if AnyContained(lower, EmergencyWords) then EmergencyReply
    else if user.Some? && Contains(lower, "donation") && IsDonorText(RoleText(user.value)) then
      DonationHelpReply(UserFigures(user, donations))
    else if user.Some? && Contains(lower, "food") && RoleText(user.value) == "ngo" then
      FoodSearchReply(UserFigures(user, donations))
    else if Contains(lower, "how") && Contains(lower, "work") then HowItWorksReply
    else if Contains(lower, "account") || Contains(lower, "profile") then AccountHelpReply
    else
      GenericReply(
        userMessage,
        if user.Some? then Some((user.value.email, user.value.role)) else None,
        user.Some? && category == FoodManagementTopic,
        priority == Urgent)
  }

  /**
   * The reply precedence: emergency first, then the donor and NGO replies
   * (which carry that role's figures), then how-it-works, then account help;
   * the generic reply echoes the message as typed and never shows its
   * "high priority" line, because an urgent message has already been
   * answered by the emergency reply.
   */
  lemma ReplyPrecedence(user: Option<AuthUser>, donations: seq<Donation>, userMessage: string)
    ensures var r := ContextualReply(user, donations, userMessage);
      var lower := Lower(userMessage);
      (r == EmergencyReply <==> AnyContained(lower, EmergencyWords))
      && (r.DonationHelpReply? ==> r.figures.DonorFigures?)
      && (r.FoodSearchReply? ==> r.figures.NgoFigures?)
      && (r.GenericReply? ==> r.echo == userMessage && !r.highPriorityLine)
      && (r == HowItWorksReply ==> Contains(lower, "how") && Contains(lower, "work"))
  {
  }

  // ---------------------------------------------------------------------
  // Tickets and the widget's state

  datatype TicketStatus = Open | InProgress | Resolved | Closed

  datatype Ticket = Ticket(id: string, userId: string, subject: string, status: TicketStatus,
                           priority: Priority, category: Topic, messageCount: nat, createdAt: nat, updatedAt: nat)

  /** `message.substring(0, 50) + (message.length > 50 ? '...' : '')` */
  function Subject(message: string): (s: string)
    ensures |message| <= 50 ==> s == message
    ensures |message| > 50 ==> |s| == 53 && s[..50] == message[..50] && s[50..] == "..."
  {
    Take(message, 50) + (if |message| > 50 then "..." else "")
  }

  function NewTicket(user: Option<AuthUser>, message: string, now: nat): (t: Ticket)
    ensures t.status == Open && t.messageCount == 0 && t.subject == Subject(message)
    ensures t.priority == PriorityOf(Lower(message)) && t.category == LastMatch(TopicRules, Lower(message), GeneralTopic)
    ensures user.None? ==> t.userId == "anonymous"
  {
    var lower := Lower(message);
    Ticket("TICKET-" + Decimal(now),
           if user.Some? && user.value.id != "" then user.value.id else "anonymous",
           Subject(message), Open, PriorityOf(lower), LastMatch(TopicRules, lower, GeneralTopic), 0, now, now)
  }

  datatype SupportMode = ChatMode | TicketMode | EmergencyMode

  datatype MessageKind = TextKind | SystemKind | NotificationKind

  /** A message text: typed by the user, a canned reply, the hand-over notice or the agent's greeting. */
  datatype WidgetText =
    | Typed(typed: string)
    | CannedReply(reply: Reply)
    | HandOverNotice(ticketId: string, priority: Priority, email: string, role: string)
    | AgentGreeting(subject: string)

  datatype WidgetMessage = WidgetMessage(id: string, text: WidgetText, sender: Sender, timestamp: nat, kind: Option<MessageKind>)

  /** The words that ask for a person: `human`, `agent`, `live support`. */
  predicate WantsPerson(text: string) {
    var lower := Lower(text);
    Contains(lower, "human") || Contains(lower, "agent") || Contains(lower, "live support")
  }

  class ChatWidget {
    var messages: seq<WidgetMessage>
    var inputText: string
    var isTyping: bool
    var currentTicket: Option<Ticket>
    var supportMode: SupportMode
    var isConnectedToSupport: bool

    constructor()
      ensures messages == [] && inputText == "" && !isTyping && currentTicket.None?
      ensures supportMode == ChatMode && !isConnectedToSupport
    {
      messages := [];
      inputText := "";
      isTyping := false;
      currentTicket := None;
      supportMode := ChatMode;
      isConnectedToSupport := false;
    }

    /** createSupportTicket: the new ticket becomes current and the widget switches to ticket mode. */
    method CreateSupportTicket(user: Option<AuthUser>, message: string, now: nat) returns (t: Ticket)
      modifies this
      ensures t == NewTicket(user, message, now)
      ensures currentTicket == Some(t) && supportMode == TicketMode
      ensures messages == old(messages) && isConnectedToSupport == old(isConnectedToSupport)
      ensures inputText == old(inputText) && isTyping == old(isTyping)
    {
      t := NewTicket(user, message, now);
      currentTicket := Some(t);
      supportMode := TicketMode;
    }

    /** The notice connectToLiveSupport posts: the current ticket's id and priority, or stand-ins. */
    function HandOver(user: Option<AuthUser>, now: nat): (m: WidgetMessage)
      reads this
      ensures m.sender == BotSender && m.kind == Some(SystemKind)
      ensures m.text.HandOverNotice? && (currentTicket.None? ==> m.text.priority == Medium)
      ensures currentTicket.Some? ==> m.text.priority == currentTicket.value.priority
    {
      var ticketId := if currentTicket.Some? && currentTicket.value.id != "" then currentTicket.value.id
                      else "LIVE-" + Decimal(now);
      var priority := if currentTicket.Some? then currentTicket.value.priority else Medium;
      var email := if user.Some? then OrString(user.value.email, "Guest") else "Guest";
      var role := if user.Some? then OrString(user.value.role, "visitor") else "visitor";
      WidgetMessage(Decimal(now), HandOverNotice(ticketId, priority, email, role), BotSender, now, Some(SystemKind))
    }

    /** connectToLiveSupport: marks the widget connected and posts one system notice. */
    method ConnectToLiveSupport(user: Option<AuthUser>, now: nat)
      modifies this
      ensures isConnectedToSupport
      ensures messages == old(messages) + [old(HandOver(user, now))]
      ensures currentTicket == old(currentTicket) && supportMode == old(supportMode)
      ensures inputText == old(inputText) && isTyping == old(isTyping)
    {
      var notice := HandOver(user, now);
      isConnectedToSupport := true;
      messages := messages + [notice];
    }

    /** The agent's greeting that follows the hand-over, naming the ticket's subject. */
    method AgentJoins(now: nat)
      modifies this
      ensures var subject := if old(currentTicket).Some? then OrString(Some(old(currentTicket).value.subject), "your inquiry")
                             else "your inquiry";
        messages == old(messages) + [WidgetMessage(Decimal(now + 1), AgentGreeting(subject), SupportSender, now, Some(TextKind))]
      ensures currentTicket == old(currentTicket) && isConnectedToSupport == old(isConnectedToSupport)
      ensures supportMode == old(supportMode) && inputText == old(inputText) && isTyping == old(isTyping)
    {
      var subject := if currentTicket.Some? then OrString(Some(currentTicket.value.subject), "your inquiry")
                     else "your inquiry";
      messages := messages + [WidgetMessage(Decimal(now + 1), AgentGreeting(subject), SupportSender, now, Some(TextKind))];
    }

    /**
     * handleSendMessage, up to its timers. Blank text changes nothing.
     * Otherwise the text is posted, the input cleared and the typing
     * indicator shown; a text that does not ask for a person also opens a
     * ticket when it is an emergency and no ticket is open yet. The timer
     * callbacks are HandOverAfterDelay and ReplyAfterDelay.
     */
    method HandleSendMessage(text: string, user: Option<AuthUser>, now: nat)
      modifies this
      ensures IsBlank(text) ==>
        messages == old(messages) && inputText == old(inputText) && isTyping == old(isTyping)
        && currentTicket == old(currentTicket) && supportMode == old(supportMode)
      ensures !IsBlank(text) ==>
        messages == old(messages) + [Posted(text, now)] && inputText == "" && isTyping
      ensures !IsBlank(text) && WantsPerson(text) ==>
        currentTicket == old(currentTicket) && supportMode == old(supportMode)
      ensures !IsBlank(text) && !WantsPerson(text) ==>
        if OpensTicket(text, old(currentTicket)) then currentTicket == Some(NewTicket(user, text, now)) && supportMode == TicketMode
        else currentTicket == old(currentTicket) && supportMode == old(supportMode)
      ensures isConnectedToSupport == old(isConnectedToSupport)
    {
      // `!text.trim()`: the trimmed text is empty exactly when the text is blank (Common.Trim)
      if IsBlank(text) {
        return;
      }
      messages := messages + [Posted(text, now)];
      inputText := "";
      isTyping := true;
      if WantsPerson(text) {
        return;
      }
      var analysis := AnalyzeUserIntent(text);
      UrgentOnlyFromEmergency(Lower(text));
      if analysis.priority == Urgent || analysis.isEmergency {
        if currentTicket.None? {
          var _ := CreateSupportTicket(user, text, now);
        }
      }
    }

    /** The timer after a request for a person: the typing indicator goes and live support takes over. */
    method HandOverAfterDelay(user: Option<AuthUser>, now: nat)
      modifies this
      ensures !isTyping && isConnectedToSupport
      ensures messages == old(messages) + [old(HandOver(user, now))]
      ensures currentTicket == old(currentTicket) && supportMode == old(supportMode) && inputText == old(inputText)
    {
      isTyping := false;
      ConnectToLiveSupport(user, now);
    }

    /** The timer after any other text: the canned reply, sent as `support` exactly when connected to support. */
    method ReplyAfterDelay(text: string, user: Option<AuthUser>, donations: seq<Donation>, now: nat)
      modifies this
      ensures messages == old(messages) + [Answer(user, donations, text, isConnectedToSupport, now)]
      ensures !isTyping && isConnectedToSupport == old(isConnectedToSupport)
      ensures currentTicket == old(currentTicket) && supportMode == old(supportMode) && inputText == old(inputText)
    {
      messages := messages + [Answer(user, donations, text, isConnectedToSupport, now)];
      isTyping := false;
    }
  }

  function Posted(text: string, now: nat): WidgetMessage {
    WidgetMessage(Decimal(now), Typed(text), UserSender, now, None)
  }

  /** The canned reply, sent as `support` exactly when the widget is connected to support. */
  function Answer(user: Option<AuthUser>, donations: seq<Donation>, text: string, connected: bool, now: nat): (m: WidgetMessage)
    ensures m.sender == SupportSender <==> connected
    ensures m.text == CannedReply(ContextualReply(user, donations, text))
  {
    WidgetMessage(Decimal(now + 1), CannedReply(ContextualReply(user, donations, text)),
                  if connected then SupportSender else BotSender, now, Some(TextKind))
  }

  /** A sent message opens a ticket exactly when it is an emergency and no ticket is open yet. */
  predicate OpensTicket(text: string, ticket: Option<Ticket>) {
    AnyContained(Lower(text), EmergencyWords) && ticket.None?
  }
}

=== FILE: live_support.dfy ===
/**
 * The live-support panel `LiveSupport` (src/components/Chat/LiveSupport.tsx):
 * the agent roster, the choice of agent, and the connection state with the
 * ticket opened for the chosen agent.
 *
 * The roster effect that runs on mount is part of construction; the
 * two-second connection delay is not modelled (the selection happens at
 * once); `now` is the clock reading of a call.
 */
module LiveSupport {
  import opened Common
  import CP = ChatBotProvider

  datatype AgentStatus = Online | Busy | Offline

  datatype Agent = Agent(id: string, name: string, status: AgentStatus, specialties: seq<string>, rating: real, responseTime: string)

  datatype TicketStatus = Open | InProgress | Resolved | Closed

  datatype LiveTicket = LiveTicket(
    id: string,
    subject: string,
    status: TicketStatus,
    priority: Priority,
    category: string,
    assignedAgent: Agent,
    createdAt: nat,
    estimatedResponseTime: string)

  datatype ConnectionStatus = Disconnected | Connecting | Connected

  /** The three agents the panel lists. */
  const Roster: seq<Agent> := [
    Agent("1", "Sarah Johnson", Online, ["Food Management", "NGO Support"], 4.9, "< 2 min"),
    Agent("2", "Mike Chen", Online, ["Technical Issues", "Account Help"], 4.8, "< 3 min"),
    Agent("3", "Emma Rodriguez", Busy, ["Restaurant Support", "Billing"], 4.9, "< 5 min")
  ]

  predicate IsOnline(a: Agent) {
    a.status == Online
  }

  /**
   * The agent connectToAgent picks: the agent with the requested id when an
   * id is given (an empty id counts as none), otherwise the first online
   * agent, otherwise the first agent of all.
   */
  function SelectAgent(agents: seq<Agent>, agentId: Option<string>): (r: Option<Agent>)
    ensures agentId.Some? && agentId.value != "" ==>
      (r.Some? ==> r.value in agents && r.value.id == agentId.value)
      && (r.None? <==> forall i :: 0 <= i < |agents| ==> agents[i].id != agentId.value)
    ensures (agentId.None? || agentId.value == "") ==>
      (r.None? <==> agents == [])
      && (r.Some? && IsOnline(r.value) ==> exists i :: 0 <= i < |agents| && agents[i] == r.value
                                              && forall j :: 0 <= j < i ==> !IsOnline(agents[j]))
      && ((forall i :: 0 <= i < |agents| ==> !IsOnline(agents[i])) && agents != [] ==> r == Some(agents[0]))
    ensures (agentId.None? || agentId.value == "") && (exists i :: 0 <= i < |agents| && IsOnline(agents[i])) ==>
      r.Some? && IsOnline(r.value)
  {
    if agentId.Some? && agentId.value != "" then
      Find(agents, (a: Agent) => a.id == agentId.value)
    else
      var online := Find(agents, IsOnline);
      if online.Some? then online
      else if agents != [] then Some(agents[0])
      else None
  }

  /** The ticket opened for the chosen agent. */
  function TicketFor(agent: Agent, now: nat): (t: LiveTicket)
    ensures t.status == InProgress && t.priority == Medium && t.category == "general"
    ensures t.assignedAgent == agent && t.estimatedResponseTime == agent.responseTime
  {
    LiveTicket("TICKET-" + Decimal(now), "Live Support Request", InProgress, Medium, "general", agent, now, agent.responseTime)
  }

  /** The agents listed for a direct connection: the online ones, in roster order. */
  function OnlineAgents(agents: seq<Agent>): (r: seq<Agent>)
    ensures IsSubsequence(r, agents)
    ensures forall i :: 0 <= i < |r| ==> IsOnline(r[i])
    ensures forall i :: 0 <= i < |agents| && IsOnline(agents[i]) ==> agents[i] in r
  {
    FilterIsSubsequence(agents, IsOnline);
    Filter(agents, IsOnline)
  }

  /** With the fixed roster, a connection without an id goes to Sarah Johnson. */
  lemma DefaultAgentIsSarah()
    ensures SelectAgent(Roster, None) == Some(Roster[0]) && Roster[0].name == "Sarah Johnson"
  {
  }

  /** With the fixed roster, the listed agents are the first two; Emma Rodriguez is busy. */
  lemma TwoAgentsListed()
    ensures OnlineAgents(Roster) == Roster[..2]
  {
    var a, b, c := Roster[0], Roster[1], Roster[2];
    assert Roster == [a, b, c];
    assert Filter([c], IsOnline) == [] by {
      assert !IsOnline(c);
      assert [c][1..] == [];
    }
    assert [a, b, c][1..] == [b, c];
    assert [b, c][1..] == [c];
    assert Filter([b, c], IsOnline) == [b];
    assert Filter([a, b, c], IsOnline) == [a, b];
  }

  /** With the fixed roster, an id picks that agent even when busy, and an unknown id picks nobody. */
  lemma AgentById()
    ensures SelectAgent(Roster, Some("3")) == Some(Roster[2])
    ensures SelectAgent(Roster, Some("4")).None?
  {
    assert Roster[0].id == "1" && Roster[1].id == "2" && Roster[2].id == "3";
    SelectByIdOfThree(Roster);
  }

  /** A roster of three with the ids "1", "2" and "3", in that order. */
  lemma SelectByIdOfThree(agents: seq<Agent>)
    requires |agents| == 3 && agents[0].id == "1" && agents[1].id == "2" && agents[2].id == "3"
    ensures SelectAgent(agents, Some("3")) == Some(agents[2])
    ensures SelectAgent(agents, Some("4")).None?
  {
    assert "1" != "3" && "2" != "3" && "1" != "4" && "2" != "4" && "3" != "4" by {
      assert "1"[0] == '1' && "2"[0] == '2' && "3"[0] == '3' && "4"[0] == '4';
    }
  }

  class LiveSupportPanel {
    var agents: seq<Agent>
    var currentTicket: Option<LiveTicket>
    var isConnecting: bool
    var connectionStatus: ConnectionStatus

    constructor()
      ensures agents == Roster && currentTicket.None? && !isConnecting && connectionStatus == Disconnected
    {
      agents := Roster;
      currentTicket := None;
      isConnecting := false;
      connectionStatus := Disconnected;
    }

    /**
     * connectToAgent: with an agent found, a ticket for it becomes current
     * and the panel is connected; without one, the ticket is left as it
     * was and the panel stays `connecting`. Either way the spinner stops.
     */
    method ConnectToAgent(agentId: Option<string>, now: nat)
      modifies this
      ensures !isConnecting && agents == old(agents)
      ensures var chosen := SelectAgent(old(agents), agentId);
        if chosen.Some? then currentTicket == Some(TicketFor(chosen.value, now)) && connectionStatus == Connected
        else currentTicket == old(currentTicket) && connectionStatus == Connecting
    {
      isConnecting := true;
      connectionStatus := Connecting;
      var selected := SelectAgent(agents, agentId);
      if selected.Some? {
        currentTicket := Some(TicketFor(selected.value, now));
        connectionStatus := Connected;
      }
      isConnecting := false;
    }

    /** The "Create Support Ticket" option: a ticket session in the provider, then a connection to any agent. */
    method RequestTicket(provider: CP.ChatBotProvider, now: nat)
      requires provider.Valid()
      modifies this, provider
      ensures provider.Valid()
      ensures provider.sessions == [CP.NewSession(CP.TicketKind, "general", Medium, now)] + old(provider.sessions)
      ensures provider.currentSession == Some(provider.sessions[0])
      ensures var chosen := SelectAgent(old(agents), None);
        chosen.Some? ==> currentTicket == Some(TicketFor(chosen.value, now)) && connectionStatus == Connected
    {
      var _ := provider.CreateSession(CP.TicketKind, "general", Medium, now);
      ConnectToAgent(None, now);
    }

    /** The "Emergency Support" option: an urgent emergency session, then a connection to any agent. */
    method RequestEmergency(provider: CP.ChatBotProvider, now: nat)
      requires provider.Valid()
      modifies this, provider
      ensures provider.Valid()
      ensures provider.sessions == [CP.NewSession(CP.EmergencyKind, "urgent", Urgent, now)] + old(provider.sessions)
      ensures provider.currentSession == Some(provider.sessions[0])
      ensures var chosen := SelectAgent(old(agents), None);
        chosen.Some? ==> currentTicket == Some(TicketFor(chosen.value, now)) && connectionStatus == Connected
    {
      var _ := provider.CreateSession(CP.EmergencyKind, "urgent", Urgent, now);
      ConnectToAgent(None, now);
    }
  }
}

=== FILE: password_tools.dfy ===
/**
 * The password tools of the security toolkit
 * (project/src/components/PasswordTools.tsx): the six-check strength
 * analysis and the generator that draws characters from the selected
 * character classes.
 *
 * `Math.random()` is a parameter: the generator is handed its draws, each
 * a real in [0, 1).
 */
module PasswordTools {
  import opened Common

  /** The six checks, in the order analyzePassword applies them. */
  datatype Check = AtLeast8 | AtLeast12 | HasLower | HasUpper | HasDigit | HasSpecial

  const AllChecks := [AtLeast8, AtLeast12, HasLower, HasUpper, HasDigit, HasSpecial]

  /** The characters of `/[!@#$%^&*()_+\-=\[\]{};':"\\|,.<>\/?]/`. */
  const SpecialChars := "!@#$%^&*()_+-=[]{};':\"\\|,.<>/?"

  predicate HasCharIn(pwd: string, lo: char, hi: char) {
    exists i :: 0 <= i < |pwd| && lo <= pwd[i] <= hi
  }

  predicate HasSpecialChar(pwd: string) {
    exists i :: 0 <= i < |pwd| && pwd[i] in SpecialChars
  }

  predicate Passes(c: Check, pwd: string) {
    match c
    case AtLeast8 => |pwd| >= 8
    case AtLeast12 => |pwd| >= 12
    case HasLower => HasCharIn(pwd, 'a', 'z')
    case HasUpper => HasCharIn(pwd, 'A', 'Z')
    case HasDigit => HasCharIn(pwd, '0', '9')
    case HasSpecial => HasSpecialChar(pwd)
  }

  /** The advice pushed when a check fails. */
  function Advice(c: Check): string {
    match c
    case AtLeast8 => "Use at least 8 characters"
    case AtLeast12 => "Consider using 12+ characters"
    case HasLower => "Include lowercase letters"
    case HasUpper => "Include uppercase letters"
    case HasDigit => "Include numbers"
    case HasSpecial => "Include special characters"
  }

  /** How many of the checks pass. */
  function PassCount(cs: seq<Check>, pwd: string): (n: nat)
    ensures n <= |cs|
  {
    if cs == [] then 0
    else PassCount(cs[..|cs| - 1], pwd) + (if Passes(cs[|cs| - 1], pwd) then 1 else 0)
  }

  /** The advice of the failed checks, in check order. */
  function Failures(cs: seq<Check>, pwd: string): seq<string> {
    if cs == [] then []
    else Failures(cs[..|cs| - 1], pwd) + (if Passes(cs[|cs| - 1], pwd) then [] else [Advice(cs[|cs| - 1])])
  }

  /** The feedback names exactly the failed checks. */
  lemma {:induction false} FailuresNameFailedChecks(cs: seq<Check>, pwd: string)
    ensures forall c :: c in cs && !Passes(c, pwd) ==> Advice(c) in Failures(cs, pwd)
    ensures forall a :: a in Failures(cs, pwd) ==> exists c :: c in cs && !Passes(c, pwd) && Advice(c) == a
  {
    if cs != [] {
      var init, last := cs[..|cs| - 1], cs[|cs| - 1];
      FailuresNameFailedChecks(init, pwd);
      assert cs == init + [last];
      forall a | a in Failures(cs, pwd)
        ensures exists c :: c in cs && !Passes(c, pwd) && Advice(c) == a
      {
        if a in Failures(init, pwd) {
          var c :| c in init && !Passes(c, pwd) && Advice(c) == a;
          assert c in cs;
        } else {
          assert a == Advice(last) && !Passes(last, pwd);
        }
      }
    }
  }

  /** Every check either adds to the score or adds one piece of advice. */
  lemma {:induction false} ScoreAndFeedback(cs: seq<Check>, pwd: string)
    ensures PassCount(cs, pwd) + |Failures(cs, pwd)| == |cs|
  {
    if cs != [] {
      ScoreAndFeedback(cs[..|cs| - 1], pwd);
    }
  }

  /** Each check that a password passes, any extension of it passes too. */
  lemma CheckMonotone(c: Check, p: string, q: string)
    requires Passes(c, p)
    ensures Passes(c, p + q)
  {
    match c
    case HasLower =>
      var i :| 0 <= i < |p| && 'a' <= p[i] <= 'z';
      assert (p + q)[i] == p[i];
    case HasUpper =>
      var i :| 0 <= i < |p| && 'A' <= p[i] <= 'Z';
      assert (p + q)[i] == p[i];
    case HasDigit =>
      var i :| 0 <= i < |p| && '0' <= p[i] <= '9';
      assert (p + q)[i] == p[i];
    case HasSpecial =>
      var i :| 0 <= i < |p| && p[i] in SpecialChars;
      assert (p + q)[i] == p[i];
    case _ =>
  }

  /** Appending characters never lowers the score. */
  lemma {:induction false} PassCountMonotone(cs: seq<Check>, p: string, q: string)
    ensures PassCount(cs, p) <= PassCount(cs, p + q)
  {
    if cs != [] {
      PassCountMonotone(cs[..|cs| - 1], p, q);
      if Passes(cs[|cs| - 1], p) {
        CheckMonotone(cs[|cs| - 1], p, q);
      }
    }
  }

  datatype Strength = Weak | Medium | Strong

  function StrengthOf(score: int): (s: Strength)
    ensures s == Weak <==> score <= 2
    ensures s == Strength.Medium <==> 3 <= score <= 4
    ensures s == Strong <==> score >= 5
  {
    if score <= 2 then Weak else if score <= 4 then Strength.Medium else Strong
  }

  /** The strength scale follows the score. */
  function StrengthRank(s: Strength): nat {
    if s.Weak? then 0 else if s.Medium? then 1 else 2
  }

  datatype Analysis = Analysis(score: nat, strength: Strength, feedback: seq<string>)

  function Bit(c: Check, pwd: string): nat {
    if Passes(c, pwd) then 1 else 0
  }

  function AdviceIfFailed(c: Check, pwd: string): seq<string> {
    if Passes(c, pwd) then [] else [Advice(c)]
  }

  /** One check of analyzePassword: a pass adds one to the score, a failure pushes the check's advice. */
  method ApplyCheck(c: Check, pwd: string, score: nat, feedback: seq<string>) returns (score': nat, feedback': seq<string>)
    ensures score' == score + Bit(c, pwd) && feedback' == feedback + AdviceIfFailed(c, pwd)
  {
    if Passes(c, pwd) {
      score', feedback' := score + 1, feedback;
    } else {
      score', feedback' := score, feedback + [Advice(c)];
    }
  }

  /**
   * analyzePassword: the six checks in table order, then the strength the
   * score falls in.
   */
  method AnalyzePassword(pwd: string) returns (a: Analysis)
    ensures a.score == PassCount(AllChecks, pwd) && a.score <= 6
    ensures a.feedback == Failures(AllChecks, pwd) && |a.feedback| == 6 - a.score
    ensures a.strength == StrengthOf(a.score)
  {
    var score: nat := 0;
    var feedback: seq<string> := [];
    score, feedback := ApplyCheck(AtLeast8, pwd, score, feedback);
    score, feedback := ApplyCheck(AtLeast12, pwd, score, feedback);
    score, feedback := ApplyCheck(HasLower, pwd, score, feedback);
    score, feedback := ApplyCheck(HasUpper, pwd, score, feedback);
    score, feedback := ApplyCheck(HasDigit, pwd, score, feedback);
    score, feedback := ApplyCheck(HasSpecial, pwd, score, feedback);
    ScoreInOrder(pwd, score);
    FeedbackInOrder(pwd, feedback);
    ScoreAndFeedback(AllChecks, pwd);
    a := Analysis(score, StrengthOf(score), feedback);
  }

  /** Six checks applied in table order leave the table's score. */
  lemma ScoreInOrder(pwd: string, score: nat)
    requires score == 0 + Bit(AtLeast8, pwd) + Bit(AtLeast12, pwd) + Bit(HasLower, pwd)
      + Bit(HasUpper, pwd) + Bit(HasDigit, pwd) + Bit(HasSpecial, pwd)
    ensures score == PassCount(AllChecks, pwd)
  {
    var t := AllChecks;
    assert t[0] == AtLeast8 && t[1] == AtLeast12 && t[2] == HasLower;
    assert t[3] == HasUpper && t[4] == HasDigit && t[5] == HasSpecial;
    SixScores(t, pwd);
  }

  /** Six checks applied in table order leave the table's feedback. */
  lemma FeedbackInOrder(pwd: string, feedback: seq<string>)
    requires feedback == [] + AdviceIfFailed(AtLeast8, pwd) + AdviceIfFailed(AtLeast12, pwd)
      + AdviceIfFailed(HasLower, pwd) + AdviceIfFailed(HasUpper, pwd) + AdviceIfFailed(HasDigit, pwd)
      + AdviceIfFailed(HasSpecial, pwd)
    ensures feedback == Failures(AllChecks, pwd)
  {
    var t := AllChecks;
    assert t[0] == AtLeast8 && t[1] == AtLeast12 && t[2] == HasLower;
    assert t[3] == HasUpper && t[4] == HasDigit && t[5] == HasSpecial;
    assert [] + AdviceIfFailed(AtLeast8, pwd) == AdviceIfFailed(AtLeast8, pwd);
    SixAdvices(t, pwd);
  }

  /** Over a table of six checks, the score adds up check by check. */
  lemma SixScores(t: seq<Check>, pwd: string)
    requires |t| == 6
    ensures PassCount(t, pwd) == Bit(t[0], pwd) + Bit(t[1], pwd) + Bit(t[2], pwd)
      + Bit(t[3], pwd) + Bit(t[4], pwd) + Bit(t[5], pwd)
  {
    assert t[..0] == [] && t[..6] == t;
    PrefixStep(t, pwd, 0);
    PrefixStep(t, pwd, 1);
    PrefixStep(t, pwd, 2);
    PrefixStep(t, pwd, 3);
    PrefixStep(t, pwd, 4);
    PrefixStep(t, pwd, 5);
  }

  /** Over a table of six checks, the feedback collects the advice check by check, in table order. */
  lemma SixAdvices(t: seq<Check>, pwd: string)
    requires |t| == 6
    ensures Failures(t, pwd) == AdviceIfFailed(t[0], pwd) + AdviceIfFailed(t[1], pwd)
      + AdviceIfFailed(t[2], pwd) + AdviceIfFailed(t[3], pwd) + AdviceIfFailed(t[4], pwd)
      + AdviceIfFailed(t[5], pwd)
  {
    assert t[..0] == [] && t[..6] == t;
    assert Failures(t[..1], pwd) == AdviceIfFailed(t[0], pwd) by {
      FailuresStep(t, pwd, 0);
    }
    FailuresStep(t, pwd, 1);
    FailuresStep(t, pwd, 2);
    FailuresStep(t, pwd, 3);
    FailuresStep(t, pwd, 4);
    FailuresStep(t, pwd, 5);
  }

  lemma FailuresStep(t: seq<Check>, pwd: string, k: nat)
    requires k < |t|
    ensures Failures(t[..k + 1], pwd) == Failures(t[..k], pwd) + AdviceIfFailed(t[k], pwd)
  {
    assert t[..k + 1][..k] == t[..k];
  }

  /** One more check of a table adds its bit to the score and its advice, if failed, to the feedback. */
  lemma PrefixStep(t: seq<Check>, pwd: string, k: nat)
    requires k < |t|
    ensures PassCount(t[..k + 1], pwd) == PassCount(t[..k], pwd) + Bit(t[k], pwd)
    ensures Failures(t[..k + 1], pwd) == Failures(t[..k], pwd) + AdviceIfFailed(t[k], pwd)
  {
    assert t[..k + 1][..k] == t[..k];
  }

  /** Appending characters never weakens the verdict. */
  lemma StrengthMonotone(p: string, q: string)
    ensures StrengthRank(StrengthOf(PassCount(AllChecks, p))) <= StrengthRank(StrengthOf(PassCount(AllChecks, p + q)))
  {
    PassCountMonotone(AllChecks, p, q);
  }

  const Uppercase := "ABCDEFGHIJKLMNOPQRSTUVWXYZ"
  const Lowercase := "abcdefghijklmnopqrstuvwxyz"
  const Digits := "0123456789"
  const Symbols := "!@#$%^&*()_+-=[]{}|;:,.<>?"

  /** The selected classes, concatenated in the order upper, lower, digits, symbols. */
  function Charset(upper: bool, lower: bool, digits: bool, symbols: bool): (r: string)
    ensures |r| == (if upper then 26 else 0) + (if lower then 26 else 0) + (if digits then 10 else 0) + (if symbols then 26 else 0)
    ensures r == "" <==> !upper && !lower && !digits && !symbols
  {
    (if upper then Uppercase else "") + (if lower then Lowercase else "")
    + (if digits then Digits else "") + (if symbols then Symbols else "")
  }

  /** Every symbol the generator may use counts as special for the analysis. */
  lemma GeneratorSymbolsAreSpecial()
    ensures forall i :: 0 <= i < |Symbols| ==> Symbols[i] in SpecialChars
  {
    forall i | 0 <= i < |Symbols|
      ensures Symbols[i] in SpecialChars
    {
      var j := if i < 18 then i else if i == 18 then 23 else if i == 19 then 18 else if i == 20 then 20 else if i < 25 then i + 3 else 29;
      assert SpecialChars[j] == Symbols[i];
    }
  }

  /** `Math.floor(r * n)` for a draw r in [0, 1). */
  function Index(r: real, n: nat): (k: int)
    requires 0.0 <= r < 1.0
    ensures n > 0 ==> 0 <= k < n
    ensures n == 0 ==> k == 0
  {
    if n == 0 then 0
    else
      assert r * n as real < n as real by {
        assert (1.0 - r) * n as real > 0.0;
      }
      (r * n as real).Floor
  }

  predicate ValidDraws(draws: seq<real>) {
    forall i :: 0 <= i < |draws| ==> 0.0 <= draws[i] < 1.0
  }

  /** `charset.charAt(k)`: the empty string outside the charset. */
  function CharAtOrEmpty(charset: string, k: int): (r: string)
    ensures 0 <= k < |charset| ==> r == [charset[k]]
    ensures !(0 <= k < |charset|) ==> r == ""
  {
    if 0 <= k < |charset| then [charset[k]] else ""
  }

  /**
   * The loop of generatePassword: `length` characters, the i-th picked by
   * the i-th draw from the charset; nothing is appended when the charset is empty.
   */
  method Generate(charset: string, length: nat, draws: seq<real>) returns (pwd: string)
    requires ValidDraws(draws) && |draws| >= length
    ensures charset != "" ==> |pwd| == length
    ensures charset != "" ==> forall i :: 0 <= i < length ==> pwd[i] == charset[Index(draws[i], |charset|)]
    ensures forall i :: 0 <= i < |pwd| ==> pwd[i] in charset
    ensures charset == "" ==> pwd == ""
  {
    pwd := "";
    var i := 0;
    while i < length
      invariant 0 <= i <= length
      invariant charset != "" ==> |pwd| == i
      invariant charset != "" ==> forall j :: 0 <= j < i ==> pwd[j] == charset[Index(draws[j], |charset|)]
      invariant charset == "" ==> pwd == ""
    {
      pwd := pwd + CharAtOrEmpty(charset, Index(draws[i], |charset|));
      i := i + 1;
    }
  }

  /** The generator's panel: its options and the last password generated. */
  class GeneratorPanel {
    var passwordLength: nat
    var includeUppercase: bool
    var includeLowercase: bool
    var includeNumbers: bool
    var includeSymbols: bool
    var generatedPassword: string

    constructor()
      ensures passwordLength == 16 && includeUppercase && includeLowercase && includeNumbers && includeSymbols
      ensures generatedPassword == ""
    {
      passwordLength := 16;
      includeUppercase, includeLowercase, includeNumbers, includeSymbols := true, true, true, true;
      generatedPassword := "";
    }

    /**
     * generatePassword: builds the charset from the selected classes and
     * stores the password the loop draws from it; the options are untouched.
     */
    method GeneratePassword(draws: seq<real>)
      requires ValidDraws(draws) && |draws| >= passwordLength
      modifies this
      ensures passwordLength == old(passwordLength) && includeUppercase == old(includeUppercase)
      ensures includeLowercase == old(includeLowercase) && includeNumbers == old(includeNumbers)
      ensures includeSymbols == old(includeSymbols)
      ensures var charset := Charset(includeUppercase, includeLowercase, includeNumbers, includeSymbols);
        (charset != "" ==> (|generatedPassword| == passwordLength
          && forall i :: 0 <= i < passwordLength ==> generatedPassword[i] == charset[Index(draws[i], |charset|)]))
        && (charset == "" ==> generatedPassword == "")
    {
      var charset := JoinSelected(includeUppercase, includeLowercase, includeNumbers, includeSymbols,
                                  Uppercase, Lowercase, Digits, Symbols);
      generatedPassword := Generate(charset, passwordLength, draws);
    }

    /**
     * The option setters followed by the effect that regenerates the
     * password whenever an option changes (it also runs once on mount, with
     * the initial options). The slider keeps the length within 8..64.
     */
    method ChangeOptions(length: nat, upper: bool, lower: bool, numbers: bool, symbols: bool, draws: seq<real>)
      requires 8 <= length <= 64
      requires ValidDraws(draws) && |draws| >= length
      modifies this
      ensures passwordLength == length && includeUppercase == upper && includeLowercase == lower
      ensures includeNumbers == numbers && includeSymbols == symbols
      ensures var charset := Charset(upper, lower, numbers, symbols);
        (charset != "" ==> (|generatedPassword| == length
          && forall i :: 0 <= i < length ==> generatedPassword[i] == charset[Index(draws[i], |charset|)]))
        && (charset == "" ==> generatedPassword == "")
    {
      passwordLength := length;
      includeUppercase, includeLowercase, includeNumbers, includeSymbols := upper, lower, numbers, symbols;
      GeneratePassword(draws);
    }
  }

  /** The charset built class by class: each selected class appended in turn. */
  method JoinSelected(upper: bool, lower: bool, digits: bool, symbols: bool, u: string, l: string, d: string, s: string)
    returns (charset: string)
    ensures charset == (if upper then u else "") + (if lower then l else "") + (if digits then d else "") + (if symbols then s else "")
  {
    charset := "";
    if upper { charset := charset + u; }
    if lower { charset := charset + l; }
    if digits { charset := charset + d; }
    if symbols { charset := charset + s; }
  }
}

=== FILE: recent_activity.dfy ===
/**
 * The dashboard's activity feed `RecentActivity`
 * (src/components/Dashboard/RecentActivity.tsx): the entries each role
 * sees, newest first and at most six, the "time ago" label and the status
 * colouring.
 *
 * Timestamps are integers that order like the instants they stand for.
 */
module RecentActivity {
  import opened Common
  import opened Domain

  datatype ActivityKind = DonationActivity | RequestActivity

  /** An entry's status: the donation's or the request's. */
  datatype ActivityStatus = DonationState(donation: DonationStatus) | RequestState(request: RequestStatus)

  /** An entry's title, with the values it interpolates. */
  datatype ActivityTitle =
    | Added(foodName: string)                      // a donor's own donation
    | Requested(foodName: string)                  // an NGO's own request
    | SomeoneAdded(donorName: string, foodName: string)
    | MadeRequest(ngoName: string)

  datatype Activity = Activity(id: string, kind: ActivityKind, title: ActivityTitle, time: int, status: ActivityStatus)

  function DonorEntry(d: Donation): Activity {
    Activity(d.id, DonationActivity, Added(d.foodName), d.createdAt, DonationState(d.status))
  }

  /** An NGO's request, titled with its donation's food name, or "Food" when the donation is not in the list. */
  function NgoEntry(ds: seq<Donation>, q: DonationRequest): (a: Activity)
    ensures Find(ds, (d: Donation) => d.id == q.donationId).None? ==> a.title == Requested("Food")
  {
    var found := Find(ds, (d: Donation) => d.id == q.donationId);
    var name := if found.Some? && found.value.foodName != "" then found.value.foodName else "Food";
    Activity(q.id, RequestActivity, Requested(name), q.createdAt, RequestState(q.status))
  }

  function AdminDonationEntry(d: Donation): Activity {
    var name := if d.donor.Some? && d.donor.value.name != "" then d.donor.value.name else "Someone";
    Activity(d.id, DonationActivity, SomeoneAdded(name, d.foodName), d.createdAt, DonationState(d.status))
  }

  function AdminRequestEntry(q: DonationRequest): Activity {
    var name := if q.ngo.Some? && q.ngo.value.name != "" then q.ngo.value.name else "An NGO";
    Activity(q.id, RequestActivity, MadeRequest(name), q.createdAt, RequestState(q.status))
  }

  function DonorEntries(ds: seq<Donation>): (r: seq<Activity>)
    ensures |r| == |ds| && forall i :: 0 <= i < |r| ==> r[i] == DonorEntry(ds[i])
  {
    seq(|ds|, i requires 0 <= i < |ds| => DonorEntry(ds[i]))
  }

  function NgoEntries(ds: seq<Donation>, qs: seq<DonationRequest>): (r: seq<Activity>)
    ensures |r| == |qs| && forall i :: 0 <= i < |r| ==> r[i] == NgoEntry(ds, qs[i])
  {
    seq(|qs|, i requires 0 <= i < |qs| => NgoEntry(ds, qs[i]))
  }

  function AdminDonationEntries(ds: seq<Donation>): (r: seq<Activity>)
    ensures |r| == |ds| && forall i :: 0 <= i < |r| ==> r[i] == AdminDonationEntry(ds[i])
  {
    seq(|ds|, i requires 0 <= i < |ds| => AdminDonationEntry(ds[i]))
  }

  function AdminRequestEntries(qs: seq<DonationRequest>): (r: seq<Activity>)
    ensures |r| == |qs| && forall i :: 0 <= i < |r| ==> r[i] == AdminRequestEntry(qs[i])
  {
    seq(|qs|, i requires 0 <= i < |qs| => AdminRequestEntry(qs[i]))
  }

  /** A donor's own donations, in list order. */
  function OwnDonations(id: string, ds: seq<Donation>): (r: seq<Donation>)
    ensures forall i :: 0 <= i < |r| ==> r[i] in ds && r[i].donorId == id
    ensures forall i :: 0 <= i < |ds| && ds[i].donorId == id ==> ds[i] in r
  {
    Filter(ds, (d: Donation) => d.donorId == id)
  }

  /** An NGO's own requests, in list order. */
  function OwnRequests(id: string, qs: seq<DonationRequest>): (r: seq<DonationRequest>)
    ensures forall i :: 0 <= i < |r| ==> r[i] in qs && r[i].ngoId == id
    ensures forall i :: 0 <= i < |qs| && qs[i].ngoId == id ==> qs[i] in r
  {
    Filter(qs, (q: DonationRequest) => q.ngoId == id)
  }

  /** A donor's entries: its first five own donations, in list order. */
  function DonorFeed(id: string, ds: seq<Donation>): (r: seq<Activity>)
    ensures var own := OwnDonations(id, ds);
      |r| == (if |own| < 5 then |own| else 5)
      && forall i :: 0 <= i < |r| ==> r[i] == DonorEntry(own[i])
    ensures forall i :: 0 <= i < |r| ==>
      r[i].kind == DonationActivity && exists d :: d in ds && d.donorId == id && r[i] == DonorEntry(d)
  {
    var own := Take(OwnDonations(id, ds), 5);
    var r := DonorEntries(own);
    assert forall i :: 0 <= i < |r| ==> own[i] in ds && own[i].donorId == id && r[i] == DonorEntry(own[i]);
    r
  }

  /** An NGO's entries: its first five own requests, in list order. */
  function NgoFeed(id: string, ds: seq<Donation>, qs: seq<DonationRequest>): (r: seq<Activity>)
    ensures var own := OwnRequests(id, qs);
      |r| == (if |own| < 5 then |own| else 5)
      && forall i :: 0 <= i < |r| ==> r[i] == NgoEntry(ds, own[i])
    ensures forall i :: 0 <= i < |r| ==>
      r[i].kind == RequestActivity && exists q :: q in qs && q.ngoId == id && r[i] == NgoEntry(ds, q)
  {
    var all := OwnRequests(id, qs);
    var own := Take(all, 5);
    assert |own| <= |all| && forall i :: 0 <= i < |own| ==> own[i] == all[i];
    var r := NgoEntries(ds, own);
    assert forall i :: 0 <= i < |r| ==> own[i] in qs && own[i].ngoId == id && r[i] == NgoEntry(ds, own[i]);
    r
  }

  /** An admin's entries: the first three donations, then the first two requests. */
  function AdminFeed(ds: seq<Donation>, qs: seq<DonationRequest>): (r: seq<Activity>)
    ensures var nd := if |ds| < 3 then |ds| else 3;
      var nq := if |qs| < 2 then |qs| else 2;
      |r| == nd + nq
      && (forall i :: 0 <= i < nd ==> r[i] == AdminDonationEntry(ds[i]))
      && (forall i :: 0 <= i < nq ==> r[nd + i] == AdminRequestEntry(qs[i]))
  {
    AdminDonationEntries(Take(ds, 3)) + AdminRequestEntries(Take(qs, 2))
  }

  /**
   * The entries pushed before sorting: a donor's first five own donations,
   * an NGO's first five own requests, or for an admin the first three
   * donations and the first two requests; nothing without a user or profile.
   */
  function Entries(user: Option<AuthUser>, profile: Option<Profile>, ds: seq<Donation>, qs: seq<DonationRequest>): (r: seq<Activity>)
    ensures user.None? || profile.None? ==> r == []
    ensures |r| <= 5
    ensures user.Some? && profile.Some? && profile.value.role.IsDonor() ==> r == DonorFeed(user.value.id, ds)
    ensures user.Some? && profile.Some? && profile.value.role == Ngo ==> r == NgoFeed(user.value.id, ds, qs)
    ensures user.Some? && profile.Some? && profile.value.role == Admin ==> r == AdminFeed(ds, qs)
  {
    if user.None? || profile.None? then []
    else
      match profile.value.role
      case Restaurant | Society => DonorFeed(user.value.id, ds)
      case Ngo => NgoFeed(user.value.id, ds, qs)
      case Admin => AdminFeed(ds, qs)
  }

  /** Newest first: no entry is older than one after it. */
  predicate NewestFirst(s: seq<Activity>) {
    forall i, j :: 0 <= i < j < |s| ==> s[i].time >= s[j].time
  }

  /** Places x after every entry at least as new, so equal times keep their order. */
  function Insert(s: seq<Activity>, x: Activity): (r: seq<Activity>)
    ensures multiset(r) == multiset(s) + multiset{x}
    ensures |r| == |s| + 1
    decreases |s|
  {
    if s == [] then [x]
    else if s[0].time >= x.time then
      assert s == [s[0]] + s[1..];
      [s[0]] + Insert(s[1..], x)
    else [x] + s
  }

  /** Inserting into a newest-first list keeps it newest first. */
  lemma {:induction false} InsertKeepsOrder(s: seq<Activity>, x: Activity)
    requires NewestFirst(s)
    ensures NewestFirst(Insert(s, x))
    decreases |s|
  {
    if s != [] && s[0].time >= x.time {
      var rest := Insert(s[1..], x);
      InsertKeepsOrder(s[1..], x);
      forall k | 0 <= k < |rest|
        ensures rest[k].time <= s[0].time
      {
        assert rest[k] in multiset(rest);
        if rest[k] != x {
          assert rest[k] in multiset(s[1..]);
          var j :| 0 <= j < |s[1..]| && s[1..][j] == rest[k];
          assert s[j + 1] == rest[k];
        }
      }
      assert Insert(s, x) == [s[0]] + rest;
    }
  }

  /** `activities.sort((a, b) => b.time - a.time)`, as repeated insertion. */
  method SortNewestFirst(a: seq<Activity>) returns (s: seq<Activity>)
    ensures NewestFirst(s)
    ensures multiset(s) == multiset(a)
    ensures |s| == |a|
  {
    s := [];
    var i := 0;
    while i < |a|
      invariant 0 <= i <= |a|
      invariant NewestFirst(s)
      invariant multiset(s) == multiset(a[..i])
      invariant |s| == i
    {
      assert a[..i + 1] == a[..i] + [a[i]];
      InsertKeepsOrder(s, a[i]);
      s := Insert(s, a[i]);
      i := i + 1;
    }
    assert a[..i] == a;
  }

  /**
   * getRecentActivity: at most six of the collected entries, newest first;
   * every entry left out is no newer than every entry shown.
   */
  method GetRecentActivity(user: Option<AuthUser>, profile: Option<Profile>, ds: seq<Donation>, qs: seq<DonationRequest>)
      returns (r: seq<Activity>)
    ensures user.None? || profile.None? ==> r == []
    ensures NewestFirst(r)
    ensures |r| == if |Entries(user, profile, ds, qs)| < 6 then |Entries(user, profile, ds, qs)| else 6
    ensures multiset(r) <= multiset(Entries(user, profile, ds, qs))
    ensures forall x :: x in multiset(Entries(user, profile, ds, qs)) - multiset(r) ==>
      forall i :: 0 <= i < |r| ==> r[i].time >= x.time
  {
    if user.None? || profile.None? {
      return [];
    }
    var activities := CollectEntries(user, profile, ds, qs);
    var sorted := SortNewestFirst(activities);
    r := Take(sorted, 6);
    TopOfSorted(sorted, |r|);
  }

  /** The pushes of getRecentActivity, role by role, before the sort. */
  method CollectEntries(user: Option<AuthUser>, profile: Option<Profile>, ds: seq<Donation>, qs: seq<DonationRequest>)
      returns (activities: seq<Activity>)
    requires user.Some? && profile.Some?
    ensures activities == Entries(user, profile, ds, qs)
  {
    activities := [];
    var id := user.value.id;
    // the roles exclude one another, so at most one branch pushes
    if profile.value.role.IsDonor() {
      var feed := DonorFeed(id, ds);
      assert Entries(user, profile, ds, qs) == feed;
      assert activities + feed == feed;
      activities := activities + feed;
    } else if profile.value.role == Ngo {
      var feed := NgoFeed(id, ds, qs);
      assert Entries(user, profile, ds, qs) == feed;
      assert activities + feed == feed;
      activities := activities + feed;
    } else {
      var donations := AdminDonationEntries(Take(ds, 3));
      assert activities + donations == donations;
      activities := activities + donations;
      activities := activities + AdminRequestEntries(Take(qs, 2));
      assert activities == AdminFeed(ds, qs) == Entries(user, profile, ds, qs);
    }
  }

  /** A prefix of a newest-first list holds the newest entries: nothing after it is newer. */
  lemma TopOfSorted(s: seq<Activity>, k: nat)
    requires NewestFirst(s) && k <= |s|
    ensures multiset(s[..k]) <= multiset(s)
    ensures forall x :: x in multiset(s) - multiset(s[..k]) ==> forall i :: 0 <= i < k ==> s[i].time >= x.time
  {
    assert s == s[..k] + s[k..];
    assert multiset(s) == multiset(s[..k]) + multiset(s[k..]);
    forall x | x in multiset(s) - multiset(s[..k])
      ensures forall i :: 0 <= i < k ==> s[i].time >= x.time
    {
      assert x in multiset(s[k..]);
      var j :| 0 <= j < |s[k..]| && s[k..][j] == x;
      assert s[k + j] == x;
    }
  }

  // ---------------------------------------------------------------------
  // Labels

  /** The "time ago" label's unit and count. */
  datatype Ago = MinutesAgo(minutes: int) | HoursAgo(hours: int) | DaysAgo(days: int)

  /**
   * formatTimeAgo, given the elapsed milliseconds: whole minutes under an
   * hour, whole hours under a day, whole days beyond.
   */
  function FormatTimeAgo(elapsedMs: int): (a: Ago)
    ensures var m := elapsedMs / 60000;
      (a.MinutesAgo? <==> m < 60) && (a.MinutesAgo? ==> a.minutes == m)
      && (a.HoursAgo? <==> 60 <= m < 1440) && (a.HoursAgo? ==> 1 <= a.hours <= 23 && a.hours * 60 <= m < (a.hours + 1) * 60)
      && (a.DaysAgo? ==> 1 <= a.days && a.days * 1440 <= m < (a.days + 1) * 1440)
  {
    // Math.floor of a quotient by a positive divisor is Euclidean division
    var m := elapsedMs / 60000;
    if m < 60 then MinutesAgo(m)
    else if m < 1440 then HoursAgo(m / 60)
    else DaysAgo(m / 1440)
  }

  function AgoText(a: Ago): string {
    match a
    case MinutesAgo(n) => IntText(n) + "m ago"
    case HoursAgo(n) => IntText(n) + "h ago"
    case DaysAgo(n) => IntText(n) + "d ago"
  }

  datatype Tone = Blue | Green | Red | Gray

  /** getStatusColor over the status text of either kind of entry. */
  function StatusTone(s: ActivityStatus): (t: Tone)
    ensures s.RequestState? ==> t != Gray
    ensures t == Gray <==> s == DonationState(Reserved) || s == DonationState(Cancelled)
    ensures t == Green <==> s == DonationState(Collected) || s == RequestState(Accepted) || s == RequestState(PickedUp)
  {
    match s
    case DonationState(Available) => Blue
    case RequestState(Pending) => Blue
    case DonationState(Collected) => Green
    case RequestState(Accepted) => Green
    case RequestState(PickedUp) => Green
    case DonationState(Expired) => Red
    case RequestState(Rejected) => Red
    case _ => Gray
  }
}

=== FILE: security_audit.dfy ===
/**
 * The security audit panel (project/src/components/SecurityAudit.tsx): the
 * fixed table of audit categories, the per-category score, the overall
 * score, and the run that fills the results object category by category.
 *
 * The results object is a JavaScript object keyed by category id. It is
 * held as the list of its values in key-insertion order, which is the
 * order `Object.values` returns for non-numeric keys such as the category
 * ids used here (integer-like keys would come first, in numeric order);
 * assigning an existing key replaces the
 * value in place, assigning a new key appends. Scores are computed in
 * exact rational arithmetic; a category without checks has the score NaN,
 * held as None.
 */
module SecurityAudit {
  import opened Common

  datatype CheckStatus = Pass | Warning | Fail

  datatype AuditCheck = AuditCheck(id: string, name: string, status: CheckStatus)

  datatype Category = Category(id: string, name: string, checks: seq<AuditCheck>)

  /** A category spread into its result, with its score and the time of the run. */
  datatype CategoryResult = CategoryResult(id: string, name: string, checks: seq<AuditCheck>, score: Option<int>, timestamp: int)

  /** The checks of the four categories of auditCategories. */
  const PasswordChecks: seq<AuditCheck> := [
    AuditCheck("length", "Password minimum length (8+ chars)", Pass),
    AuditCheck("complexity", "Password complexity requirements", Pass),
    AuditCheck("history", "Password history enforcement", Warning),
    AuditCheck("expiry", "Password expiration policy", Fail),
    AuditCheck("lockout", "Account lockout after failed attempts", Pass)]

  const AccessChecks: seq<AuditCheck> := [
    AuditCheck("mfa", "Multi-factor authentication enabled", Pass),
    AuditCheck("rbac", "Role-based access control", Pass),
    AuditCheck("privileged", "Privileged account monitoring", Warning),
    AuditCheck("sessions", "Session timeout configuration", Pass),
    AuditCheck("review", "Regular access reviews", Fail)]

  const NetworkChecks: seq<AuditCheck> := [
    AuditCheck("firewall", "Firewall properly configured", Pass),
    AuditCheck("segmentation", "Network segmentation", Pass),
    AuditCheck("monitoring", "Network traffic monitoring", Warning),
    AuditCheck("wireless", "Wireless security (WPA3)", Pass),
    AuditCheck("vpn", "VPN for remote access", Pass)]

  const DataChecks: seq<AuditCheck> := [
    AuditCheck("encryption", "Data encryption at rest", Pass),
    AuditCheck("transit", "Data encryption in transit", Pass),
    AuditCheck("backup", "Regular data backups", Warning),
    AuditCheck("retention", "Data retention policies", Pass),
    AuditCheck("classification", "Data classification scheme", Fail)]

  /** auditCategories: four categories of five checks each. */
  const AuditCategories: seq<Category> := [
    Category("passwords", "Password Security", PasswordChecks),
    Category("access", "Access Control", AccessChecks),
    Category("network", "Network Security", NetworkChecks),
    Category("data", "Data Protection", DataChecks)]

  lemma MulLe(a: int, b: int, q: int)
    requires a <= b && q >= 0
    ensures a * q <= b * q
  {
  }

  /** Euclidean division by a positive divisor. */
  lemma DivParts(n: int, d: int)
    requires d > 0
    ensures n == d * (n / d) + n % d && 0 <= n % d < d
  {
  }

  lemma DivExact(k: int, m: int, d: int)
    requires d > 0 && 0 <= m < d
    ensures (d * k + m) / d == k
  {
    var n := d * k + m;
    DivParts(n, d);
    var q := n / d;
    if q < k {
      MulLe(q + 1, k, d);
      assert false;
    }
    if q > k {
      MulLe(k + 1, q, d);
      assert false;
    }
  }

  lemma DivLe(a: int, b: int, d: int)
    requires a <= b && d > 0
    ensures a / d <= b / d
  {
    DivParts(a, d);
    DivParts(b, d);
    if a / d > b / d {
      MulLe(b / d + 1, a / d, d);
      assert false;
    }
  }

  /**
   * `Math.round(p / q)` for a positive q: `Math.floor(p / q + 0.5)`, and
   * flooring a quotient by a positive divisor is Dafny's division.
   */
  function RoundRatio(p: int, q: int): int
    requires q > 0
  {
    (2 * p + q) / (2 * q)
  }

  /** The rounded ratio is the integer nearest to p/q, halves rounded up. */
  lemma RoundRatioNearest(p: int, q: int)
    requires q > 0
    ensures 2 * (RoundRatio(p, q) * q) - q <= 2 * p < 2 * (RoundRatio(p, q) * q) + q
  {
    DivParts(2 * p + q, 2 * q);
  }

  /** Rounding keeps a ratio within integer bounds on it. */
  lemma RoundRatioBetween(p: int, q: int, lo: int, hi: int)
    requires q > 0 && lo * q <= p <= hi * q
    ensures lo <= RoundRatio(p, q) <= hi
  {
    DivLe(2 * q * lo + q, 2 * p + q, 2 * q);
    DivExact(lo, q, 2 * q);
    DivLe(2 * p + q, 2 * q * hi + q, 2 * q);
    DivExact(hi, q, 2 * q);
  }

  lemma RoundRatioMonotone(p1: int, p2: int, q: int)
    requires q > 0 && p1 <= p2
    ensures RoundRatio(p1, q) <= RoundRatio(p2, q)
  {
    DivLe(2 * p1 + q, 2 * p2 + q, 2 * q);
  }

  /** The test of `check.status === 'pass'`. */
  predicate IsPass(c: AuditCheck) {
    c.status == Pass
  }

  function Passed(checks: seq<AuditCheck>): (n: nat)
    ensures n <= |checks|
  {
    Count(checks, IsPass)
  }

  /**
   * calculateCategoryScore: the percentage of checks that pass, rounded to
   * the nearest integer; NaN for a category without checks.
   */
  function CategoryScore(checks: seq<AuditCheck>): (r: Option<int>)
    ensures r.None? <==> |checks| == 0
    ensures r.Some? ==> 0 <= r.value <= 100
  {
    if |checks| == 0 then None
    else
      RoundRatioBetween(100 * Passed(checks), |checks|, 0, 100);
      Some(RoundRatio(100 * Passed(checks), |checks|))
  }

  /** The score is the percentage of passing checks to the nearest integer. */
  lemma CategoryScoreNearest(checks: seq<AuditCheck>)
    requires |checks| > 0
    ensures var r, t := CategoryScore(checks).value, |checks|;
      2 * (r * t) - t <= 200 * Passed(checks) < 2 * (r * t) + t
  {
    RoundRatioNearest(100 * Passed(checks), |checks|);
  }

  /** Every check passing scores 100, none passing scores 0. */
  lemma CategoryScoreExtremes(checks: seq<AuditCheck>)
    requires |checks| > 0
    ensures (forall i :: 0 <= i < |checks| ==> IsPass(checks[i])) ==> CategoryScore(checks) == Some(100)
    ensures (forall i :: 0 <= i < |checks| ==> !IsPass(checks[i])) ==> CategoryScore(checks) == Some(0)
  {
    var t := |checks|;
    if forall i :: 0 <= i < t ==> IsPass(checks[i]) {
      assert Passed(checks) == t by {
        FilterAll(checks, IsPass);
      }
      RoundRatioBetween(100 * t, t, 100, 100);
    }
    if forall i :: 0 <= i < t ==> !IsPass(checks[i]) {
      assert Passed(checks) == 0 by {
        FilterNone(checks, IsPass);
      }
      RoundRatioBetween(0, t, 0, 0);
    }
  }

  /** A failing check leaves fewer passes than checks; a passing one at least one pass. */
  lemma PassedBounds(checks: seq<AuditCheck>, i: int)
    requires 0 <= i < |checks|
    ensures !IsPass(checks[i]) ==> Passed(checks) < |checks|
    ensures IsPass(checks[i]) ==> Passed(checks) >= 1
  {
    if IsPass(checks[i]) {
      assert checks[i] in Filter(checks, IsPass);
    } else {
      var notPass := (c: AuditCheck) => !IsPass(c);
      CountComplement(checks, IsPass, notPass);
      assert checks[i] in Filter(checks, notPass);
    }
  }

  /** Below 200 checks, one failure keeps the rounded percentage at 99 or less. */
  lemma RoundBelowHundred(p: int, t: int)
    requires 0 < t < 200 && p <= t - 1
    ensures RoundRatio(100 * p, t) <= 99
  {
    RoundRatioMonotone(100 * p, 100 * (t - 1), t);
    DivLe(2 * (100 * (t - 1)) + t, 2 * t * 99 + (2 * t - 1), 2 * t);
    DivExact(99, 2 * t - 1, 2 * t);
  }

  /** Up to 200 checks, one pass keeps the rounded percentage at 1 or more. */
  lemma RoundAboveZero(p: int, t: int)
    requires 0 < t <= 200 && p >= 1
    ensures RoundRatio(100 * p, t) >= 1
  {
    RoundRatioMonotone(100, 100 * p, t);
    DivLe(2 * t * 1 + 0, 2 * 100 + t, 2 * t);
    DivExact(1, 0, 2 * t);
  }

  /** With fewer than 200 checks, a score of 100 means every check passed. */
  lemma HundredMeansAllPass(checks: seq<AuditCheck>)
    requires 0 < |checks| < 200 && CategoryScore(checks) == Some(100)
    ensures forall i :: 0 <= i < |checks| ==> IsPass(checks[i])
  {
    forall i | 0 <= i < |checks|
      ensures IsPass(checks[i])
    {
      PassedBounds(checks, i);
      if !IsPass(checks[i]) {
        RoundBelowHundred(Passed(checks), |checks|);
        assert false;
      }
    }
  }

  /** With at most 200 checks, a score of 0 means no check passed. */
  lemma ZeroMeansNonePass(checks: seq<AuditCheck>)
    requires 0 < |checks| <= 200 && CategoryScore(checks) == Some(0)
    ensures forall i :: 0 <= i < |checks| ==> !IsPass(checks[i])
  {
    forall i | 0 <= i < |checks|
      ensures !IsPass(checks[i])
    {
      PassedBounds(checks, i);
      if IsPass(checks[i]) {
        RoundAboveZero(Passed(checks), |checks|);
        assert false;
      }
    }
  }

  /** With 200 checks or more, a single failure still rounds to 100. */
  lemma OneFailureCanRoundToHundred(checks: seq<AuditCheck>)
    requires |checks| >= 200 && Passed(checks) == |checks| - 1
    ensures CategoryScore(checks) == Some(100)
  {
    var t := |checks|;
    assert 2 * (100 * (t - 1)) + t == 2 * t * 100 + (t - 200);
    DivExact(100, t - 200, 2 * t);
  }

  /** A warning scores exactly as a failure does: only 'pass' counts. */
  lemma WarningCountsAsFail(checks: seq<AuditCheck>, i: int)
    requires 0 <= i < |checks| && checks[i].status == Warning
    ensures CategoryScore(checks[i := checks[i].(status := Fail)]) == CategoryScore(checks)
  {
    var failed := checks[i := checks[i].(status := Fail)];
    CountMonotone(checks, failed, IsPass);
    CountMonotone(failed, checks, IsPass);
  }

  /** One more passing check never lowers the score. */
  lemma PassingMoreScoresNoLess(checks: seq<AuditCheck>, i: int)
    requires 0 <= i < |checks|
    ensures CategoryScore(checks).value <= CategoryScore(checks[i := checks[i].(status := Pass)]).value
  {
    var better := checks[i := checks[i].(status := Pass)];
    CountMonotone(better, checks, IsPass);
    RoundRatioMonotone(100 * Passed(checks), 100 * Passed(better), |checks|);
  }

  // -------------------------------------------------------------------
  // The results object

  /** The keys of the results object. */
  function Keys(results: seq<CategoryResult>): set<string> {
    set i | 0 <= i < |results| :: results[i].id
  }

  lemma KeysCons(x: CategoryResult, s: seq<CategoryResult>)
    ensures Keys([x] + s) == {x.id} + Keys(s)
  {
    var xs := [x] + s;
    forall k | k in Keys(xs)
      ensures k in {x.id} + Keys(s)
    {
      var i :| 0 <= i < |xs| && xs[i].id == k;
      if i > 0 {
        assert s[i - 1].id == k;
      }
    }
    forall k | k in Keys(s)
      ensures k in Keys(xs)
    {
      var i :| 0 <= i < |s| && s[i].id == k;
      assert xs[i + 1].id == k;
    }
    assert xs[0].id == x.id;
  }

  predicate DistinctKeys(results: seq<CategoryResult>) {
    forall i, j :: 0 <= i < j < |results| ==> results[i].id != results[j].id
  }

  /**
   * `acc[r.id] = r`: an existing key keeps its place and takes the new
   * value; a new key goes last.
   */
  function Assign(results: seq<CategoryResult>, r: CategoryResult): (out: seq<CategoryResult>)
    ensures r in out
    ensures forall x :: x in out ==> x == r || x in results
    ensures |out| <= |results| + 1
    decreases |results|
  {
    if results == [] then [r]
    else if results[0].id == r.id then [r] + results[1..]
    else
      var rest := Assign(results[1..], r);
      assert forall x :: x in results[1..] ==> x in results;
      [results[0]] + rest
  }

  /** Assigning adds the key and keeps every other. */
  lemma {:induction false} AssignKeys(results: seq<CategoryResult>, r: CategoryResult)
    ensures Keys(Assign(results, r)) == Keys(results) + {r.id}
    decreases |results|
  {
    if results == [] {
      KeysCons(r, []);
      assert [r] + [] == [r];
    } else {
      var x := results[0];
      assert results == [x] + results[1..];
      KeysCons(x, results[1..]);
      if x.id == r.id {
        KeysCons(r, results[1..]);
      } else {
        AssignKeys(results[1..], r);
        KeysCons(x, Assign(results[1..], r));
      }
    }
  }

  /** A new key goes after every existing one. */
  lemma {:induction false} AssignNewKey(results: seq<CategoryResult>, r: CategoryResult)
    requires r.id !in Keys(results)
    ensures Assign(results, r) == results + [r]
    decreases |results|
  {
    if results != [] {
      var x := results[0];
      assert results == [x] + results[1..];
      KeysCons(x, results[1..]);
      AssignNewKey(results[1..], r);
    }
  }

  /** Assigning never duplicates a key. */
  lemma {:induction false} AssignDistinct(results: seq<CategoryResult>, r: CategoryResult)
    requires DistinctKeys(results)
    ensures DistinctKeys(Assign(results, r))
    decreases |results|
  {
    if results != [] {
      var x, tail := results[0], results[1..];
      DistinctUncons(results);
      var rest := if x.id == r.id then tail else Assign(tail, r);
      if x.id != r.id {
        AssignDistinct(tail, r);
        AssignKeys(tail, r);
      }
      var head := if x.id == r.id then r else x;
      assert Assign(results, r) == [head] + rest;
      DistinctCons(head, rest);
    }
  }

  /** A list without repeated keys: its tail has none either, and its head's key is not in the tail. */
  lemma DistinctUncons(results: seq<CategoryResult>)
    requires results != [] && DistinctKeys(results)
    ensures DistinctKeys(results[1..]) && results[0].id !in Keys(results[1..])
  {
    var tail := results[1..];
    forall i, j | 0 <= i < j < |tail|
      ensures tail[i].id != tail[j].id
    {
      assert tail[i] == results[i + 1] && tail[j] == results[j + 1];
    }
    forall j | 0 <= j < |tail|
      ensures tail[j].id != results[0].id
    {
      assert tail[j] == results[j + 1];
    }
  }

  lemma DistinctCons(head: CategoryResult, rest: seq<CategoryResult>)
    requires DistinctKeys(rest) && head.id !in Keys(rest)
    ensures DistinctKeys([head] + rest)
  {
    var xs := [head] + rest;
    forall i, j | 0 <= i < j < |xs|
      ensures xs[i].id != xs[j].id
    {
      if i == 0 {
        assert rest[j - 1].id in Keys(rest);
      } else {
        assert xs[i] == rest[i - 1] && xs[j] == rest[j - 1];
      }
    }
  }

  /** A category's entry: the category itself with its score and the run's timestamp. */
  function ResultOf(c: Category, now: int): CategoryResult {
    CategoryResult(c.id, c.name, c.checks, CategoryScore(c.checks), now)
  }

  /** The ids of the categories. */
  function Ids(categories: seq<Category>): set<string> {
    set i | 0 <= i < |categories| :: categories[i].id
  }

  /** The object the audit's reduce builds from the categories: no key twice. */
  function Results(categories: seq<Category>, now: int): (out: seq<CategoryResult>)
    ensures DistinctKeys(out)
    ensures |out| <= |categories|
    decreases |categories|
  {
    if categories == [] then []
    else
      var n := |categories| - 1;
      var acc := Results(categories[..n], now);
      AssignDistinct(acc, ResultOf(categories[n], now));
      Assign(acc, ResultOf(categories[n], now))
  }

  lemma IdsSnoc(categories: seq<Category>)
    requires categories != []
    ensures Ids(categories) == Ids(categories[..|categories| - 1]) + {categories[|categories| - 1].id}
  {
    var n := |categories| - 1;
    var init := categories[..n];
    forall k | k in Ids(categories)
      ensures k in Ids(init) + {categories[n].id}
    {
      var i :| 0 <= i < |categories| && categories[i].id == k;
      if i < n {
        assert init[i].id == k;
      }
    }
    forall k | k in Ids(init)
      ensures k in Ids(categories)
    {
      var i :| 0 <= i < n && init[i].id == k;
      assert categories[i].id == k;
    }
    assert categories[n].id in Ids(categories);
  }

  /** One key per category id, and no other. */
  lemma {:induction false} ResultsKeys(categories: seq<Category>, now: int)
    ensures Keys(Results(categories, now)) == Ids(categories)
    decreases |categories|
  {
    if categories != [] {
      var n := |categories| - 1;
      var init := categories[..n];
      ResultsKeys(init, now);
      AssignKeys(Results(init, now), ResultOf(categories[n], now));
      IdsSnoc(categories);
    }
  }

  /** The entry is the result of the category at some position. */
  predicate ResultOfSome(x: CategoryResult, categories: seq<Category>, now: int) {
    exists j :: 0 <= j < |categories| && x == ResultOf(categories[j], now)
  }

  /** Every entry is the result of one of the categories: its checks unchanged and scored. */
  lemma {:induction false} ResultsFromCategories(categories: seq<Category>, now: int)
    ensures forall x :: x in Results(categories, now) ==> ResultOfSome(x, categories, now)
    decreases |categories|
  {
    if categories != [] {
      var n := |categories| - 1;
      var init := categories[..n];
      ResultsFromCategories(init, now);
      forall x | x in Results(categories, now)
        ensures ResultOfSome(x, categories, now)
      {
        if x == ResultOf(categories[n], now) {
          assert x == ResultOf(categories[n], now);
        } else {
          assert ResultOfSome(x, init, now);
          var j :| 0 <= j < n && x == ResultOf(init[j], now);
          assert init[j] == categories[j];
        }
      }
    }
  }

  /** Each category's entry, in table order. */
  function EachResult(categories: seq<Category>, now: int): (out: seq<CategoryResult>)
    ensures |out| == |categories|
    ensures forall i :: 0 <= i < |categories| ==> out[i] == ResultOf(categories[i], now)
  {
    seq(|categories|, i requires 0 <= i < |categories| => ResultOf(categories[i], now))
  }

  lemma EachResultSnoc(categories: seq<Category>, now: int)
    requires categories != []
    ensures EachResult(categories, now)
         == EachResult(categories[..|categories| - 1], now) + [ResultOf(categories[|categories| - 1], now)]
  {
  }

  /** Categories with distinct ids give one entry each, in table order. */
  lemma {:induction false} ResultsOfDistinct(categories: seq<Category>, now: int)
    requires forall i, j :: 0 <= i < j < |categories| ==> categories[i].id != categories[j].id
    ensures Results(categories, now) == EachResult(categories, now)
    decreases |categories|
  {
    if categories != [] {
      var n := |categories| - 1;
      var init := categories[..n];
      ResultsOfDistinct(init, now);
      ResultsKeys(init, now);
      assert categories[n].id !in Ids(init) by {
        forall i | 0 <= i < n
          ensures init[i].id != categories[n].id
        {
          assert init[i] == categories[i];
        }
      }
      AssignNewKey(Results(init, now), ResultOf(categories[n], now));
      EachResultSnoc(categories, now);
    }
  }

  /** With distinct ids the k-th entry carries the k-th category's score. */
  lemma ScoresOfDistinct(categories: seq<Category>, now: int)
    requires forall i, j :: 0 <= i < j < |categories| ==> categories[i].id != categories[j].id
    ensures |Results(categories, now)| == |categories|
    ensures forall k :: 0 <= k < |categories| ==> Results(categories, now)[k].score == CategoryScore(categories[k].checks)
  {
    ResultsOfDistinct(categories, now);
  }

  /** The reduce of runSecurityAudit, key by key over the categories. */
  method Reduce(categories: seq<Category>, now: int) returns (results: seq<CategoryResult>)
    ensures results == Results(categories, now)
  {
    results := [];
    var k := 0;
    while k < |categories|
      invariant 0 <= k <= |categories|
      invariant results == Results(categories[..k], now)
    {
      assert categories[..k + 1][..k] == categories[..k];
      results := Assign(results, ResultOf(categories[k], now));
      k := k + 1;
    }
    assert categories[..k] == categories;
  }

  // -------------------------------------------------------------------
  // The overall score

  predicate AllScored(results: seq<CategoryResult>) {
    forall i :: 0 <= i < |results| ==> results[i].score.Some?
  }

  /** `scores.reduce((a, b) => a + b, 0)` over scores that are all numbers. */
  function ScoreSum(results: seq<CategoryResult>): int
    requires AllScored(results)
    decreases |results|
  {
    if results == [] then 0 else results[0].score.value + ScoreSum(results[1..])
  }

  /**
   * getOverallScore: 0 with no results, NaN (None) as soon as one score is
   * NaN, and otherwise the mean score rounded to the nearest integer.
   */
  function OverallScore(results: seq<CategoryResult>): (r: Option<int>)
    ensures |results| == 0 ==> r == Some(0)
    ensures r.None? <==> |results| > 0 && !AllScored(results)
  {
    if |results| == 0 then Some(0)
    else if !AllScored(results) then None
    else Some(RoundRatio(ScoreSum(results), |results|))
  }

  /** The overall score is the mean of the category scores to the nearest integer. */
  lemma OverallIsRoundedMean(results: seq<CategoryResult>)
    requires |results| > 0 && AllScored(results)
    ensures var r, n := OverallScore(results).value, |results|;
      2 * (r * n) - n <= 2 * ScoreSum(results) < 2 * (r * n) + n
  {
    RoundRatioNearest(ScoreSum(results), |results|);
  }

  /** The sum of scores that all lie between lo and hi. */
  lemma {:induction false} ScoreSumBetween(results: seq<CategoryResult>, lo: int, hi: int)
    requires AllScored(results)
    requires forall i :: 0 <= i < |results| ==> lo <= results[i].score.value <= hi
    ensures lo * |results| <= ScoreSum(results) <= hi * |results|
    decreases |results|
  {
    if results != [] {
      ScoreSumBetween(results[1..], lo, hi);
      assert lo * |results| == lo * |results[1..]| + lo;
      assert hi * |results| == hi * |results[1..]| + hi;
    }
  }

  /** The overall score lies between the lowest and the highest category score. */
  lemma OverallBetween(results: seq<CategoryResult>, lo: int, hi: int)
    requires |results| > 0 && AllScored(results)
    requires forall i :: 0 <= i < |results| ==> lo <= results[i].score.value <= hi
    ensures lo <= OverallScore(results).value <= hi
  {
    ScoreSumBetween(results, lo, hi);
    RoundRatioBetween(ScoreSum(results), |results|, lo, hi);
  }

  /** After a run over categories that all have checks, the overall score is a percentage. */
  lemma OverallOfRunIsPercentage(categories: seq<Category>, now: int)
    requires forall i :: 0 <= i < |categories| ==> |categories[i].checks| > 0
    ensures var o := OverallScore(Results(categories, now)); o.Some? && 0 <= o.value <= 100
  {
    var results := Results(categories, now);
    ResultsFromCategories(categories, now);
    if |results| > 0 {
      forall i | 0 <= i < |results|
        ensures results[i].score.Some? && 0 <= results[i].score.value <= 100
      {
        assert results[i] in results;
        var c :| c in categories && results[i] == ResultOf(c, now);
      }
      OverallBetween(results, 0, 100);
    }
  }

  // -------------------------------------------------------------------
  // The fixed table

  function PassBit(c: AuditCheck): int {
    if IsPass(c) then 1 else 0
  }

  lemma CountCons<T>(s: seq<T>, p: T -> bool)
    requires s != []
    ensures Count(s, p) == (if p(s[0]) then 1 else 0) + Count(s[1..], p)
  {
  }

  /** The passes of five checks, one check at a time. */
  lemma PassedOfFive(s: seq<AuditCheck>)
    requires |s| == 5
    ensures Passed(s) == PassBit(s[0]) + PassBit(s[1]) + PassBit(s[2]) + PassBit(s[3]) + PassBit(s[4])
  {
    assert Passed(s[4..]) == PassBit(s[4]) by {
      CountCons(s[4..], IsPass);
      assert s[4..][1..] == [];
    }
    assert Passed(s[3..]) == PassBit(s[3]) + Passed(s[4..]) by {
      CountCons(s[3..], IsPass);
      assert s[3..][1..] == s[4..];
    }
    assert Passed(s[2..]) == PassBit(s[2]) + Passed(s[3..]) by {
      CountCons(s[2..], IsPass);
      assert s[2..][1..] == s[3..];
    }
    assert Passed(s[1..]) == PassBit(s[1]) + Passed(s[2..]) by {
      CountCons(s[1..], IsPass);
      assert s[1..][1..] == s[2..];
    }
    CountCons(s, IsPass);
  }

  /** Three passes of five checks score 60; four score 80. */
  lemma FiveCheckScore(s: seq<AuditCheck>)
    requires |s| == 5
    ensures Passed(s) == 3 ==> CategoryScore(s) == Some(60)
    ensures Passed(s) == 4 ==> CategoryScore(s) == Some(80)
  {
  }

  lemma PasswordsScore()
    ensures CategoryScore(PasswordChecks) == Some(60)
  {
    PassedOfFive(PasswordChecks);
    FiveCheckScore(PasswordChecks);
  }

  lemma AccessScore()
    ensures CategoryScore(AccessChecks) == Some(60)
  {
    PassedOfFive(AccessChecks);
    FiveCheckScore(AccessChecks);
  }

  lemma NetworkScore()
    ensures CategoryScore(NetworkChecks) == Some(80)
  {
    PassedOfFive(NetworkChecks);
    FiveCheckScore(NetworkChecks);
  }

  lemma DataScore()
    ensures CategoryScore(DataChecks) == Some(60)
  {
    PassedOfFive(DataChecks);
    FiveCheckScore(DataChecks);
  }

  /** Four results scored a, b, c and d have the overall score round((a + b + c + d) / 4). */
  lemma OverallOfFour(r: seq<CategoryResult>, a: int, b: int, c: int, d: int)
    requires |r| == 4
    requires r[0].score == Some(a) && r[1].score == Some(b) && r[2].score == Some(c) && r[3].score == Some(d)
    ensures OverallScore(r) == Some(RoundRatio(a + b + c + d, 4))
  {
    assert AllScored(r);
    assert ScoreSum(r[3..]) == d by {
      assert r[3..][1..] == [];
    }
    assert ScoreSum(r[2..]) == c + ScoreSum(r[3..]) by {
      assert r[2..][1..] == r[3..];
    }
    assert ScoreSum(r[1..]) == b + ScoreSum(r[2..]) by {
      assert r[1..][1..] == r[2..];
    }
  }

  lemma FixedIdsDistinct()
    ensures forall i, j :: 0 <= i < j < |AuditCategories| ==> AuditCategories[i].id != AuditCategories[j].id
  {
    var cs := AuditCategories;
    assert cs[0].id[0] == 'p' && cs[1].id[0] == 'a' && cs[2].id[0] == 'n' && cs[3].id[0] == 'd';
  }

  /** Four categories with distinct ids and the table's checks score 60, 60, 80 and 60. */
  lemma TableScores(cs: seq<Category>, now: int)
    requires |cs| == 4 && forall i, j :: 0 <= i < j < |cs| ==> cs[i].id != cs[j].id
    requires cs[0].checks == PasswordChecks && cs[1].checks == AccessChecks
    requires cs[2].checks == NetworkChecks && cs[3].checks == DataChecks
    ensures var r := Results(cs, now);
      |r| == 4 && r[0].score == Some(60) && r[1].score == Some(60)
      && r[2].score == Some(80) && r[3].score == Some(60)
  {
    ScoresOfDistinct(cs, now);
    PasswordsScore();
    AccessScore();
    NetworkScore();
    DataScore();
  }

  /** The audit of the fixed table scores its categories 60, 60, 80 and 60, in table order. */
  lemma FixedResults(now: int)
    ensures var r := Results(AuditCategories, now);
      |r| == 4 && r[0].score == Some(60) && r[1].score == Some(60)
      && r[2].score == Some(80) && r[3].score == Some(60)
  {
    FixedIdsDistinct();
    TableScores(AuditCategories, now);
  }

  lemma OverallOfFixedScores(r: seq<CategoryResult>)
    requires |r| == 4 && r[0].score == Some(60) && r[1].score == Some(60)
    requires r[2].score == Some(80) && r[3].score == Some(60)
    ensures OverallScore(r) == Some(65)
  {
    OverallOfFour(r, 60, 60, 80, 60);
  }

  /** The overall score of the fixed table: the mean of 60, 60, 80 and 60, 65. */
  lemma FixedOverallScore(now: int)
    ensures OverallScore(Results(AuditCategories, now)) == Some(65)
  {
    FixedResults(now);
    OverallOfFixedScores(Results(AuditCategories, now));
  }

  /** The panel's state: the results object and whether a scan is under way. */
  class AuditPanel {
    var auditCategories: seq<Category>
    var auditResults: seq<CategoryResult>
    var scanning: bool

    constructor()
      ensures auditCategories == AuditCategories && auditResults == [] && !scanning
    {
      auditCategories := AuditCategories;
      auditResults := [];
      scanning := false;
    }

    /** runSecurityAudit: the scan starts; its results arrive when the timer fires. */
    method RunSecurityAudit()
      modifies this
      ensures scanning && auditResults == old(auditResults) && auditCategories == old(auditCategories)
    {
      scanning := true;
    }

    /** The three-second timer of runSecurityAudit: the results object replaces the old one and the scan ends. */
    method CompleteAudit(now: int)
      modifies this
      ensures auditResults == Results(auditCategories, now) && !scanning
      ensures auditCategories == old(auditCategories)
    {
      var results := Reduce(auditCategories, now);
      auditResults := results;
      scanning := false;
    }
  }
}

=== FILE: use_chatbot.dfy ===
/**
 * The `useDynamicChatBot` hook (src/hooks/useChatBot.ts): it maps the
 * signed-in user and the donation rows into the assistant's context, keeps
 * the conversation history and the current chat session, and forwards
 * messages to a `DynamicChatBot`.
 *
 * The clock is a parameter: `now` stands for every `Date.now()` reading of
 * one call (as whole milliseconds) and `nowIso` for `new Date().toISOString()`.
 */
module UseChatBot {
  import opened Common
  import opened Domain
  import opened ChatBotResponses

  // ---------------------------------------------------------------------
  // Mapping backend records into the assistant's context

  /** mapUser: no user maps to none; a role outside the four becomes `restaurant`. */
  function MapUser(u: Option<AuthUser>, nowIso: string): (r: Option<User>)
    ensures r.None? <==> u.None?
    ensures r.Some? ==> r.value.id == u.value.id && r.value.email == OrString(u.value.email, "")
    ensures r.Some? && u.value.role.Some? && RoleNamed(u.value.role.value).Some? ==>
              r.value.role.Name() == u.value.role.value
    ensures r.Some? && (u.value.role.None? || RoleNamed(u.value.role.value).None?) ==>
              r.value.role == Restaurant
  {
    match u
    case None => None
    case Some(au) =>
      var meta := au.metadata.GetOr(UserMetadata(None, None, None, None));
      var loc := meta.location.GetOr(LocationMetadata(None, None, None));
      var role := if au.role.Some? then RoleNamed(au.role.value) else None;
      Some(User(
        au.id,
        OrString(meta.name, "Unknown"),
        OrString(au.email, ""),
        OrString(meta.phone, ""),
        role.GetOr(Restaurant),
        Location(loc.lat.GetOr(0.0), loc.lng.GetOr(0.0), OrString(loc.address, "Unknown")),
        meta.verified.GetOr(false),
        OrString(au.createdAt, nowIso)))
  }

  /** The four statuses the client-side donation type allows. */
  predicate Listable(d: Donation) {
    d.status != Cancelled
  }

  /** One donation row in the client-side shape: `userId` is the donor id. */
  function ToChatDonation(d: Donation): (r: ChatDonation)
    ensures r.id == d.id && r.userId == d.donorId && r.status == d.status && r.quantity == d.quantity
  {
    var donorName := if d.donor.Some? then Some(d.donor.value.name) else None;
    ChatDonation(d.id, d.donorId, OrString(donorName, "Unknown"), d.foodName, d.foodType, d.quantity,
                 d.status, d.expiryTime, d.createdAt)
  }

  /** mapDonations: drop cancelled rows, convert the rest, keep their order. */
  function MapDonations(ds: seq<Donation>): (r: seq<ChatDonation>)
    ensures |r| == Count(ds, Listable)
    ensures forall i :: 0 <= i < |r| ==> r[i].status != Cancelled
    decreases |ds|
  {
    if ds == [] then []
    else (if Listable(ds[0]) then [ToChatDonation(ds[0])] else []) + MapDonations(ds[1..])
  }

  /** Every listable row appears, converted, in the result. */
  lemma {:induction false} MapDonationsKeepsListable(ds: seq<Donation>, i: nat)
    requires i < |ds| && Listable(ds[i])
    ensures ToChatDonation(ds[i]) in MapDonations(ds)
    decreases i
  {
    if i > 0 {
      MapDonationsKeepsListable(ds[1..], i - 1);
    }
  }

  /** The mapping works row by row, so it keeps the rows' relative order. */
  lemma {:induction false} MapDonationsAppend(a: seq<Donation>, b: seq<Donation>)
    ensures MapDonations(a + b) == MapDonations(a) + MapDonations(b)
    decreases |a|
  {
    if a == [] {
      assert a + b == b;
    } else {
      var d, rest := a[0], a[1..];
      assert a == [d] + rest;
      assert a + b == [d] + (rest + b);
      MapDonationsCons(d, rest);
      MapDonationsCons(d, rest + b);
      MapDonationsAppend(rest, b);
      var h := if Listable(d) then [ToChatDonation(d)] else [];
      assert MapDonations(a) == h + MapDonations(rest);
      assert MapDonations(a + b) == h + (MapDonations(rest) + MapDonations(b));
      AppendAssociative(h, MapDonations(rest), MapDonations(b));
    }
  }

  lemma MapDonationsCons(d: Donation, ds: seq<Donation>)
    ensures MapDonations([d] + ds) == (if Listable(d) then [ToChatDonation(d)] else []) + MapDonations(ds)
  {
    assert ([d] + ds)[0] == d && ([d] + ds)[1..] == ds;
  }

  predicate IsAvailable(d: ChatDonation) {
    d.status == Available
  }

  predicate IsCollected(d: ChatDonation) {
    d.status == Collected
  }

  function Quantity(d: ChatDonation): int {
    d.quantity
  }

  function CollectedQuantity(d: ChatDonation): int {
    if d.status == Collected then d.quantity else 0
  }

  /** getUserStats: donor figures over the user's own rows, NGO figures over all rows, nothing otherwise. */
  function UserStats(user: Option<User>, ds: seq<ChatDonation>): (r: Stats)
    ensures user.None? ==> r == NoStats
    ensures user.Some? && user.value.role.IsDonor() ==>
      var mine := OwnDonations(ds, user.value.id);
      r.totalDonations == Some(|mine|)
      && r.activeDonations == Some(|Filter(mine, IsAvailable)|)
      && r.activeDonations.value <= |mine|
      && r.totalServed == Some(Sum(Filter(mine, IsCollected), Quantity))
      && r.availableFood.None? && r.pendingRequests.None?
    ensures user.Some? && user.value.role == Ngo ==>
      r == Stats(None, None, Some(0), Some(Count(ds, IsAvailable)), Some(0))
    ensures user.Some? && user.value.role == Admin ==> r == NoStats
  {
    if user.None? then NoStats
    else
      var u := user.value;
      match u.role
      case Restaurant => DonorStats(u, ds)
      case Society => DonorStats(u, ds)
      case Ngo => Stats(None, None, Some(0), Some(Count(ds, IsAvailable)), Some(0))
      case Admin => NoStats
  }

  /** `donations.filter(d => d.userId === id)` */
  function OwnDonations(ds: seq<ChatDonation>, id: string): seq<ChatDonation> {
    Filter(ds, (d: ChatDonation) => d.userId == id)
  }

  function DonorStats(u: User, ds: seq<ChatDonation>): (r: Stats)
    ensures var mine := OwnDonations(ds, u.id);
      r.totalDonations == Some(|mine|)
      && r.activeDonations == Some(|Filter(mine, IsAvailable)|)
      && r.totalServed == Some(Sum(Filter(mine, IsCollected), Quantity))
  {
    var mine := OwnDonations(ds, u.id);
    SumOverFilter(mine, IsCollected, Quantity, CollectedQuantity);
    Stats(Some(|mine|), Some(Count(mine, IsAvailable)), Some(Sum(mine, CollectedQuantity)), None, None)
  }

  /** The context the hook builds from the signed-in user and the donation rows. */
  function ContextFor(u: Option<AuthUser>, ds: seq<Donation>, nowIso: string): ChatContext {
    var user := MapUser(u, nowIso);
    var donations := MapDonations(ds);
    ChatContext(user, donations, None, Some(UserStats(user, donations)))
  }

  /** The partial context sendMessage passes to updateContext. */
  function PatchFor(u: Option<AuthUser>, ds: seq<Donation>, nowIso: string): (p: ContextPatch)
    ensures p.currentPage.None?
  {
    var c := ContextFor(u, ds, nowIso);
    ContextPatch(Some(c.user), Some(c.donations), None, Some(c.userStats))
  }

  // ---------------------------------------------------------------------
  // Conversation state

  /** A message text: what the user typed, the assistant's answer, or the escalation notice. */
  datatype MessageText = Typed(typed: string) | Answer(answer: ResponseText) | EscalationNotice

  datatype Metadata = Metadata(priority: Option<Priority>, requiresHuman: Option<bool>)

  datatype Message = Message(id: string, text: MessageText, sender: Sender, timestamp: nat, metadata: Option<Metadata>)

  datatype SessionType = GeneralChat | SupportChat | EmergencyChat

  datatype SessionStatus = Active | Resolved | Escalated

  datatype Session = Session(
    id: string, userId: string, kind: SessionType, status: SessionStatus,
    messages: seq<Message>, createdAt: nat, updatedAt: nat)

  function UserMessage(text: string, now: nat): (m: Message)
    ensures m.sender == UserSender && m.metadata.None?
  {
    Message(Decimal(now), Typed(text), UserSender, now, None)
  }

  /** The assistant's answer: sent as `support` exactly when it asks for a human. */
  function BotMessage(r: ChatResponse, now: nat): (m: Message)
    ensures m.sender == SupportSender <==> r.requiresHuman == Some(true)
    ensures m.metadata == Some(Metadata(r.priority, r.requiresHuman))
  {
    Message(Decimal(now + 1), Answer(r.text), if r.requiresHuman == Some(true) then SupportSender else BotSender,
            now, Some(Metadata(r.priority, r.requiresHuman)))
  }

  /** The user message and the answer of one exchange have different ids. */
  lemma ExchangeIdsDiffer(text: string, r: ChatResponse, now: nat)
    ensures UserMessage(text, now).id != BotMessage(r, now).id
  {
    DecimalInjective(now, now + 1);
  }

  function EscalationMessage(now: nat): Message {
    Message(Decimal(now), EscalationNotice, BotSender, now, Some(Metadata(Some(High), Some(true))))
  }

  /** `supabaseUser?.id || 'anonymous'` */
  function SessionOwner(u: Option<AuthUser>): string {
    if u.Some? && u.value.id != "" then u.value.id else "anonymous"
  }

  /** The session the first exchange opens: an emergency session iff the answer is urgent. */
  function OpenSession(u: Option<AuthUser>, user: Message, bot: Message, r: ChatResponse, now: nat): (s: Session)
    ensures s.status == Active && s.messages == [user, bot]
    ensures s.kind == EmergencyChat <==> r.priority == Some(Urgent)
  {
    Session("SESSION-" + Decimal(now), SessionOwner(u), if r.priority == Some(Urgent) then EmergencyChat else GeneralChat,
            Active, [user, bot], now, now)
  }

  /** The session after an exchange: a new one, or the current one with the exchange appended. */
  function NextSession(current: Option<Session>, u: Option<AuthUser>, user: Message, bot: Message, r: ChatResponse, now: nat): Session {
    if current.None? then OpenSession(u, user, bot, r, now)
    else current.value.(messages := current.value.messages + [user, bot], updatedAt := now)
  }

  /**
   * Over a whole exchange: the answer goes out from `support`, and a first
   * exchange opens an emergency session, exactly when the normalised message
   * holds an urgent keyword.
   */
  lemma ExchangeEscalatesOnUrgentWords(c: ChatContext, text: string, u: Option<AuthUser>, now: nat)
    ensures var r := Respond(c, text);
      var bot := BotMessage(r, now);
      (bot.sender == SupportSender <==> AnyContained(Normalize(text), UrgentKeywords))
      && ((OpenSession(u, UserMessage(text, now), bot, r, now).kind == EmergencyChat)
          <==> AnyContained(Normalize(text), UrgentKeywords))
  {
    RespondEmergency(c, text);
  }

  /** The session after escalateToHuman: a support chat, escalated and stamped; its identity and messages kept. */
  function Escalate(s: Session, now: nat): (e: Session)
    ensures e.status == Escalated && e.kind == SupportChat && e.updatedAt == now
    ensures e.id == s.id && e.userId == s.userId && e.messages == s.messages && e.createdAt == s.createdAt
  {
    s.(status := Escalated, kind := SupportChat, updatedAt := now)
  }

  /** The session after endSession: resolved and stamped; its identity, kind and messages kept. */
  function Resolve(s: Session, now: nat): (e: Session)
    ensures e.status == Resolved && e.updatedAt == now
    ensures e.id == s.id && e.userId == s.userId && e.kind == s.kind && e.messages == s.messages && e.createdAt == s.createdAt
  {
    s.(status := Resolved, updatedAt := now)
  }

  /**
   * escalateToHuman does not look at the session's status: a session that
   * endSession resolved is escalated just as if it were still active.
   */
  lemma EscalationIgnoresStatus(s: Session, now: nat, later: nat)
    ensures Resolve(s, now).status == Resolved
    ensures Escalate(Resolve(s, now), later) == Escalate(s.(status := Active), later)
  {
  }

  class ChatBotHook {
    var chatBot: DynamicChatBot?
    var currentSession: Option<Session>
    var isProcessing: bool
    var history: seq<Message>

    constructor()
      ensures chatBot == null && currentSession.None? && !isProcessing && history == []
    {
      chatBot := null;
      currentSession := None;
      isProcessing := false;
      history := [];
    }

    /** The effect that builds a new assistant whenever the user or the donation rows change. */
    method Initialize(u: Option<AuthUser>, ds: seq<Donation>, nowIso: string)
      modifies this
      ensures chatBot != null && fresh(chatBot) && chatBot.context == ContextFor(u, ds, nowIso)
      ensures currentSession == old(currentSession) && history == old(history) && isProcessing == old(isProcessing)
    {
      chatBot := new DynamicChatBot(ContextFor(u, ds, nowIso));
    }

    /**
     * sendMessage: fails without an assistant; otherwise refreshes the
     * assistant's context, answers, appends the user message and the answer
     * to the history, and opens or extends the current session.
     */
    method SendMessage(text: string, u: Option<AuthUser>, ds: seq<Donation>, now: nat, nowIso: string)
      returns (result: Result<ChatResponse>)
      modifies this, chatBot
      ensures chatBot == old(chatBot)
      ensures old(chatBot) == null ==>
        result.Failure? && history == old(history) && currentSession == old(currentSession)
        && isProcessing == old(isProcessing)
      ensures old(chatBot) != null ==>
        var c := Merge(old(chatBot.context), PatchFor(u, ds, nowIso));
        var r := Respond(c, text);
        var user := UserMessage(text, now);
        var bot := BotMessage(r, now);
        chatBot.context == c
        && result == Success(r)
        && !isProcessing
        && history == old(history) + [user, bot]
        && (old(currentSession).None? ==> currentSession == Some(OpenSession(u, user, bot, r, now)))
        && (old(currentSession).Some? ==>
              currentSession == Some(old(currentSession).value.(messages := old(currentSession).value.messages + [user, bot],
                                                                 updatedAt := now)))
    {
      if chatBot == null {
        return Failure("ChatBot not initialized");
      }
      chatBot.UpdateContext(PatchFor(u, ds, nowIso));
      var r := chatBot.GenerateResponse(text);
      Record(UserMessage(text, now), BotMessage(r, now), NextSession(currentSession, u, UserMessage(text, now), BotMessage(r, now), r, now));
      result := Success(r);
    }

    /** The end of an exchange: both messages join the history and the session is stored. */
    method Record(user: Message, bot: Message, session: Session)
      modifies this
      ensures history == old(history) + [user, bot] && currentSession == Some(session) && !isProcessing
      ensures chatBot == old(chatBot)
    {
      history, currentSession, isProcessing := history + [user, bot], Some(session), false;
    }

    /** escalateToHuman: escalates any current session and always logs one notice in the history only. */
    method EscalateToHuman(now: nat)
      modifies this
      ensures history == old(history) + [EscalationMessage(now)]
      ensures old(currentSession).None? ==> currentSession.None?
      ensures old(currentSession).Some? ==>
        currentSession == Some(Escalate(old(currentSession).value, now))
      ensures chatBot == old(chatBot) && isProcessing == old(isProcessing)
    {
      if currentSession.Some? {
        var s := currentSession.value;
        currentSession := Some(Escalate(s, now));
      }
      history := history + [EscalationMessage(now)];
    }

    /** endSession: marks any current session resolved; nothing else changes. */
    method EndSession(now: nat)
      modifies this
      ensures old(currentSession).None? ==> currentSession.None?
      ensures old(currentSession).Some? ==>
        currentSession == Some(Resolve(old(currentSession).value, now))
      ensures history == old(history) && chatBot == old(chatBot) && isProcessing == old(isProcessing)
    {
      if currentSession.Some? {
        var s := currentSession.value;
        currentSession := Some(Resolve(s, now));
      }
    }

    method ClearHistory()
      modifies this
      ensures history == [] && currentSession.None?
      ensures chatBot == old(chatBot) && isProcessing == old(isProcessing)
    {
      history := [];
      currentSession := None;
    }

    /** The assistant's starter questions, or none before it exists. */
    function ContextualSuggestions(): (r: seq<string>)
      reads this, chatBot
      ensures chatBot == null ==> r == []
      ensures chatBot != null ==> |r| == if chatBot.context.user.None? then 4 else 5
    {
      if chatBot == null then [] else chatBot.ContextualSuggestions()
    }
  }
}
